=== FILE: README.md ===
# Job-tracking dashboard: a Dafny model of its client-side logic

The dashboard is a React front end for a job-tracking service. Most of it is
layout, but some of it is real logic, and this project models that logic as
pure Dafny functions over immutable data and proves properties about them.

- **Analytics event pipeline.** Classifying the user from browser storage.
  Looking up the session id, which is idempotent. The five `track*` calls,
  which append to a FIFO queue. The conversion side effects. The periodic
  flush, which drains the queue into one batch. The unload beacon. The
  automatic page view a re-render adds.
- **Tracking wrappers.** These decide which tracking calls a button, link,
  form, `useTrackClick` or `withTracking` makes, and in which order.
- **Status badge and colour helpers.** Normalising and classifying status
  strings, the display text, and case-insensitive colour lookup.
- **Data table.** The loading and empty guards, the page-number window with
  its ellipses, and the "Showing X to Y of Z" range.
- **Jobs page.** The stats aggregates with their `||` fallbacks, the submit
  dispatch, the priority icon, the table cells and the delete-confirm flow.
- **Job and customer forms.** Reset values, the declared validation rules,
  the e-mail pattern, the browser's own number and e-mail checks, the
  submitted payload, the submit lifecycle and the per-mode footer.
- **API client.** The URL, the header merge, turning an HTTP status and body into an
  error message, the rewrite of a connection error, and the query string
  built from the search filters.
- **Analytics filter helpers and chart transforms.** The demo-mode select,
  the user-type checkbox toggle, the filter merge, landing-page labels,
  feature adoption lookup, colours and slicing.

Representation choices:

- Absent values (`undefined`/`null`) are `Option`. JavaScript truthiness is
  spelled out: an empty string and `0` are falsy.
- Browser storage is a `map<string, string>`.
- Amounts and hours are `real`.
- The clock, the random source, `window.location`, `document.referrer` and
  the user agent are parameters (`Env`, `nowMs`, `randomPart`).
- The network is a parameter too: what `fetch` answered, or what it threw.
- The modules follow the source files: `Common` (shared helpers), `Types`,
  `Analytics`, `Trackable`, `StatusBadge`, `Utils`, `DataTable`, `Jobs`,
  `Forms` (shared form-footer and submit lifecycle), `JobForm`,
  `CustomerForm`, `Api` and `AnalyticsExamples`.

## Model

| member | source | states |
|---|---|---|
| Types.StatusNameInjective | src/types/index.ts:19 | The four job statuses have distinct wire names. |
| Analytics.Spread | src/contexts/AnalyticsContext.tsx:149-153 | Spreading absent properties contributes no keys; present properties are copied as they are. The same holds for the spread at line 193 and for the empty-object fallback at line 109. |
| Analytics.ClassifyUser | src/contexts/AnalyticsContext.tsx:26-36 | Classification follows the priority authenticated > waitlisted > demo > anonymous. The token and the waitlist e-mail count only when truthy, and demo needs `demo_mode` to be exactly `"true"`. Each class holds exactly when its condition does. |
| Analytics.GenerateSessionId | src/contexts/AnalyticsContext.tsx:11-13 | A fresh id starts with `session_` and is longer than that prefix. |
| Analytics.SessionIdsDifferAcrossClock | src/contexts/AnalyticsContext.tsx:10-13 | Ids generated at different milliseconds differ, whatever the random suffixes. |
| Analytics.GetSessionId | src/contexts/AnalyticsContext.tsx:16-23 | A stored non-empty id is returned and storage is left alone. Otherwise a fresh `session_` id is stored. Either way storage afterwards holds the returned id. |
| Analytics.GetSessionIdIdempotent | src/contexts/AnalyticsContext.tsx:16-23 | A second lookup returns the same id and storage, whatever the clock and random source say the second time. |
| Analytics.Mount | src/contexts/AnalyticsContext.tsx:39-43 | As first rendered, before its effects run, a provider has a non-empty session id, which is also in session storage. Its user type and demo flag are read from local storage, and its queue, posted batches and warnings start empty. |
| Analytics.SessionSeconds | src/contexts/AnalyticsContext.tsx:171 | Session duration is elapsed milliseconds divided by 1000, rounded down: r·1000 ≤ elapsed < r·1000 + 1000. |
| Analytics.TrackEvent | src/contexts/AnalyticsContext.tsx:101-118 | Appends exactly one event and leaves earlier entries untouched. The event snapshots session, demo mode and user type, and carries the current path and the given properties (or `{}`). |
| Analytics.TrackPageView | src/contexts/AnalyticsContext.tsx:120-135 | Appends one `page_view` event for the given page. Its properties are exactly `referrer` (the argument, else the document referrer) and `userAgent`. |
| Analytics.FeatureProps | src/contexts/AnalyticsContext.tsx:149-154 | The property set is `feature`, `action` and `demo_mode` plus the caller's keys. A caller key overrides the built-in one of the same name. |
| Analytics.TrackFeatureInteraction | src/contexts/AnalyticsContext.tsx:137-158 | Appends one `feature_interaction` event whose properties are the merge above, and changes nothing else. |
| Analytics.EmailDomain | src/contexts/AnalyticsContext.tsx:170 | Without an e-mail, or with one lacking `@`, the domain is undefined. Otherwise it is exactly the text between the first `@` and the next `@`, or the end of the address. |
| Analytics.TrackConversion | src/contexts/AnalyticsContext.tsx:160-180 | Appends one `waitlist_signup_completed` event. The user type becomes waitlisted, and `waitlist_email` is stored as the e-mail, or `"true"` when none is given. |
| Analytics.TrackWaitlistCTA | src/contexts/AnalyticsContext.tsx:182-198 | Appends one `waitlist_cta_triggered` event. Caller properties override `source` and `sessionDuration`. |
| Analytics.StorageChanged | src/contexts/AnalyticsContext.tsx:46-54 | The storage handler reclassifies the user and re-reads the demo flag. The handler itself leaves the queue, posted batches and session as they were. |
| Analytics.SendWarning | src/contexts/AnalyticsContext.tsx:57-75 | A send produces no warning exactly when the server answered 2xx. Every failure is only a warning. |
| Analytics.FlushTick | src/contexts/AnalyticsContext.tsx:78-87 | Once every earlier step has rendered: an empty queue sends nothing, and a non-empty queue posts one batch equal to the whole queue, in order, after which the queue is empty. Failed batches are never re-enqueued. |
| Analytics.UnloadBeacon | src/contexts/AnalyticsContext.tsx:91-95 | Once every earlier step has rendered, a beacon is sent exactly when the queue is non-empty, and it carries the entire queue. |
| Analytics.NoBeaconAfterFlush | src/contexts/AnalyticsContext.tsx:78-95 | Once the flush's clear has rendered, unloading sends no beacon. |
| Analytics.Apply | src/contexts/AnalyticsContext.tsx:101-198 | Every tracking step appends one snapshotting event, and no step changes the session id. |
| Analytics.ApplyStream | src/contexts/AnalyticsContext.tsx:78-198 | With every step rendered before the next: over posted batches followed by the queue, a tracking call adds its event at the end, and a flush or a storage handler leaves that stream unchanged. |
| Analytics.RunConservesEvents | src/contexts/AnalyticsContext.tsx:78-198 | Over any run whose every step has rendered before the next, no event is lost, duplicated or reordered. The stream grows by one event per tracking step and keeps its old prefix. |
| Analytics.RunKeepsOneSession | src/contexts/AnalyticsContext.tsx:39 | Every event ever queued or posted carries the provider's one session id. |
| Analytics.RunSnocTrack | src/contexts/AnalyticsContext.tsx:117 | Adding a tracking step to the end of a run adds its event to the end of the queue. |
| Analytics.TrackingRunQueue | src/contexts/AnalyticsContext.tsx:101-198 | A run of tracking calls appends its events to the queue in call order and posts nothing. |
| Analytics.BatchIsCallsInOrder | src/contexts/AnalyticsContext.tsx:78-87 | Starting from an empty queue, with every call rendered before the tick, the next flush posts exactly the events of the calls made, in call order. |
| Analytics.ConversionReclassifies | src/contexts/AnalyticsContext.tsx:177-179 | After a conversion, reclassifying from storage gives waitlisted, unless an auth token is set. |
| Analytics.AutoPageView | src/contexts/AnalyticsContext.tsx:230-233 | The effect appends one page view of the current location, with the document's referrer, built from the provider's current state. |
| Analytics.MountTracksLandingPage | src/contexts/AnalyticsContext.tsx:39-43 | After the first render's effect, the queue holds exactly one page view of the landing page, in the new session and carrying the visitor's classification. |
| Analytics.Render | src/contexts/AnalyticsContext.tsx:120-135 | `trackPageView` depends on the session id, demo flag and user type. When a step changes one of them, the render re-runs the effect and appends a page view with the new values. Otherwise the render adds nothing. |
| Analytics.CallbacksRebuilt | src/contexts/AnalyticsContext.tsx:120-135 | `trackPageView` is rebuilt only when one of its dependencies changes (session id, demo flag, user type). A change only to the start time, the queue, the stored data, the posted batches or the warnings never rebuilds it. |
| Analytics.RebuildIff | src/contexts/AnalyticsContext.tsx:46-54 | The effect re-runs exactly after a conversion by a visitor who was not waitlisted, or a storage event that changes the classification or the demo flag. |
| Analytics.RenderStream | src/contexts/AnalyticsContext.tsx:230-233 | A render keeps the step's stream and adds only the extra page view, when there is one. |
| Analytics.ConversionAddsPageView | src/contexts/AnalyticsContext.tsx:160-180 | A converting visitor leaves two events: the signup, with the old user type, then a page view tagged waitlisted. |
| Analytics.ScenarioPageViewThenClick | src/contexts/AnalyticsContext.tsx:101-135 | A page view followed by a click flushes as one batch of two events, in order and in one session. |
| Trackable.EventPart | src/components/Analytics/TrackableComponents.tsx:26-28 | `trackEvent` is called exactly when the event name is truthy. |
| Trackable.FeaturePart | src/components/Analytics/TrackableComponents.tsx:30-32 | `trackFeatureInteraction` is called exactly when feature and action are both truthy. |
| Trackable.HandlerPart | src/components/Analytics/TrackableComponents.tsx:35-37 | The original handler runs exactly when one is given. |
| Trackable.ButtonClick | src/components/Analytics/TrackableComponents.tsx:24-38 | The order is event, then feature, then `onClick`. Each happens exactly under its own condition, with the caller's arguments. |
| Trackable.LinkClick | src/components/Analytics/TrackableComponents.tsx:62-72 | A link never tracks a feature interaction. It tracks the event when named, then calls `onClick` when given. |
| Trackable.FormSubmit | src/components/Analytics/TrackableComponents.tsx:98-112 | A feature alone triggers a feature interaction with action `form_submit`. The order is event, then feature, then `onSubmit`. |
| Trackable.TrackClick | src/components/Analytics/TrackableComponents.tsx:125-136 | The event is always tracked. A feature interaction follows only when feature and action are both given. No handler is involved. |
| Trackable.WrappedMount | src/components/Analytics/TrackableComponents.tsx:154-159 | Tracks the per-instance event name, else the default one, and nothing when both are absent. Properties are the defaults overridden by the per-instance ones. |
| Trackable.PerformAppends | src/components/Analytics/TrackableComponents.tsx:24-136 | Performing effects appends one event per tracking effect and keeps the old queue as a prefix. Every other effect is one handler call. |
| Trackable.PerformConcat | src/components/Analytics/TrackableComponents.tsx:24-38 | Performing two effect lists in sequence is performing their concatenation. |
| Trackable.PerformAtMostOne | src/components/Analytics/TrackableComponents.tsx:24-38 | Performing no effect changes nothing. One tracking effect is one provider step, and one handler effect is one handler call. |
| Trackable.EventPartStep | src/components/Analytics/TrackableComponents.tsx:26-28 | Performing the event part is `trackEvent` when named, and nothing otherwise. |
| Trackable.FeaturePartStep | src/components/Analytics/TrackableComponents.tsx:30-32 | Performing the feature part is `trackFeatureInteraction` when feature and action are set, and nothing otherwise. |
| Trackable.HandlerPartStep | src/components/Analytics/TrackableComponents.tsx:35-37 | Performing the handler part counts one call when a handler is given. |
| Trackable.ButtonClickSteps | src/components/Analytics/TrackableComponents.tsx:24-38 | A click leaves the provider as `trackEvent` followed by `trackFeatureInteraction` would, each under its condition. The handler runs once when present. |
| Trackable.ButtonClickEffect | src/components/Analytics/TrackableComponents.tsx:24-38 | A click appends one event per configured call, the plain event before the feature event. It always calls the handler when there is one, whatever the tracking configuration. |
| StatusBadge.StripSeparators | src/components/UI/StatusBadge.tsx:12 | No `-`, `_` or whitespace remains. A string without separators is returned unchanged. |
| StatusBadge.StripConcat | src/components/UI/StatusBadge.tsx:12 | Stripping distributes over concatenation. |
| StatusBadge.StripKeepsLower | src/components/UI/StatusBadge.tsx:12 | Stripping a lower-case string keeps it lower-case. |
| StatusBadge.Normalize | src/components/UI/StatusBadge.tsx:12 | The key has no separators and no upper-case letters. |
| StatusBadge.NormalizeIdempotent | src/components/UI/StatusBadge.tsx:12 | Normalising twice is normalising once. |
| StatusBadge.Classify | src/components/UI/StatusBadge.tsx:14-64 | A status is green, blue, red, yellow or orange exactly when its key is in that tone's case list. Every unrecognised key is gray. |
| StatusBadge.ClassifyNormalized | src/components/UI/StatusBadge.tsx:12-14 | Classifying the normalised key gives the same tone as classifying the raw status. |
| StatusBadge.NormalizeKey | src/components/UI/StatusBadge.tsx:12 | A lower-case letters-only key is its own normal form. |
| StatusBadge.NormalizeConcat | src/components/UI/StatusBadge.tsx:12 | Normalisation distributes over concatenation. |
| StatusBadge.NormalizeDropsSeparator | src/components/UI/StatusBadge.tsx:12 | Inserting a separator anywhere does not change the key. |
| StatusBadge.ClassifyIgnoresSeparator | src/components/UI/StatusBadge.tsx:12-64 | Inserting a separator anywhere does not change the tone. |
| StatusBadge.ClassifyIgnoresCase | src/components/UI/StatusBadge.tsx:12-64 | Classification ignores case. |
| StatusBadge.NormalizeJoined | src/components/UI/StatusBadge.tsx:12 | Two lower-case words joined by any separator normalise to their concatenation. |
| StatusBadge.InProgressJoinedKey | src/components/UI/StatusBadge.tsx:12 | "in", any separator, "progress" normalises to `inprogress`. |
| StatusBadge.InProgressJoined | src/components/UI/StatusBadge.tsx:23-30 | "in", any separator, "progress" is blue. |
| StatusBadge.InProgressTitleCase | src/components/UI/StatusBadge.tsx:23-30 | "In Progress" is blue. |
| StatusBadge.InProgressSpellings | src/components/UI/StatusBadge.tsx:23-30 | `in-progress`, `in_progress` and `In Progress` are all blue. |
| StatusBadge.StatusConfig | src/components/UI/StatusBadge.tsx:11-65 | The config of a status is the config of its tone. |
| StatusBadge.ConfigOfInjective | src/components/UI/StatusBadge.tsx:14-63 | Distinct tones have distinct configs. |
| StatusBadge.UnknownLooksLikeDraft | src/components/UI/StatusBadge.tsx:52-63 | Any unrecognised status gets the same config as `draft`. |
| StatusBadge.BadgeClass | src/components/UI/StatusBadge.tsx:70-89 | The dot variant uses `dotColor` and the default variant uses `color`. |
| StatusBadge.DashesToSpaces | src/components/UI/StatusBadge.tsx:68 | Length is kept. `-` and `_` become spaces and nothing else changes. |
| StatusBadge.CapitalizeWords | src/components/UI/StatusBadge.tsx:68 | Length is kept. Exactly the word-initial characters are upper-cased. |
| StatusBadge.DisplayText | src/components/UI/StatusBadge.tsx:68 | Length is kept. Separators become spaces, word-initial characters are upper-cased, and every other character is unchanged. |
| StatusBadge.DisplayChar | src/components/UI/StatusBadge.tsx:68 | A displayed character is never `-` or `_`. It is alphanumeric exactly when the source character is, and it is upper-cased exactly at word starts. |
| StatusBadge.DisplayTextIdempotent | src/components/UI/StatusBadge.tsx:68 | Formatting display text again changes nothing. |
| Utils.StatusColor | src/lib/utils.ts:39-58 | The result is one of five classes, and a status unknown after lower-casing is gray. |
| Utils.PriorityColor | src/lib/utils.ts:60-73 | The result is one of four classes, and an unknown priority is gray. |
| Utils.ColorsIgnoreCase | src/lib/utils.ts:40 | Both lookups ignore case. |
| Utils.JobStatusColors | src/lib/utils.ts:41-48 | scheduled is blue, in-progress yellow, completed green, cancelled red. |
| Utils.PaymentStatusColors | src/lib/utils.ts:49-54 | paid is green, unpaid red, partially-paid yellow. |
| Utils.PriorityColors | src/lib/utils.ts:61-69 | low is gray, medium blue, high orange, urgent red. |
| Utils.PriorityColorInjective | src/lib/utils.ts:61-69 | The four priorities get four distinct colours, in any letter case. |
| Utils.UnknownPriorityIsLow | src/lib/utils.ts:62-63 | An unknown priority gets the same class as `low`. |
| Utils.SpacedStatusIsGray | src/lib/utils.ts:55-56 | `in progress` is gray here, because there is no separator normalisation, while the badge shows it blue. |
| Utils.PartiallyPaidKey | src/components/UI/StatusBadge.tsx:12 | The badge key of `partially-paid` is `partiallypaid`. |
| Utils.UnpaidColorDiffersFromBadge | src/lib/utils.ts:51-52 | `unpaid` is red here but yellow on the badge. |
| Utils.PartiallyPaidColorDiffersFromBadge | src/lib/utils.ts:53-54 | `partially-paid` is yellow here but orange on the badge. |
| DataTable.PageSize | src/components/UI/DataTable.tsx:43 | The page size defaults to 10. |
| DataTable.Render | src/components/UI/DataTable.tsx:81-97 | Loading shows the skeleton whatever the data. Empty data that is not loading shows the empty state. Otherwise rows are shown. The three cases are exclusive. |
| DataTable.Window | src/components/UI/DataTable.tsx:257-261 | A strictly increasing list within 1..n holding exactly the pages the filter admits. |
| DataTable.PageWindow | src/components/UI/DataTable.tsx:257-261 | The shown pages are a strictly increasing subset of 1..pageCount. A page is shown exactly when it is first, last, or within 1 of the current page. |
| DataTable.WindowIncludesAnchors | src/components/UI/DataTable.tsx:259-260 | Page 1, the last page and the current page's neighbours are always shown. |
| DataTable.IncreasingCardinality | src/components/UI/DataTable.tsx:257-261 | A strictly increasing list has as many distinct elements as entries. |
| DataTable.AtMostFivePages | src/components/UI/DataTable.tsx:260 | At most five page numbers are ever shown. |
| DataTable.Pagination | src/components/UI/DataTable.tsx:262-275 | There is one cell per shown page, in order. |
| DataTable.IncreasingGap | src/components/UI/DataTable.tsx:264 | In an increasing list, a neighbour is one below exactly when that page is in the list. |
| DataTable.EllipsisMarksHiddenPage | src/components/UI/DataTable.tsx:264 | An ellipsis precedes a number exactly when the page just below it exists and is hidden. |
| DataTable.OneActivePage | src/components/UI/DataTable.tsx:270 | A cell is highlighted exactly when it is the current page. At most one is highlighted, and one is whenever the current page exists. |
| DataTable.ShownRange | src/components/UI/DataTable.tsx:236-241 | first is pageIndex·pageSize+1. last ≤ filteredCount, last − first + 1 ≤ pageSize, and last is one of the two bounds. |
| DataTable.PageRows | src/components/UI/DataTable.tsx:236-241 | A page holds at most pageSize rows. |
| DataTable.RangeDescribesPage | src/components/UI/DataTable.tsx:236-241 | On a non-empty page, the caption's first to last are exactly the one-based positions of the rows shown. |
| DataTable.EmptyFilterCaption | src/components/UI/DataTable.tsx:236-261 | With nothing left after filtering, the caption reads "1 to 0" and no page numbers are shown. |
| Jobs.RevenueOf | src/pages/Jobs.tsx:273 | A job's revenue is `totalAmount`, else `actual_cost`, else 0, using truthiness. |
| Jobs.AmountDue | src/pages/Jobs.tsx:276 | The amount due is `totalAmount`, else `estimated_cost`, else 0, using truthiness. |
| Jobs.CompletedJobs | src/pages/Jobs.tsx:270-272 | Every kept job is completed and comes from the list, and every completed job of the list is kept. |
| Jobs.CompletedJobsCounts | src/pages/Jobs.tsx:270-272 | Each completed job is kept as many times as it occurs in the list, and nothing else is kept. |
| Jobs.UnpaidJobs | src/pages/Jobs.tsx:274-275 | Every kept job is unpaid and comes from the list, and every unpaid job of the list is kept. |
| Jobs.UnpaidJobsCounts | src/pages/Jobs.tsx:274-275 | Each unpaid job is kept as many times as it occurs in the list, and nothing else is kept. |
| Jobs.SumRevenue | src/pages/Jobs.tsx:273 | The revenue of no jobs is 0, and it is never negative when no job's revenue is. |
| Jobs.SumDue | src/pages/Jobs.tsx:276 | The amount due of no jobs is 0, and it is never negative when no job's amount is. |
| Jobs.SumRevenueConcat | src/pages/Jobs.tsx:273 | The revenue of two lists together is the sum of their revenues. |
| Jobs.SumDueConcat | src/pages/Jobs.tsx:276 | The amount due of two lists together is the sum of their amounts. |
| Jobs.CompletedAppend | src/pages/Jobs.tsx:270-273 | One more job raises the completed count by one and the revenue by its revenue exactly when it is completed. |
| Jobs.UnpaidAppend | src/pages/Jobs.tsx:274-276 | One more job raises the amount due by its amount exactly when it is unpaid. |
| Jobs.JobStats | src/pages/Jobs.tsx:266-276 | totalJobs is the list length, and completedJobs ≤ totalJobs. |
| Jobs.StatsAppend | src/pages/Jobs.tsx:266-276 | Appending a job updates each stat by that job's own contribution. |
| Jobs.IrrelevantJobOnlyCounts | src/pages/Jobs.tsx:266-276 | A job that is neither completed nor unpaid changes only totalJobs. |
| Jobs.ZeroTotalFallsThrough | src/pages/Jobs.tsx:273 | A `totalAmount` of 0 falls through to `actual_cost`. |
| Jobs.ComputeStats | src/pages/Jobs.tsx:266-276 | The single-pass loop computes the same stats as the filter-and-sum definition. |
| Jobs.SubmitDispatch | src/pages/Jobs.tsx:104-110 | Create mode creates with the data. Edit mode with a selected job updates that job's id. Any other case calls nothing. |
| Jobs.PriorityIcon | src/pages/Jobs.tsx:118-124 | An icon appears only for urgent (red) and high (orange), case-insensitively. |
| Jobs.IconMatchesPriorityColor | src/pages/Jobs.tsx:118-124 | The icon is red exactly when the priority colour is red, and orange exactly when it is orange. |
| Jobs.PriorityIconOfPriority | src/pages/Jobs.tsx:118-124 | Of the four priorities, only high and urgent get an icon. |
| Jobs.ScheduleCell | src/pages/Jobs.tsx:170-180 | Shows `scheduledDate`, else `due_date`, else "Not scheduled". The last case happens exactly when both are falsy. |
| Jobs.CustomerCell | src/pages/Jobs.tsx:143 | The customer cell shows the customer's name when it is truthy, and exactly `Unknown Customer` otherwise. |
| Jobs.HoursCell | src/pages/Jobs.tsx:188 | Hours are `estimatedHours`, else `estimated_hours`, else 0. |
| Jobs.Handle | src/pages/Jobs.tsx:68-102 | Viewing or editing opens the form on that job in that mode. Creating opens it empty in create mode. Closing the form (line 378) hides it but keeps the selection and mode. Asking to delete opens the dialog on that job. Cancelling (line 388) hides the dialog but keeps the target. A successful delete hides the dialog and clears the target. A failed delete changes nothing. |
| Jobs.ConfirmDelete | src/pages/Jobs.tsx:112-116 | A delete is issued exactly when a target is set, and it is for that target's id. |
| Jobs.HandlersAreIndependent | src/pages/Jobs.tsx:81-102 | The form handlers never touch the delete state, and the delete events never touch the form state. |
| Jobs.DeleteFlow | src/pages/Jobs.tsx:70-96 | Asking to delete opens the dialog for that job. On success the dialog closes and the target is cleared. On failure the target stays. |
| Jobs.OpenThenSubmit | src/pages/Jobs.tsx:81-110 | Submitting after create creates. Submitting after edit updates the job being edited. Submitting after view calls nothing. |
| Forms.FooterOf | src/components/Forms/JobForm.tsx:368-387 | View mode has no submit button, and Cancel is labelled Close. In edit mode, submit is asked to be disabled until the form is dirty. The submit button's spinner and the cancel button's disabled state follow `isSubmitting`. |
| Forms.CanSubmit | src/components/UI/Button.tsx:41-46 | The button is disabled when asked to or while it shows its spinner. So the footer's submit is usable exactly when no submission runs and the form is in create mode, or in edit mode after a change. |
| Forms.RequiredError | src/components/Forms/JobForm.tsx:186 | `required` fails exactly on an empty value, with its message. |
| Forms.MinLengthError | src/components/Forms/JobForm.tsx:196-199 | `minLength` fails exactly on a non-empty value whose JavaScript length, in UTF-16 code units, is below the bound. A value with enough characters always passes. |
| Forms.RequiredMinLengthError | src/components/Forms/JobForm.tsx:196-199 | The value passes exactly when it is non-empty and its UTF-16 length reaches the bound. `required` reports before `minLength`. |
| Forms.CodeUnitLengths | src/components/Forms/CustomerForm.tsx:111-114 | A single emoji or a single supplementary CJK character already meets a minimum of 2, and `a` followed by an emoji meets 3. A single accented Latin letter does not meet 2. |
| Forms.NonNegativeError | src/components/Forms/JobForm.tsx:286-288 | `min: 0` fails exactly on a present negative number. |
| Forms.OnStepIff | src/components/Forms/JobForm.tsx:282-284 | A value satisfies the browser's step rule (step base 0) exactly when it is a whole multiple of the step. |
| Forms.BrowserPreemptsMinRule | src/components/Forms/JobForm.tsx:282-288 | A value the browser's `min="0"` check lets through never fails the library's `min: 0` rule, so that rule's message cannot appear. |
| Forms.SubmitTrace | src/components/Forms/JobForm.tsx:129-148 | Submitting is set first and cleared last. `onClose` runs exactly when `onSubmit` resolved, and always after it. A failure is only logged. |
| Forms.SubmitSettles | src/components/Forms/JobForm.tsx:145-147 | `isSubmitting` ends false, and the modal stays open exactly on failure. |
| JobForm.ResetDate | src/components/Forms/JobForm.tsx:119 | The scheduled date is `scheduledDate`, else the part of `due_date` before its first `T`, else empty. |
| JobForm.ResetFrom | src/components/Forms/JobForm.tsx:111-127 | Without a job the defaults apply. With a job, the enumerations stay within the select options. The customer and hours come from the snake-case fields. Description, location and notes fall back to empty, and hours and rate to 0. |
| JobForm.ResetKeepsEnumerations | src/components/Forms/JobForm.tsx:115-124 | Reset keeps the job's title, status, priority and payment status. |
| JobForm.CamelCaseHoursIgnored | src/components/Forms/JobForm.tsx:120 | A job carrying only camel-case `estimatedHours` resets hours to 0. |
| JobForm.Validate | src/components/Forms/JobForm.tsx:172-302 | The customer and title messages are those of the declared rules. The title is too short when its UTF-16 length is below 3. |
| JobForm.ValidIff | src/components/Forms/JobForm.tsx:186-302 | The form is valid exactly when a customer is chosen, the title is at least 3 UTF-16 code units long, and neither number is negative. |
| JobForm.DefaultsNeedCustomerAndTitle | src/components/Forms/JobForm.tsx:77-89 | A fresh form fails exactly on the customer and the title. |
| JobForm.NumberOf | src/components/Forms/JobForm.tsx:135-136 | An empty numeric input converts to 0. |
| JobForm.EstimatedTotal | src/components/Forms/JobForm.tsx:104-108 | The running total equals the product of the converted hours and rate. It is 0 when either input is empty, and the product of the two values when both are filled. |
| JobForm.Payload | src/components/Forms/JobForm.tsx:132-140 | The payload keeps the form values, and its total equals hours × rate. |
| JobForm.ValidTotalNonNegative | src/components/Forms/JobForm.tsx:106-108 | A valid form never submits a negative total. |
| JobForm.Submit | src/components/Forms/JobForm.tsx:280-305 | The browser first refuses hours off the 0.5 grid or below 0, and a rate off the 0.01 grid or below 0, and says which input failed. Then an invalid form is blocked with its messages, never those of the numeric rules. A valid one hands over the payload and runs the submit lifecycle. Sent hours and rate are non-negative multiples of their steps. |
| JobForm.StepExamples | src/components/Forms/JobForm.tsx:280-298 | 0.25 hours is refused although the `min: 0` rule accepts it. 1.5 hours and a rate of 12.34 pass, and 0.125 as a rate does not. |
| JobForm.QuarterHourNeverSent | src/components/Forms/JobForm.tsx:280-298 | A form with a customer, a title of at least 3 UTF-16 code units, a non-negative rate and 0.25 hours passes the declared rules but is refused by the browser. |
| JobForm.Title | src/components/Forms/JobForm.tsx:150-157 | The title is one of the three mode titles. |
| JobForm.TitleInjective | src/components/Forms/JobForm.tsx:150-157 | Each mode has its own title. |
| JobForm.JobFooter | src/components/Forms/JobForm.tsx:368-387 | View mode shows only Close. Create mode shows Cancel and `Create Job`, never asked to be disabled. Edit mode shows Cancel and `Save Changes`, asked to be disabled until the form is dirty. Cancel is disabled and submit spins while a submission runs. |
| JobForm.CustomersQueryEnabled | src/components/Forms/JobForm.tsx:93-97 | Customers are fetched exactly while the modal is open outside view mode. |
| JobForm.CustomerCaption | src/components/Forms/JobForm.tsx:102 | The caption is `businessName`, else `business_name`, else the name. |
| JobForm.CustomerOptions | src/components/Forms/JobForm.tsx:100-103 | A placeholder comes first, then one option per customer, in order, valued by its id. |
| JobForm.PlaceholderFailsRequired | src/components/Forms/JobForm.tsx:186 | Leaving the select on the placeholder fails the customer rule. |
| JobForm.CustomerFieldOf | src/components/Forms/JobForm.tsx:172-189 | A read-only name appears exactly in view mode for a job that names its customer. Otherwise the select is shown, disabled exactly when read-only. |
| CustomerForm.ResetFrom | src/components/Forms/CustomerForm.tsx:62-73 | Without a customer the form is blank. With one, the name is copied, the business name falls back to `business_name`, and e-mail, phone, address and notes fall back to empty. |
| CustomerForm.ResetRoundTrip | src/components/Forms/CustomerForm.tsx:64-72 | E-mail, phone, address and notes are non-empty after reset exactly when the customer's value is truthy, and then equal it. The business name is non-empty exactly when either name is truthy, and then it is `businessName` if that is truthy, else `business_name`. |
| CustomerForm.MatchesEmailPattern | src/components/Forms/CustomerForm.tsx:142-146 | Any matching address has at least 6 characters, contains `@`, and contains no space. |
| CustomerForm.EmailOkIff | src/components/Forms/CustomerForm.tsx:142-146 | The search-free test, using the first `@` and the last `.`, accepts exactly the strings the regular expression matches. |
| CustomerForm.Validate | src/components/Forms/CustomerForm.tsx:111-146 | Gives the name's required and min-length messages, with the length in UTF-16 code units, and the e-mail's pattern message. |
| CustomerForm.ValidIff | src/components/Forms/CustomerForm.tsx:111-146 | The form is valid exactly when the name is at least 2 UTF-16 code units long and the e-mail is empty or matches the pattern. |
| CustomerForm.FreeFieldsUnchecked | src/components/Forms/CustomerForm.tsx:118-190 | Phone, address, business name and notes never affect validity. |
| CustomerForm.EmailExamples | src/components/Forms/CustomerForm.tsx:142-146 | `ab@cd.ef` matches and `ab@cd` does not. |
| CustomerForm.HtmlDomainDots | src/components/Forms/CustomerForm.tsx:140 | A domain the browser accepts for `type="email"` neither starts nor ends with a dot and never has two dots in a row. |
| CustomerForm.DoubleDotDiffers | src/components/Forms/CustomerForm.tsx:140-146 | `ab@cd..ef` matches the declared pattern but is refused by the browser. |
| CustomerForm.DotlessDomainDiffers | src/components/Forms/CustomerForm.tsx:140-146 | `a@b` is accepted by the browser but fails the declared pattern. |
| CustomerForm.Submit | src/components/Forms/CustomerForm.tsx:100-146 | The browser first refuses a non-empty e-mail that is not a valid address. Then an invalid form is blocked with its messages. A passing form hands over its values unchanged and runs the lifecycle. |
| CustomerForm.SentEmailPassesBoth | src/components/Forms/CustomerForm.tsx:138-146 | A sent form's e-mail is empty, or is a valid address for the browser and matches the declared pattern. |
| CustomerForm.DoubleDotNeverSent | src/components/Forms/CustomerForm.tsx:140-146 | A form with a name of at least two UTF-16 code units and the e-mail `ab@cd..ef` passes the declared rules but is never sent. |
| CustomerForm.CustomerFooter | src/components/Forms/CustomerForm.tsx:210-229 | View mode shows only Close. Create mode shows Cancel and `Create Customer`, never asked to be disabled. Edit mode shows Cancel and `Save Changes`, asked to be disabled until the form is dirty. Cancel is disabled and submit spins while a submission runs. |
| CustomerForm.Title | src/components/Forms/CustomerForm.tsx:87-94 | The title is one of the three mode titles. |
| CustomerForm.TitleInjective | src/components/Forms/CustomerForm.tsx:87-94 | Each mode has its own title. |
| Api.RequestUrl | src/lib/api.ts:10 | The URL is `/api` followed by the endpoint, unchanged. |
| Api.EffectiveHeaders | src/lib/api.ts:12-18 | Without caller headers, only the JSON content type is sent. Caller headers replace the whole merged set. |
| Api.CallerHeadersReplaceDefault | src/lib/api.ts:12-18 | With caller headers, `Content-Type` is sent exactly when the caller supplies it. |
| Api.StringField | src/lib/api.ts:37 | A string `message` is truthy exactly when it is non-empty, and `Error` keeps it as it is. |
| Api.BodyMessage | src/lib/api.ts:25-37 | A message is taken exactly from a parsed object whose `message` is truthy, as that value's text. A body that fails to parse has none. |
| Api.StatusError | src/lib/api.ts:23-38 | 523 and 524 get their own messages, checked before the generic case. Any other status ≥ 500 gets the server-error message. Below 500, a `null` body throws the `TypeError` of reading `message` off `null`. Otherwise the body's message is used if truthy, else `HTTP error! status: N`. |
| Api.ServerErrorsIgnoreBody | src/lib/api.ts:27-35 | For status ≥ 500 the body does not matter. |
| Api.FallbackNamesStatus | src/lib/api.ts:37 | The fallback message is the prefix followed by digits that read back as the status. |
| Api.Rethrown | src/lib/api.ts:45-49 | A `TypeError` mentioning `fetch` becomes the connection error. Anything else is rethrown unchanged. |
| Api.Request | src/lib/api.ts:20-50 | Exactly an ok answer with a parsed body succeeds, returning that body (`null` included). A non-ok answer fails with the status error. An ok answer that is not JSON fails with the parse error, and a thrown `fetch` fails with the thrown error, all after the connection rewrite. |
| Api.NullReadErrorNoFetch | src/lib/api.ts:37-45 | The `TypeError` from reading `message` off `null` does not mention `fetch`. |
| Api.NotOkFailures | src/lib/api.ts:23-49 | A non-ok answer below 500 with a `null` body reaches the caller as that `TypeError`, unchanged. Every other non-ok answer reaches it as a plain error carrying the status error's message. |
| Api.NonStringMessages | src/lib/api.ts:37 | A `message` of 42 gives the message `42`. A truthy message with empty text gives an empty message. A falsy one gives the fallback. |
| Api.ConnectionRewrite | src/lib/api.ts:41-50 | Only a thrown `TypeError` mentioning `fetch` reaches the caller as the connection message. Every other thrown value reaches it unchanged. |
| Api.KeyName | src/lib/api.ts:102-108 | Parameter names are non-empty and made of letters. |
| Api.When | src/lib/api.ts:103 | A parameter is added exactly when its value is truthy. |
| Api.Collect | src/lib/api.ts:102-108 | At most one parameter per listed key, and no parameter has an empty value. |
| Api.CollectMembership | src/lib/api.ts:102-108 | A parameter is emitted exactly when its key is listed and the filter's value for it is truthy, carrying that value. |
| Api.CollectOrdered | src/lib/api.ts:102-108 | Parameters come out in the order of the key list. |
| Api.JobParams | src/lib/api.ts:101-109 | At most six parameters, and none without filters. |
| Api.JobParamsComplete | src/lib/api.ts:102-108 | A job query holds exactly the truthy filters, in the fixed order search, status, priority, paymentStatus, startDate, endDate. |
| Api.CustomerParams | src/lib/api.ts:60-65 | At most three parameters, and none without filters. |
| Api.CustomerParamsSubset | src/lib/api.ts:61-64 | The customer query holds exactly the job query's search and date parameters. |
| Api.CollectReadsListed | src/lib/api.ts:102-108 | Only the listed keys' values influence the parameters. |
| Api.CustomerParamsIgnoreJobFilters | src/lib/api.ts:61-64 | Status, priority and payment filters never change the customer query. |
| Api.HexDigit | src/lib/api.ts:66 | Percent-escapes use upper-case hexadecimal digits. |
| Api.Utf8 | src/lib/api.ts:66 | A character encodes as 1 to 4 bytes, and ASCII as itself. |
| Api.EncodeByte | src/lib/api.ts:66 | An encoded byte uses only safe characters, `%` and `+`. A safe ASCII byte stays as it is. |
| Api.EncodeBytes | src/lib/api.ts:66 | Encoded bytes use only safe characters, `%` and `+`. |
| Api.EncodeComponent | src/lib/api.ts:66 | An encoded component uses only safe characters, `%` and `+`. A component made only of safe characters is unchanged. |
| Api.EncodeParam | src/lib/api.ts:66 | An encoded `key=value` pair never contains `&`. |
| Api.SplitAmp | src/lib/api.ts:66 | Splitting on `&` yields at least one piece. |
| Api.FirstSeparator | src/lib/api.ts:66 | In `a&b` with `a` free of `&`, the first `&` sits right after `a`. |
| Api.SplitJoin | src/lib/api.ts:66 | Splitting on `&` inverts joining with `&` pieces that contain no `&`. |
| Api.QueryString | src/lib/api.ts:66 | The query is empty exactly when there are no parameters. |
| Api.JoinAmpNonEmpty | src/lib/api.ts:66 | Joining non-empty pieces is empty exactly when there are none. |
| Api.QueryRoundTrip | src/lib/api.ts:66 | The query splits back into one encoded pair per parameter, in order. |
| Api.WithQuery | src/lib/api.ts:111-113 | No `?` is added when there are no parameters. Otherwise the path, `?` and the query follow each other. |
| Api.JobsEndpoint | src/lib/api.ts:100-114 | The job list's endpoint starts with `/jobs`. It is exactly `/jobs` when no filter is truthy. Otherwise `?` follows, and the query splits on `&` back into one encoded pair per job parameter, in order. |
| Api.CustomersEndpoint | src/lib/api.ts:59-70 | The same for `/customers` and the customer parameters. |
| Api.NoFiltersNoQuery | src/lib/api.ts:66-68 | Without filters, or with only empty ones, the endpoint is the bare path. |
| AnalyticsExamples.EncodeDemoMode | src/components/Analytics/CustomAnalyticsExamples.tsx:478 | The select shows one of `all`, `true`, `false`. |
| AnalyticsExamples.DecodeDemoMode | src/components/Analytics/CustomAnalyticsExamples.tsx:479-481 | `all` decodes to undefined and `true` to true. Everything else decodes to false. |
| AnalyticsExamples.DemoModeRoundTrip | src/components/Analytics/CustomAnalyticsExamples.tsx:478-481 | Decoding the shown value gives back the filter value. |
| AnalyticsExamples.DemoModeOptions | src/components/Analytics/CustomAnalyticsExamples.tsx:478-481 | Each of the three options round-trips, and any other string decodes to false. |
| AnalyticsExamples.Toggle | src/components/Analytics/CustomAnalyticsExamples.tsx:451-456 | Ticking appends the type at the end. The box is ticked afterwards exactly when it was ticked. |
| AnalyticsExamples.RemoveAllConcat | src/components/Analytics/CustomAnalyticsExamples.tsx:455 | Removing every copy distributes over concatenation. |
| AnalyticsExamples.ToggleRoundTrip | src/components/Analytics/CustomAnalyticsExamples.tsx:452-456 | Ticking and then clearing a type that was absent restores the list. |
| AnalyticsExamples.ClearKeepsOthers | src/components/Analytics/CustomAnalyticsExamples.tsx:455 | Clearing keeps every other entry, in order. |
| AnalyticsExamples.Pick | src/components/Analytics/CustomAnalyticsExamples.tsx:126 | A supplied key wins, and an absent one keeps the previous value. |
| AnalyticsExamples.MergeFilters | src/components/Analytics/CustomAnalyticsExamples.tsx:125-127 | Only the supplied keys are overwritten, even with undefined, and every other key keeps its value. |
| AnalyticsExamples.MergeIdentityIdempotent | src/components/Analytics/CustomAnalyticsExamples.tsx:125-127 | An empty update changes nothing, and applying an update twice equals applying it once. |
| AnalyticsExamples.SelectAllClearsDemoMode | src/components/Analytics/CustomAnalyticsExamples.tsx:125-127 | Choosing `all` clears only the demo-mode filter. |
| AnalyticsExamples.DropFirstSlash | src/components/Analytics/CustomAnalyticsExamples.tsx:88 | A label without `/` is kept, and otherwise exactly one character is removed. |
| AnalyticsExamples.DropFirstSlashRoundTrip | src/components/Analytics/CustomAnalyticsExamples.tsx:88 | Putting `/` back at the first slash's position recovers the page. |
| AnalyticsExamples.LandingLabelExample | src/components/Analytics/CustomAnalyticsExamples.tsx:88 | `/pricing/plans` becomes `pricing/plans`. Only the first slash goes. |
| AnalyticsExamples.LandingChartData | src/components/Analytics/CustomAnalyticsExamples.tsx:84-92 | No pages gives empty data. Otherwise there is one bar per page, with the counts kept and the label slash-dropped. |
| AnalyticsExamples.FindFeature | src/components/Analytics/CustomAnalyticsExamples.tsx:231 | Finds the first entry with the name, and reports absence exactly when none has it. |
| AnalyticsExamples.FeatureAdoptionData | src/components/Analytics/CustomAnalyticsExamples.tsx:228-233 | Empty without a selection or data, and empty when no entry matches. Otherwise it is the weekly usage of the first entry with that name. |
| AnalyticsExamples.FirstMatchWins | src/components/Analytics/CustomAnalyticsExamples.tsx:231 | The trend shown is that of the first entry with the name, whatever precedes it under other names and whatever follows it, including later entries with the same name. |
| AnalyticsExamples.PaletteColor | src/components/Analytics/CustomAnalyticsExamples.tsx:169 | A colour always comes from the five-colour palette. |
| AnalyticsExamples.PaletteCycles | src/components/Analytics/CustomAnalyticsExamples.tsx:188 | Colours repeat with period 5, and neighbouring indices differ. |
| AnalyticsExamples.CategoryColor | src/components/Analytics/CustomAnalyticsExamples.tsx:327 | A category colour is an `hsl(` string. |
| AnalyticsExamples.CategoryColorInjective | src/components/Analytics/CustomAnalyticsExamples.tsx:327 | Distinct categories get distinct colour strings. |
| AnalyticsExamples.Take | src/components/Analytics/CustomAnalyticsExamples.tsx:243 | `slice(0, n)` is a prefix of length min(n, length). |
| AnalyticsExamples.FeatureCards | src/components/Analytics/CustomAnalyticsExamples.tsx:243 | At most six features are listed, and none without data. |
| AnalyticsExamples.ComparisonBars | src/components/Analytics/CustomAnalyticsExamples.tsx:533 | A comparison chart shows at most five bars, and none without data. |
| AnalyticsExamples.BarsArePrefixOfCards | src/components/Analytics/CustomAnalyticsExamples.tsx:290-292 | The production chart shows a prefix of the listed cards. |

## Left out

- Network I/O is not modelled: `fetch`, the analytics POST, `navigator.sendBeacon` and `initSession` (src/contexts/AnalyticsContext.tsx:200-223). A response or a thrown error is an input, and posted batches and beacons are recorded outputs.
- Timers and React effect lifecycles are not modelled: the 5-second interval, which is re-created on every queue change, and debouncing. A flush tick and an unload are abstract events. Two effects enqueue. The automatic page view is modelled with its re-runs by Analytics.Render. The tracking wrapper's mount effect is modelled as one run by Trackable.WrappedMount.
- Trackable.WrappedMount: models one run of the effect. It runs again, tracking another event, whenever `trackEvent` is rebuilt (its dependencies at src/contexts/AnalyticsContext.tsx:118) or the `trackingProperties` object changes identity between renders. An inline object literal changes identity on every render. These re-runs are not modelled.
- Analytics.FlushTick: reads the queue after every earlier step has been applied. The source's interval callback posts the `eventQueue` of the last render's closure and then clears with a plain `setEventQueue([])`, while the appends are functional updates. An append that has not rendered when the tick fires is left out of the batch and then erased by the clear, so that event is lost. This case is not modelled.
- Analytics.UnloadBeacon: sends the queue after every earlier step. The source's beacon sends the rendered `eventQueue`, so an unload that comes before a flush's clear has rendered sends the just-posted batch again, and one before a pending append has rendered leaves that event out. This case is not modelled.
- Analytics.NoBeaconAfterFlush: holds only once the flush's clear has rendered. An unload between the post and that render resends the batch.
- Analytics.ApplyStream: a flush keeps the stream only when every earlier append has rendered. Otherwise the source drops the unrendered append.
- Analytics.RunConservesEvents: "no event lost or duplicated" is promised only for runs in which every step renders before the next. The lost append and the resent batch above are outside it.
- Analytics.BatchIsCallsInOrder: a call not yet rendered when the tick fires is missing from the source's batch. The lemma assumes every call has rendered.
- Analytics.ApplyStream, Analytics.RunConservesEvents, Analytics.StorageChanged and Analytics.TrackConversion describe a call on its own, not the render it causes. The extra page view a change of user type or demo flag triggers (src/contexts/AnalyticsContext.tsx:230-233) is stated for one step by Analytics.Render and Analytics.RenderStream. Runs of rendered steps are not modelled.
- Analytics.Render assumes the two state updates of a storage event are batched into one render, as React 18 does. Without batching, a storage event that changes both the user type and the demo flag would enqueue two page views.
- The browser's constraint checks are exact: step mismatch is decided on exact `real` values, with no floating-point tolerance. Value sanitisation is not modelled: the stripping of surrounding whitespace in an e-mail input, and unparsable text in a number input.
- The clock, `Math.random`, ISO timestamps, `window.location`, `document.referrer` and the user agent are parameters. The random suffix of a session id is an arbitrary string.
- `console.log`/`console.warn` are not modelled. Send failures are recorded as warnings instead.
- Floating point is not modelled. Amounts and hours are exact `real` numbers, with no rounding, `NaN` or `Infinity`.
- Formatting code is left out: `formatDuration`, `formatCurrency`/`Intl`, `formatDate`, `toFixed`, and the minute rounding in the stat cards.
- Library internals are left out. react-table's sorting, filtering and page count are parameters. react-hook-form is the declared rules, written as explicit functions. react-query caching and invalidation, Recharts rendering and toasts are not modelled.
- Pure layout and configuration files are not part of this model: Settings, Dashboard, Examples, the Analytics page, Customers, Layout, App, Input, LoadingSpinner, ErrorBoundary and the build config. Of Button, only the rule that a loading button is disabled is modelled.
- LoginForm is not part of this model, because it depends on a client method that does not exist in src/lib/api.ts.
- The conversion-rate display of the event analytics example is not modelled, because it is floating-point formatting.
- DateRangeFilter (src/components/Analytics/CustomAnalyticsExamples.tsx:408-433) is not modelled, because it only rebuilds a two-field record from its inputs.
- Case mapping (`toLowerCase`/`toUpperCase`) is ASCII-only. Non-ASCII letters keep their case in the model.
- URL encoding of a lone UTF-16 surrogate is not modelled. Every `char` is encoded as a Unicode scalar value.
- Api.StatusError: the text of the `TypeError` thrown for a `null` body is V8's. Other engines word it differently; none of these wordings mentions `fetch`. A parsed body is reduced to its `message` field's truthiness and text, and `Success` returns the body in that reduced form.
- Forms.MinLengthError: a string holding a lone UTF-16 surrogate cannot be written as a Dafny `string`, so its length of one unit is not modelled.
- Api.EffectiveHeaders: a `headers` key that is present but `undefined` is treated as absent. JavaScript would send no headers at all in that case.
- Utils.StatusColor: its own contract states only the gray fallback and the range of results. The exact table is proved in Utils.JobStatusColors and Utils.PaymentStatusColors.
- DataTable.RangeDescribesPage: requires a page size of at least 1. With page size 0 the caption reads "1 to 0" on every page, and the page holds no rows.
- Types: only the fields the modelled code reads are kept. `completedDate`, `actualHours` and the timestamps are left out.

=== FILE: analytics_context.dfy ===
/** The client analytics pipeline of the analytics provider: session
    identity, user classification from browser storage, the tracking calls
    that append events to an in-memory queue, the periodic flush that posts
    the whole queue as one batch, and the unload beacon.

    The provider is a state record advanced by step functions. Browser
    storage is an explicit map, the clock, random id suffix, location and
    referrer arrive as an `Env`, and the transport is recorded: every batch
    handed to the analytics endpoint is appended to `posted`, and every
    logged delivery failure to `warnings`. */
module Analytics {
  import opened Common

  /** `sessionStorage` or `localStorage`: string keys to string values. */
  type Storage = map<string, string>

  datatype UserType = Demo | Waitlisted | Authenticated | Anonymous

  /** A JSON-like property value of an event payload. */
  datatype Value = Str(s: string) | Bool(b: bool) | Num(n: int) | Undefined

  /** An event payload; key order is irrelevant. */
  type Props = map<string, Value>

  /** `{...o}`: spreading `undefined` contributes no key. */
  function Spread(o: Option<Props>): (r: Props)
    ensures o.None? ==> r == map[]
    ensures o.Some? ==> r == o.value
  {
    if o.Some? then o.value else map[]
  }

  const SessionKey := "analytics_session_id"
  const WaitlistKey := "waitlist_email"
  const AuthKey := "auth_token"
  const DemoKey := "demo_mode"

  /** Demo mode is on only when the stored flag is exactly `"true"`. */
  predicate DemoFlag(local: Storage) {
    Get(local, DemoKey) == Some("true")
  }

  /** Classifies the visitor from `localStorage`, first match wins:
      authenticated, then waitlisted, then demo, then anonymous. Presence of
      the token and of the waitlist email is a truthiness test. */
  function ClassifyUser(local: Storage): (r: UserType)
    ensures r == Authenticated <==> Truthy(Get(local, AuthKey))
    ensures r == Waitlisted <==>
      !Truthy(Get(local, AuthKey)) && Truthy(Get(local, WaitlistKey))
    ensures r == Demo <==>
      !Truthy(Get(local, AuthKey)) && !Truthy(Get(local, WaitlistKey)) && DemoFlag(local)
    ensures r == Anonymous <==>
      !Truthy(Get(local, AuthKey)) && !Truthy(Get(local, WaitlistKey)) && !DemoFlag(local)
  {
    var isWaitlisted := Get(local, WaitlistKey);
    var isAuthenticated := Get(local, AuthKey);
    var isDemoMode := DemoFlag(local);
    if Truthy(isAuthenticated) then Authenticated
    else if Truthy(isWaitlisted) then Waitlisted
    else if isDemoMode then Demo
    else Anonymous
  }

  /** A fresh id: `session_<milliseconds>_<random suffix>`. */
  function GenerateSessionId(nowMs: nat, randomPart: string): (id: string)
    ensures StartsWith(id, "session_")
    ensures |id| > |"session_"|
  {
    "session_" + NatToString(nowMs) + "_" + randomPart
  }

  /** Ids generated at different milliseconds differ, whatever the random
      suffixes: the first `_` after the prefix ends the clock's digits. */
  lemma SessionIdsDifferAcrossClock(m: nat, n: nat, a: string, b: string)
    requires m != n
    ensures GenerateSessionId(m, a) != GenerateSessionId(n, b)
  {
    var p := "session_";
    var dm, dn := NatToString(m), NatToString(n);
    if GenerateSessionId(m, a) == GenerateSessionId(n, b) {
      var x, y := GenerateSessionId(m, a), GenerateSessionId(n, b);
      assert x[|p|..] == dm + "_" + a;
      assert y[|p|..] == dn + "_" + b;
      DigitsThenUnderscore(dm, a, dn, b);
      NatToStringInjective(m, n);
    }
  }

  /** Digits followed by `_` can be split back apart. */
  lemma DigitsThenUnderscore(d: string, a: string, e: string, b: string)
    requires forall i :: 0 <= i < |d| ==> IsDigit(d[i])
    requires forall i :: 0 <= i < |e| ==> IsDigit(e[i])
    requires d + "_" + a == e + "_" + b
    ensures d == e
  {
    var s := d + "_" + a;
    assert s == e + "_" + b;
    assert s[|d|] == '_' && forall i :: 0 <= i < |d| ==> s[i] == d[i];
    assert s[|e|] == '_' && forall i :: 0 <= i < |e| ==> s[i] == e[i];
    assert |d| == |e|;
    assert d == s[..|d|] == e;
  }

  datatype SessionLookup = SessionLookup(id: string, storage: Storage)

  /** Reads the stored session id; when it is missing or empty, generates a
      fresh one and stores it. */
  function GetSessionId(session: Storage, nowMs: nat, randomPart: string): (r: SessionLookup)
    ensures r.id != ""
    ensures Get(r.storage, SessionKey) == Some(r.id)
    ensures Truthy(Get(session, SessionKey)) ==>
      r.id == session[SessionKey] && r.storage == session
    ensures !Truthy(Get(session, SessionKey)) ==>
      StartsWith(r.id, "session_") && r.storage == session[SessionKey := r.id]
  {
    var stored := Get(session, SessionKey);
    if Truthy(stored) then SessionLookup(stored.value, session)
    else
      var id := GenerateSessionId(nowMs, randomPart);
      SessionLookup(id, session[SessionKey := id])
  }

  /** Looking the session id up again, whatever the clock and the random
      source say, returns the same id and leaves storage alone. */
  lemma GetSessionIdIdempotent(session: Storage, now1: nat, rand1: string, now2: nat, rand2: string)
    ensures GetSessionId(GetSessionId(session, now1, rand1).storage, now2, rand2)
            == GetSessionId(session, now1, rand1)
  {
  }

  /** One analytics event; immutable once built. */
  datatype Event = Event(
    sessionId: string,
    eventName: string,
    timestamp: string,
    demoMode: bool,
    userType: UserType,
    page: string,
    properties: Props)

  /** What the browser supplies when a call runs: the ISO timestamp, the
      clock in milliseconds, `location.pathname`, `document.referrer` and the
      user agent. */
  datatype Env = Env(isoNow: string, nowMs: int, pathname: string, documentReferrer: string, userAgent: string)

  /** How an asynchronous POST of a batch ended. */
  datatype SendOutcome = Responded(status: int, statusText: string) | Threw(message: string)

  /** A delivery failure the pipeline logs and otherwise ignores. */
  datatype Warning = SendRejected(statusText: string) | SendError(message: string)

  /** The provider's state between callbacks. */
  datatype Provider = Provider(
    sessionId: string,
    userType: UserType,
    demoMode: bool,
    startMs: int,
    queue: seq<Event>,
    local: Storage,
    posted: seq<seq<Event>>,
    warnings: seq<Warning>)

  datatype Mounted = Mounted(provider: Provider, session: Storage)

  /** The provider as first rendered: the session id looked up (or created),
      the visitor classified from `localStorage`, an empty queue. */
  function Mount(session: Storage, local: Storage, nowMs: nat, randomPart: string): (r: Mounted)
    ensures r.provider.sessionId != ""
    ensures Get(r.session, SessionKey) == Some(r.provider.sessionId)
    ensures r.provider.userType == ClassifyUser(local)
    ensures r.provider.demoMode <==> DemoFlag(local)
    ensures r.provider.queue == [] && r.provider.posted == [] && r.provider.warnings == []
    ensures r.provider.startMs == nowMs && r.provider.local == local
  {
    var lookup := GetSessionId(session, nowMs, randomPart);
    Mounted(Provider(lookup.id, ClassifyUser(local), DemoFlag(local), nowMs, [], local, [], []), lookup.storage)
  }

  /** Whole seconds since the provider mounted (`Math.floor(ms / 1000)`;
      Dafny's division by a positive divisor rounds down as `floor` does). */
  function SessionSeconds(p: Provider, env: Env): (r: int)
    ensures r * 1000 <= env.nowMs - p.startMs < r * 1000 + 1000
  {
    (env.nowMs - p.startMs) / 1000
  }

  /** `e` was built by `p` at the instant `env`: it carries the provider's
      session id, demo flag and user type, and the current timestamp. */
  predicate Snapshot(p: Provider, env: Env, e: Event) {
    && e.sessionId == p.sessionId
    && e.demoMode == p.demoMode
    && e.userType == p.userType
    && e.timestamp == env.isoNow
  }

  /** `r` is `p` with one more event at the end of the queue; nothing
      already queued, posted or logged changes. */
  predicate AppendsOne(p: Provider, r: Provider) {
    && |r.queue| == |p.queue| + 1
    && r.queue[..|p.queue|] == p.queue
    && r.sessionId == p.sessionId
    && r.startMs == p.startMs
    && r.posted == p.posted
    && r.warnings == p.warnings
  }

  function Last(p: Provider): Event
    requires |p.queue| > 0
  {
    p.queue[|p.queue| - 1]
  }

  function Enqueue(p: Provider, e: Event): Provider {
    p.(queue := p.queue + [e])
  }

  /** `trackEvent(name, properties)`: properties default to `{}`. */
  function TrackEvent(p: Provider, env: Env, name: string, props: Option<Props>): (r: Provider)
    ensures AppendsOne(p, r)
    ensures Snapshot(p, env, Last(r))
    ensures Last(r).eventName == name
    ensures Last(r).page == env.pathname
    ensures Last(r).properties == Spread(props)
    ensures r.userType == p.userType && r.demoMode == p.demoMode && r.local == p.local
  {
    Enqueue(p, Event(p.sessionId, name, env.isoNow, p.demoMode, p.userType, env.pathname, Spread(props)))
  }

  /** `trackPageView(page, referrer)`: the page is the argument, not the
      location; the referrer falls back to `document.referrer`. */
  function TrackPageView(p: Provider, env: Env, page: string, referrer: Option<string>): (r: Provider)
    ensures AppendsOne(p, r)
    ensures Snapshot(p, env, Last(r))
    ensures Last(r).eventName == "page_view"
    ensures Last(r).page == page
    ensures Last(r).properties.Keys == {"referrer", "userAgent"}
    ensures Last(r).properties["referrer"] ==
      Str(if Truthy(referrer) then referrer.value else env.documentReferrer)
    ensures Last(r).properties["userAgent"] == Str(env.userAgent)
    ensures r.userType == p.userType && r.demoMode == p.demoMode && r.local == p.local
  {
    var props := map["referrer" := Str(OrElse(referrer, env.documentReferrer)), "userAgent" := Str(env.userAgent)];
    Enqueue(p, Event(p.sessionId, "page_view", env.isoNow, p.demoMode, p.userType, page, props))
  }

  /** The built-in keys of a feature interaction, overridden by the caller's
      properties because those are spread last. */
  function FeatureProps(feature: string, action: string, demoMode: bool, props: Option<Props>): (r: Props)
    ensures r.Keys == {"feature", "action", "demo_mode"} + Spread(props).Keys
    ensures forall k :: k in Spread(props) ==> r[k] == Spread(props)[k]
    ensures "feature" !in Spread(props) ==> r["feature"] == Str(feature)
    ensures "action" !in Spread(props) ==> r["action"] == Str(action)
    ensures "demo_mode" !in Spread(props) ==> r["demo_mode"] == Bool(demoMode)
  {
    map["feature" := Str(feature), "action" := Str(action), "demo_mode" := Bool(demoMode)] + Spread(props)
  }

  /** `trackFeatureInteraction(feature, action, properties)`. */
  function TrackFeatureInteraction(p: Provider, env: Env, feature: string, action: string, props: Option<Props>): (r: Provider)
    ensures AppendsOne(p, r)
    ensures Snapshot(p, env, Last(r))
    ensures Last(r).eventName == "feature_interaction"
    ensures Last(r).page == env.pathname
    ensures Last(r).properties == FeatureProps(feature, action, p.demoMode, props)
    ensures r.userType == p.userType && r.demoMode == p.demoMode && r.local == p.local
  {
    Enqueue(p, Event(p.sessionId, "feature_interaction", env.isoNow, p.demoMode, p.userType, env.pathname,
                     FeatureProps(feature, action, p.demoMode, props)))
  }

  /** `email ? email.split('@')[1] : undefined`. */
  function EmailDomain(email: Option<string>): (r: Value)
    ensures !Truthy(email) ==> r == Undefined
    ensures Truthy(email) && '@' !in email.value ==> r == Undefined
    ensures Truthy(email) && '@' in email.value ==>
      var start := |BeforeFirst(email.value, '@')| + 1;
      && r.Str? && '@' !in r.s
      && start + |r.s| <= |email.value| && email.value[start..start + |r.s|] == r.s
      && (start + |r.s| == |email.value| || email.value[start + |r.s|] == '@')
  {
    if Truthy(email) then
      match SecondSegment(email.value, '@')
      case None => Undefined
      case Some(d) => Str(d)
    else Undefined
  }

  /** `trackConversion(source, email)`: enqueues the signup event built from
      the state before the call, then marks the visitor waitlisted and stores
      the email (or `"true"` when none is given). */
  function TrackConversion(p: Provider, env: Env, source: string, email: Option<string>): (r: Provider)
    ensures AppendsOne(p, r)
    ensures Snapshot(p, env, Last(r))
    ensures Last(r).eventName == "waitlist_signup_completed"
    ensures Last(r).page == env.pathname
    ensures Last(r).properties == map[
      "source" := Str(source),
      "emailDomain" := EmailDomain(email),
      "sessionDuration" := Num(SessionSeconds(p, env))]
    ensures r.userType == Waitlisted && r.demoMode == p.demoMode
    ensures r.local == p.local[WaitlistKey := if Truthy(email) then email.value else "true"]
  {
    var props := map[
      "source" := Str(source),
      "emailDomain" := EmailDomain(email),
      "sessionDuration" := Num(SessionSeconds(p, env))];
    var q := Enqueue(p, Event(p.sessionId, "waitlist_signup_completed", env.isoNow, p.demoMode, p.userType, env.pathname, props));
    q.(userType := Waitlisted, local := q.local[WaitlistKey := OrElse(email, "true")])
  }

  /** `trackWaitlistCTA(source, properties)`: caller properties override
      `source` and `sessionDuration`. */
  function TrackWaitlistCTA(p: Provider, env: Env, source: string, props: Option<Props>): (r: Provider)
    ensures AppendsOne(p, r)
    ensures Snapshot(p, env, Last(r))
    ensures Last(r).eventName == "waitlist_cta_triggered"
    ensures Last(r).page == env.pathname
    ensures Last(r).properties.Keys == {"source", "sessionDuration"} + Spread(props).Keys
    ensures forall k :: k in Spread(props) ==> Last(r).properties[k] == Spread(props)[k]
    ensures "source" !in Spread(props) ==> Last(r).properties["source"] == Str(source)
    ensures "sessionDuration" !in Spread(props) ==>
      Last(r).properties["sessionDuration"] == Num(SessionSeconds(p, env))
    ensures r.userType == p.userType && r.demoMode == p.demoMode && r.local == p.local
  {
    var props := map["source" := Str(source), "sessionDuration" := Num(SessionSeconds(p, env))] + Spread(props);
    Enqueue(p, Event(p.sessionId, "waitlist_cta_triggered", env.isoNow, p.demoMode, p.userType, env.pathname, props))
  }

  /** A `storage` notification: the visitor is reclassified from the new
      `localStorage` contents and the demo flag re-read. */
  function StorageChanged(p: Provider, local: Storage): (r: Provider)
    ensures r.userType == ClassifyUser(local) && (r.demoMode <==> DemoFlag(local))
    ensures r.queue == p.queue && r.posted == p.posted && r.sessionId == p.sessionId
  {
    p.(local := local, userType := ClassifyUser(local), demoMode := DemoFlag(local))
  }

  /** The log line `sendEvents` writes for an outcome: none for a 2xx
      response, the status text for any other response, the error when the
      request throws. */
  function SendWarning(outcome: SendOutcome): (w: Option<Warning>)
    ensures w.None? <==> outcome.Responded? && 200 <= outcome.status <= 299
  {
    match outcome
    case Responded(status, text) =>
      if 200 <= status <= 299 then None else Some(SendRejected(text))
    case Threw(message) => Some(SendError(message))
  }

  /** One tick of the flush timer. An empty queue sends nothing. Otherwise
      the whole queue is posted as one batch and the queue is cleared at
      once; a failed send is only logged, never re-enqueued. */
  function FlushTick(p: Provider, outcome: SendOutcome): (r: Provider)
    ensures |p.queue| == 0 ==> r == p
    ensures |p.queue| > 0 ==> r.posted == p.posted + [p.queue]
    ensures r.queue == []
    ensures |p.queue| > 0 ==>
      r.warnings == p.warnings + (if SendWarning(outcome).Some? then [SendWarning(outcome).value] else [])
    ensures r.sessionId == p.sessionId && r.userType == p.userType && r.demoMode == p.demoMode && r.local == p.local
  {
    if |p.queue| == 0 then p
    else
      var batch := p.queue;
      var logged := match SendWarning(outcome) case None => [] case Some(w) => [w];
      p.(posted := p.posted + [batch], queue := [], warnings := p.warnings + logged)
  }

  /** The `beforeunload` handler: a beacon carrying the entire queue when it
      is non-empty, nothing otherwise. */
  function UnloadBeacon(p: Provider): (r: Option<seq<Event>>)
    ensures r.Some? <==> |p.queue| > 0
    ensures r.Some? ==> r.value == p.queue
  {
    if |p.queue| > 0 then Some(p.queue) else None
  }

  /** Right after a flush tick the unload handler has nothing to send. */
  lemma NoBeaconAfterFlush(p: Provider, outcome: SendOutcome)
    ensures UnloadBeacon(FlushTick(p, outcome)).None?
  {
  }

  // ---------------------------------------------------------------------
  // Runs of calls

  /** A call into the provider. */
  datatype Action =
    | EventCall(name: string, props: Option<Props>)
    | PageViewCall(page: string, referrer: Option<string>)
    | FeatureCall(feature: string, action: string, props: Option<Props>)
    | ConversionCall(source: string, email: Option<string>)
    | WaitlistCall(source: string, props: Option<Props>)
    | StorageEvent(local: Storage)
    | Tick(outcome: SendOutcome)

  /** A call together with the browser facts at its instant. */
  datatype Step = Step(env: Env, action: Action)

  predicate IsTrack(a: Action) {
    a.EventCall? || a.PageViewCall? || a.FeatureCall? || a.ConversionCall? || a.WaitlistCall?
  }

  function Apply(p: Provider, s: Step): (r: Provider)
    ensures IsTrack(s.action) ==> AppendsOne(p, r) && Snapshot(p, s.env, Last(r))
    ensures r.sessionId == p.sessionId
  {
    match s.action
    case EventCall(name, props) => TrackEvent(p, s.env, name, props)
    case PageViewCall(page, referrer) => TrackPageView(p, s.env, page, referrer)
    case FeatureCall(feature, action, props) => TrackFeatureInteraction(p, s.env, feature, action, props)
    case ConversionCall(source, email) => TrackConversion(p, s.env, source, email)
    case WaitlistCall(source, props) => TrackWaitlistCTA(p, s.env, source, props)
    case StorageEvent(local) => StorageChanged(p, local)
    case Tick(outcome) => FlushTick(p, outcome)
  }

  /** The event a tracking step appends. */
  function EventOf(p: Provider, s: Step): Event
    requires IsTrack(s.action)
  {
    Last(Apply(p, s))
  }

  /** The provider after the steps, in order. */
  function Run(p: Provider, steps: seq<Step>): Provider
  {
    if |steps| == 0 then p else Apply(Run(p, steps[..|steps| - 1]), steps[|steps| - 1])
  }

  function Flatten(batches: seq<seq<Event>>): seq<Event>
  {
    if |batches| == 0 then [] else Flatten(batches[..|batches| - 1]) + batches[|batches| - 1]
  }

  /** Everything the pipeline has been given so far: the posted batches in
      order, then the events still queued. */
  function Stream(p: Provider): seq<Event>
  {
    Flatten(p.posted) + p.queue
  }

  function TrackCount(steps: seq<Step>): nat
  {
    if |steps| == 0 then 0
    else TrackCount(steps[..|steps| - 1]) + (if IsTrack(steps[|steps| - 1].action) then 1 else 0)
  }

  /** One step keeps the stream: a tracking call extends it by exactly its
      event, anything else leaves it as it is (a flush moves the queue into
      the posted batches without loss or duplication). */
  lemma {:induction false} ApplyStream(p: Provider, s: Step)
    ensures IsTrack(s.action) ==> Stream(Apply(p, s)) == Stream(p) + [EventOf(p, s)]
    ensures !IsTrack(s.action) ==> Stream(Apply(p, s)) == Stream(p)
  {
    var r := Apply(p, s);
    if IsTrack(s.action) {
      assert r.queue == p.queue + [Last(r)];
    } else if s.action.Tick? && |p.queue| > 0 {
      assert r.posted[..|r.posted| - 1] == p.posted;
    }
  }

  /** No event is ever lost or duplicated inside the pipeline: over any run,
      the stream only grows, by exactly one event per tracking call. */
  lemma {:induction false} RunConservesEvents(p: Provider, steps: seq<Step>)
    ensures |Stream(Run(p, steps))| == |Stream(p)| + TrackCount(steps)
    ensures Stream(Run(p, steps))[..|Stream(p)|] == Stream(p)
  {
    if |steps| > 0 {
      var init := steps[..|steps| - 1];
      RunConservesEvents(p, init);
      ApplyStream(Run(p, init), steps[|steps| - 1]);
    }
  }

  /** Every event ever posted or queued carries the provider's session id. */
  predicate OneSession(p: Provider) {
    forall i :: 0 <= i < |Stream(p)| ==> Stream(p)[i].sessionId == p.sessionId
  }

  lemma {:induction false} RunKeepsOneSession(p: Provider, steps: seq<Step>)
    requires OneSession(p)
    ensures Run(p, steps).sessionId == p.sessionId
    ensures OneSession(Run(p, steps))
  {
    if |steps| > 0 {
      var init := steps[..|steps| - 1];
      RunKeepsOneSession(p, init);
      ApplyStream(Run(p, init), steps[|steps| - 1]);
    }
  }

  predicate AllTrack(steps: seq<Step>) {
    forall i :: 0 <= i < |steps| ==> IsTrack(steps[i].action)
  }

  /** Appending a tracking step to a run appends its event to the queue. */
  lemma RunSnocTrack(p: Provider, steps: seq<Step>)
    requires |steps| > 0 && IsTrack(steps[|steps| - 1].action)
    ensures
      var q := Run(p, steps[..|steps| - 1]);
      Run(p, steps).queue == q.queue + [EventOf(q, steps[|steps| - 1])]
      && Run(p, steps).posted == q.posted
  {
    var q := Run(p, steps[..|steps| - 1]);
    var r := Apply(q, steps[|steps| - 1]);
    assert r.queue == q.queue + [Last(r)];
  }

  /** Between two flushes, the queue is the earlier queue followed by one
      event per tracking call, in call order; call `i` contributes the event
      it builds from the provider as it stood just before it. */
  lemma {:induction false} TrackingRunQueue(p: Provider, steps: seq<Step>)
    requires AllTrack(steps)
    ensures |Run(p, steps).queue| == |p.queue| + |steps|
    ensures Run(p, steps).queue[..|p.queue|] == p.queue
    ensures Run(p, steps).posted == p.posted
    ensures forall i :: 0 <= i < |steps| ==>
      Run(p, steps).queue[|p.queue| + i] == EventOf(Run(p, steps[..i]), steps[i])
  {
    if |steps| > 0 {
      var n := |steps| - 1;
      var init := steps[..n];
      assert AllTrack(init) by {
        forall i | 0 <= i < |init| ensures IsTrack(init[i].action) {
          assert init[i] == steps[i];
        }
      }
      TrackingRunQueue(p, init);
      RunSnocTrack(p, steps);
      var q := Run(p, init);
      var rq := Run(p, steps).queue;
      assert rq == q.queue + [EventOf(q, steps[n])];
      forall i | 0 <= i < |steps|
        ensures rq[|p.queue| + i] == EventOf(Run(p, steps[..i]), steps[i])
      {
        if i < n {
          assert rq[|p.queue| + i] == q.queue[|p.queue| + i];
          assert init[..i] == steps[..i];
          assert init[i] == steps[i];
        } else {
          assert steps[..i] == init;
        }
      }
      assert rq[..|p.queue|] == q.queue[..|p.queue|];
    }
  }

  /** The batch a flush posts after a run of tracking calls on an empty
      queue is exactly the calls' events, in call order. */
  lemma BatchIsCallsInOrder(p: Provider, steps: seq<Step>, outcome: SendOutcome)
    requires p.queue == [] && AllTrack(steps) && |steps| > 0
    ensures FlushTick(Run(p, steps), outcome).posted == p.posted + [Run(p, steps).queue]
    ensures |Run(p, steps).queue| == |steps|
    ensures forall i :: 0 <= i < |steps| ==> Run(p, steps).queue[i] == EventOf(Run(p, steps[..i]), steps[i])
  {
    TrackingRunQueue(p, steps);
  }

  /** After a conversion, reclassifying from storage yields `waitlisted`
      unless an auth token is present, whatever the demo flag says. */
  lemma ConversionReclassifies(p: Provider, env: Env, source: string, email: Option<string>)
    ensures
      var r := TrackConversion(p, env, source, email);
      ClassifyUser(r.local) == (if Truthy(Get(p.local, AuthKey)) then Authenticated else Waitlisted)
  {
  }

  /** A page view of `/jobs` followed by a click event, flushed from an empty
      queue, posts one batch of two events: the page view first, carrying the
      page, then the click, carrying its properties, both in one session. */
  lemma ScenarioPageViewThenClick(p: Provider, e1: Env, e2: Env, outcome: SendOutcome)
    requires p.queue == []
    ensures
      var q := TrackEvent(TrackPageView(p, e1, "/jobs", None), e2, "button_click", Some(map["id" := Str("save")]));
      && FlushTick(q, outcome).posted == p.posted + [q.queue]
      && |q.queue| == 2
      && q.queue[0].page == "/jobs" && q.queue[0].eventName == "page_view"
      && q.queue[1].eventName == "button_click" && q.queue[1].properties == map["id" := Str("save")]
      && q.queue[0].sessionId == q.queue[1].sessionId == p.sessionId
  {
  }

  // ---------------------------------------------------------------------
  // Re-renders

  /** `trackPageView` is rebuilt whenever the session id, the demo flag or
      the user type changes, and the page-view effect depends on it. */
  predicate CallbacksRebuilt(before: Provider, after: Provider)
    ensures before.(startMs := after.startMs, queue := after.queue, local := after.local,
                    posted := after.posted, warnings := after.warnings) == after ==>
      !CallbacksRebuilt(before, after)
  {
    before.sessionId != after.sessionId || before.demoMode != after.demoMode || before.userType != after.userType
  }

  /** The page-view effect: a page view of the current location, with the
      document's referrer. */
  function AutoPageView(p: Provider, env: Env): (r: Provider)
    ensures AppendsOne(p, r) && Snapshot(p, env, Last(r))
    ensures Last(r).eventName == "page_view" && Last(r).page == env.pathname
    ensures "referrer" in Last(r).properties && Last(r).properties["referrer"] == Str(env.documentReferrer)
    ensures r.userType == p.userType && r.demoMode == p.demoMode && r.local == p.local
  {
    TrackPageView(p, env, env.pathname, None)
  }

  /** After the first render the effect records the landing page: the
      mounted provider's queue holds exactly one page view, built from the
      visitor's classification. */
  lemma MountTracksLandingPage(session: Storage, local: Storage, nowMs: nat, randomPart: string, env: Env)
    ensures
      var m := Mount(session, local, nowMs, randomPart);
      var r := AutoPageView(m.provider, env);
      && |r.queue| == 1
      && r.queue[0].eventName == "page_view" && r.queue[0].page == env.pathname
      && r.queue[0].sessionId == m.provider.sessionId
      && r.queue[0].userType == ClassifyUser(local) && (r.queue[0].demoMode <==> DemoFlag(local))
  {
  }

  /** A step followed by the render it causes: when the step changed the
      user type or the demo flag, the effect re-runs and appends a page view
      carrying the new values. */
  function Render(p: Provider, s: Step): (r: Provider)
    ensures !CallbacksRebuilt(p, Apply(p, s)) ==> r == Apply(p, s)
    ensures CallbacksRebuilt(p, Apply(p, s)) ==>
      && AppendsOne(Apply(p, s), r)
      && Snapshot(Apply(p, s), s.env, Last(r))
      && Last(r).eventName == "page_view" && Last(r).page == s.env.pathname
  {
    var q := Apply(p, s);
    if CallbacksRebuilt(p, q) then AutoPageView(q, s.env) else q
  }

  /** Exactly two kinds of step re-run the page-view effect: a conversion by
      a visitor who was not yet waitlisted, and a storage event that changes
      the classification or the demo flag. Tracking calls and flushes never
      do. */
  lemma RebuildIff(p: Provider, s: Step)
    ensures CallbacksRebuilt(p, Apply(p, s)) <==>
      || (s.action.ConversionCall? && p.userType != Waitlisted)
      || (s.action.StorageEvent? &&
          (ClassifyUser(s.action.local) != p.userType || DemoFlag(s.action.local) != p.demoMode))
  {
  }

  /** A render keeps the stream: it is the step's stream, followed by the
      extra page view when the effect re-ran. */
  lemma RenderStream(p: Provider, s: Step)
    ensures Stream(Render(p, s)) ==
      Stream(Apply(p, s)) + (if CallbacksRebuilt(p, Apply(p, s)) then [Last(Render(p, s))] else [])
  {
    var q := Apply(p, s);
    if CallbacksRebuilt(p, q) {
      var r := Render(p, s);
      assert r.queue == q.queue + [Last(r)];
    }
  }

  /** A visitor who converts leaves two events behind: the signup, then the
      page view the re-render adds, already tagged as waitlisted. */
  lemma ConversionAddsPageView(p: Provider, env: Env, source: string, email: Option<string>)
    requires p.userType != Waitlisted
    ensures
      var r := Render(p, Step(env, ConversionCall(source, email)));
      && |r.queue| == |p.queue| + 2
      && r.queue[|p.queue|].eventName == "waitlist_signup_completed"
      && r.queue[|p.queue|].userType == p.userType
      && r.queue[|p.queue| + 1].eventName == "page_view"
      && r.queue[|p.queue| + 1].userType == Waitlisted
  {
    var q := TrackConversion(p, env, source, email);
    assert Apply(p, Step(env, ConversionCall(source, email))) == q;
    var r := AutoPageView(q, env);
    assert r.queue[..|q.queue|] == q.queue;
    assert r.queue[|p.queue|] == q.queue[|p.queue|];
  }
}

=== FILE: analytics_examples.dfy ===
/** The data handling of the analytics example widgets: the demo-mode
    select, the user-type checkboxes, the filter merge, and the transforms
    that turn fetched analytics into chart rows and colours. */
module AnalyticsExamples {
  import opened Common
  import opened Types

  /** The select's value for the demo-mode filter: absent is "all". */
  function EncodeDemoMode(v: Option<bool>): (s: string)
    ensures s in {"all", "true", "false"}
  {
    match v
    case None => "all"
    case Some(b) => if b then "true" else "false"
  }

  /** The filter value a selected option stands for; only `"true"` reads
      as demo. */
  function DecodeDemoMode(s: string): (v: Option<bool>)
    ensures v.None? <==> s == "all"
    ensures v == Some(true) <==> s == "true"
  {
    if s == "all" then None else Some(s == "true")
  }

  /** Every filter value survives the select. */
  lemma DemoModeRoundTrip(v: Option<bool>)
    ensures DecodeDemoMode(EncodeDemoMode(v)) == v
  {
  }

  /** Each option reads back as itself; any other string is production. */
  lemma DemoModeOptions(s: string)
    ensures s in {"all", "true", "false"} ==> EncodeDemoMode(DecodeDemoMode(s)) == s
    ensures s !in {"all", "true", "false"} ==> DecodeDemoMode(s) == Some(false)
  {
  }

  /** The user types the checkbox filter offers. */
  const UserTypes: seq<string> := ["new", "returning"]

  /** Whether a user type's box is ticked (`value?.includes(type) || false`). */
  predicate Checked(value: Option<seq<string>>, t: string) {
    value.Some? && t in value.value
  }

  /** The list after a box is ticked or cleared: ticking appends, clearing
      removes every copy. */
  function Toggle(value: Option<seq<string>>, t: string, checked: bool): (r: seq<string>)
    ensures var current := if value.Some? then value.value else [];
      checked ==> r == current + [t]
    ensures checked <==> Checked(Some(r), t)
  {
    var current := if value.Some? then value.value else [];
    if checked then current + [t] else RemoveAll(current, t)
  }

  /** Removing keeps the other entries in order: it distributes over
      concatenation and leaves any other single entry alone. */
  lemma {:induction false} RemoveAllConcat(a: seq<string>, b: seq<string>, x: string)
    ensures RemoveAll(a + b, x) == RemoveAll(a, x) + RemoveAll(b, x)
  {
    if |a| > 0 {
      var h := if a[0] == x then [] else [a[0]];
      assert (a + b)[0] == a[0];
      assert (a + b)[1..] == a[1..] + b;
      assert RemoveAll(a + b, x) == h + RemoveAll(a[1..] + b, x);
      RemoveAllConcat(a[1..], b, x);
      assert RemoveAll(a, x) == h + RemoveAll(a[1..], x);
    } else {
      assert a + b == b;
    }
  }

  /** Ticking then clearing a box restores a list that did not hold it. */
  lemma ToggleRoundTrip(value: seq<string>, t: string)
    requires t !in value
    ensures Toggle(Some(Toggle(Some(value), t, true)), t, false) == value
  {
    RemoveAllConcat(value, [t], t);
    assert RemoveAll([t], t) == [];
  }

  /** Clearing a box keeps every other entry, in order. */
  lemma ClearKeepsOthers(a: seq<string>, y: string, b: seq<string>, t: string)
    requires y != t
    ensures Toggle(Some(a + [y] + b), t, false) == RemoveAll(a, t) + [y] + RemoveAll(b, t)
  {
    RemoveAllConcat(a + [y], b, t);
    RemoveAllConcat(a, [y], t);
    assert RemoveAll([y], t) == [y];
  }

  /** The dashboard's filters. */
  datatype AnalyticsFilters = AnalyticsFilters(
    dateRange: Option<DateRange>,
    userType: Option<seq<string>>,
    demoMode: Option<bool>)

  /** A partial update: `None` leaves a key out, `Some(v)` sets it, even
      to `undefined` (`Some(None)`), as the demo select does for "all". */
  datatype FilterUpdate = FilterUpdate(
    dateRange: Option<Option<DateRange>>,
    userType: Option<Option<seq<string>>>,
    demoMode: Option<Option<bool>>)

  function Pick<T>(update: Option<T>, previous: T): (r: T)
    ensures update.Some? ==> r == update.value
    ensures update.None? ==> r == previous
  {
    if update.Some? then update.value else previous
  }

  /** `{ ...prev, ...newFilters }`. */
  function MergeFilters(prev: AnalyticsFilters, update: FilterUpdate): (r: AnalyticsFilters)
    ensures update.dateRange.Some? ==> r.dateRange == update.dateRange.value
    ensures update.dateRange.None? ==> r.dateRange == prev.dateRange
    ensures update.userType.Some? ==> r.userType == update.userType.value
    ensures update.userType.None? ==> r.userType == prev.userType
    ensures update.demoMode.Some? ==> r.demoMode == update.demoMode.value
    ensures update.demoMode.None? ==> r.demoMode == prev.demoMode
  {
    AnalyticsFilters(
      Pick(update.dateRange, prev.dateRange),
      Pick(update.userType, prev.userType),
      Pick(update.demoMode, prev.demoMode))
  }

  const NoUpdate := FilterUpdate(None, None, None)

  /** Merging nothing changes nothing, and merging the same update twice is
      merging it once. */
  lemma MergeIdentityIdempotent(prev: AnalyticsFilters, update: FilterUpdate)
    ensures MergeFilters(prev, NoUpdate) == prev
    ensures MergeFilters(MergeFilters(prev, update), update) == MergeFilters(prev, update)
  {
  }

  /** Choosing "All" in the demo select clears the demo filter and touches
      nothing else. */
  lemma SelectAllClearsDemoMode(prev: AnalyticsFilters)
    ensures MergeFilters(prev, FilterUpdate(None, None, Some(DecodeDemoMode("all"))))
      == prev.(demoMode := None)
  {
  }

  /** `s.replace('/', '')`: only the first slash goes. */
  function DropFirstSlash(s: string): (r: string)
    ensures '/' !in s ==> r == s
    ensures '/' in s ==> |r| == |s| - 1
  {
    match IndexOf(s, '/')
    case None => s
    case Some(k) => s[..k] + s[k + 1..]
  }

  /** Putting the slash back where it was recovers the path. */
  lemma DropFirstSlashRoundTrip(s: string)
    requires '/' in s
    ensures var k := IndexOf(s, '/').value;
      var r := DropFirstSlash(s);
      k <= |r| && '/' !in r[..k] && r[..k] + "/" + r[k..] == s
  {
    var k := IndexOf(s, '/').value;
    var r := DropFirstSlash(s);
    assert r[..k] == s[..k];
    assert r[k..] == s[k + 1..];
    assert s == s[..k] + [s[k]] + s[k + 1..];
  }

  /** A path with several slashes keeps all but its first. */
  lemma LandingLabelExample()
    ensures DropFirstSlash("/pricing/plans") == "pricing/plans"
  {
    assert IndexOf("/pricing/plans", '/') == Some(0);
  }

  datatype LandingPage = LandingPage(page: string, views: int, percentage: real)

  /** One bar of the landing-page chart. */
  datatype PageBar = PageBar(page: string, views: int, percentage: real)

  function LandingChartData(pages: Option<seq<LandingPage>>): (r: seq<PageBar>)
    ensures pages.None? ==> r == []
    ensures pages.Some? ==> |r| == |pages.value|
    ensures pages.Some? ==> forall i :: 0 <= i < |r| ==>
      r[i].views == pages.value[i].views && r[i].percentage == pages.value[i].percentage
      && r[i].page == DropFirstSlash(pages.value[i].page)
  {
    match pages
    case None => []
    case Some(ps) => seq(|ps|, i requires 0 <= i < |ps| => PageBar(DropFirstSlash(ps[i].page), ps[i].views, ps[i].percentage))
  }

  datatype WeeklyPoint = WeeklyPoint(date: string, count: int)

  datatype FeatureAdoption = FeatureAdoption(feature: string, weeklyUsage: seq<WeeklyPoint>)

  /** `adoption.find(f => f.feature === name)`. */
  function FindFeature(adoption: seq<FeatureAdoption>, name: string): (r: Option<nat>)
    ensures r.None? <==> forall i :: 0 <= i < |adoption| ==> adoption[i].feature != name
    ensures r.Some? ==> r.value < |adoption| && adoption[r.value].feature == name
    ensures r.Some? ==> forall i :: 0 <= i < r.value ==> adoption[i].feature != name
  {
    if |adoption| == 0 then None
    else if adoption[0].feature == name then Some(0)
    else match FindFeature(adoption[1..], name)
      case None => None
      case Some(k) => Some(k + 1)
  }

  /** The trend of the selected feature: empty without a selection or data,
      else the weekly usage of the first entry with that name, or empty. */
  function FeatureAdoptionData(selected: Option<string>, adoption: Option<seq<FeatureAdoption>>): (r: seq<WeeklyPoint>)
    ensures !Truthy(selected) || adoption.None? ==> r == []
    ensures Truthy(selected) && adoption.Some? && r != [] ==>
      exists i :: 0 <= i < |adoption.value| && adoption.value[i].feature == selected.value
        && adoption.value[i].weeklyUsage == r
    ensures adoption.Some? && (forall i :: 0 <= i < |adoption.value| ==> adoption.value[i].feature != OrElse(selected, "")) ==> r == []
    ensures Truthy(selected) && adoption.Some? && FindFeature(adoption.value, selected.value).Some? ==>
      r == adoption.value[FindFeature(adoption.value, selected.value).value].weeklyUsage
  {
    if !Truthy(selected) || adoption.None? then []
    else match FindFeature(adoption.value, selected.value)
      case None => []
      case Some(k) => adoption.value[k].weeklyUsage
  }

  /** The first matching entry wins: whatever precedes it under other
      names and whatever follows it, including later entries with the same
      name, the trend shown is its own. */
  lemma FirstMatchWins(name: string, before: seq<FeatureAdoption>, usage: seq<WeeklyPoint>, after: seq<FeatureAdoption>)
    requires name != ""
    requires forall i :: 0 <= i < |before| ==> before[i].feature != name
    ensures FeatureAdoptionData(Some(name), Some(before + [FeatureAdoption(name, usage)] + after)) == usage
  {
    var all := before + [FeatureAdoption(name, usage)] + after;
    assert all[|before|].feature == name;
  }

  /** The pie and list colours, cycled by index. */
  const Palette: seq<string> := ["#0088FE", "#00C49F", "#FFBB28", "#FF8042", "#8884D8"]

  function PaletteColor(index: nat): (c: string)
    ensures c in Palette
  {
    Palette[index % |Palette|]
  }

  /** Colours repeat every five entries and neighbours never share one. */
  lemma PaletteCycles(index: nat)
    ensures PaletteColor(index + 5) == PaletteColor(index)
    ensures PaletteColor(index + 1) != PaletteColor(index)
  {
    var k := index % 5;
    assert (index + 5) % 5 == k;
    assert (index + 1) % 5 == (k + 1) % 5;
  }

  /** The event-category pie colours: hue `45 * index`. */
  function CategoryColor(index: nat): (c: string)
    ensures StartsWith(c, "hsl(")
  {
    "hsl(" + NatToString(index * 45) + ", 70%, 60%)"
  }

  /** Unlike the palette, the category colour strings never repeat (hue
      360 is written differently from hue 0, though it looks the same). */
  lemma CategoryColorInjective(i: nat, j: nat)
    requires CategoryColor(i) == CategoryColor(j)
    ensures i == j
  {
    var a := NatToString(i * 45);
    var b := NatToString(j * 45);
    var c := CategoryColor(i);
    assert c == "hsl(" + a + ", 70%, 60%)";
    HueDigits(a);
    HueDigits(b);
    HueField(a);
    HueField(b);
    NatToStringInjective(i * 45, j * 45);
  }

  /** A rendering of digits is free of commas. */
  lemma HueDigits(a: string)
    requires forall k :: 0 <= k < |a| ==> IsDigit(a[k])
    ensures ',' !in a
  {
    assert forall k :: 0 <= k < |a| ==> a[k] != ',';
  }

  /** The hue is the text between `hsl(` and the first comma. */
  lemma HueField(a: string)
    requires ',' !in a
    ensures var c := "hsl(" + a + ", 70%, 60%)";
      IndexOf(c, ',') == Some(4 + |a|) && c[4..4 + |a|] == a
  {
    var c := "hsl(" + a + ", 70%, 60%)";
    var k := IndexOf(c, ',').value;
    assert c[4 + |a|] == ',';
    assert forall m :: 0 <= m < 4 ==> c[m] != ',';
    assert forall m :: 4 <= m < 4 + |a| ==> c[m] == a[m - 4];
    assert ',' !in c[..4 + |a|];
    NotInPrefix(c, ',', 4 + |a|, k);
    NotInPrefix(c, ',', k, 4 + |a|);
  }

  /** `s.slice(0, n)`. */
  function Take<T>(s: seq<T>, n: nat): (r: seq<T>)
    ensures |r| <= n && |r| <= |s|
    ensures |r| == n || r == s
    ensures forall i :: 0 <= i < |r| ==> r[i] == s[i]
  {
    if |s| <= n then s else s[..n]
  }

  datatype FeatureStat = FeatureStat(featureName: string, usage: int)

  /** The selectable cards: the first six top features. */
  function FeatureCards(top: Option<seq<FeatureStat>>): (r: seq<FeatureStat>)
    ensures |r| <= 6
    ensures top.None? ==> r == []
    ensures top.Some? ==> r == Take(top.value, 6)
  {
    if top.Some? then Take(top.value, 6) else []
  }

  /** The bars of a comparison chart: the first five features. */
  function ComparisonBars(features: Option<seq<FeatureStat>>): (r: seq<FeatureStat>)
    ensures |r| <= 5
    ensures features.None? ==> r == []
    ensures features.Some? ==> r == Take(features.value, 5)
  {
    Take(if features.Some? then features.value else [], 5)
  }

  /** The production comparison chart shows a prefix of the cards. */
  lemma BarsArePrefixOfCards(top: Option<seq<FeatureStat>>)
    ensures var bars := ComparisonBars(top);
      var cards := FeatureCards(top);
      |bars| <= |cards| && bars == cards[..|bars|]
  {
  }
}

=== FILE: api.dfy ===
/** The REST client's decisions: the URL of a request, the headers it
    sends, how a failed response or a thrown error becomes the error the
    caller sees, and the query string built from the list filters. */
module Api {
  import opened Common
  import opened Types

  const ApiBase := "/api"

  function RequestUrl(endpoint: string): (url: string)
    ensures StartsWith(url, ApiBase) && url[|ApiBase|..] == endpoint
  {
    ApiBase + endpoint
  }

  type Headers = map<string, string>

  const JsonHeaders: Headers := map["Content-Type" := "application/json"]

  /** The caller's request options; `headers` is absent when the caller
      does not set it. */
  datatype RequestOptions = RequestOptions(headers: Option<Headers>, verb: Option<string>, payload: Option<string>)

  /** The headers of the built configuration: the JSON content type merged
      with the caller's headers, then every caller option spread on top,
      which puts the caller's own `headers` back in place of the merge. */
  function EffectiveHeaders(options: RequestOptions): (h: Headers)
    ensures options.headers.None? ==> h == JsonHeaders
    ensures options.headers.Some? ==> h == options.headers.value
  {
    var merged := JsonHeaders + (if options.headers.Some? then options.headers.value else map[]);
    if options.headers.Some? then options.headers.value else merged
  }

  /** Passing any headers drops the JSON content type unless the caller
      repeats it. */
  lemma CallerHeadersReplaceDefault(options: RequestOptions)
    requires options.headers.Some?
    ensures "Content-Type" in EffectiveHeaders(options) <==> "Content-Type" in options.headers.value
  {
  }

  const UnavailableMessage := "Service temporarily unavailable. Please try again in a moment."
  const TimeoutMessage := "Request timeout. The operation took too long to complete."
  const ServerErrorMessage := "Server error. Please contact support if this persists."
  const ConnectionMessage := "Unable to connect to the server. Please check if the Job Track API is running."
  const HttpErrorPrefix := "HTTP error! status: "

  /** What a thrown value is: a plain `Error`, a `TypeError`, or anything
      else (kept by name). */
  datatype Thrown = PlainError(message: string) | TypeError(message: string) | OtherThrown(name: string, message: string)

  /** The `message` field of a parsed JSON object: whether it is truthy,
      and the text `String(message)` gives, which is what `new Error`
      keeps. A string is truthy exactly when it is non-empty; a number, an
      array or an object carries its own truthiness (`[]` is truthy with
      empty text, `0` is falsy with text `"0"`). */
  datatype MessageField = MessageField(truthy: bool, text: string)

  /** A `message` that is a string. */
  function StringField(s: string): (f: MessageField)
    ensures f.truthy <==> s != ""
    ensures f.text == s
  {
    MessageField(s != "", s)
  }

  /** A response body: a parsed JSON object with or without `message`, the
      JSON literal `null`, or a body that fails to parse with the given
      error. Any other JSON value has no `message` property and behaves
      like an object without one. */
  datatype Body = JsonObject(message: Option<MessageField>) | JsonNull | NotJson(parseError: Thrown)

  datatype Response = Response(status: nat, body: Body)

  predicate Ok(status: nat) {
    200 <= status <= 299
  }

  /** What reading `message` off `null` throws (the wording of V8). */
  const NullReadError := "Cannot read properties " + "of null (reading 'message')"

  /** `errorData.message` when it is truthy. A body that fails to parse
      becomes `{}` through the `catch`, so it has no message. */
  function BodyMessage(body: Body): (m: Option<string>)
    ensures m.Some? <==> body.JsonObject? && body.message.Some? && body.message.value.truthy
    ensures m.Some? ==> m.value == body.message.value.text
  {
    if body.JsonObject? && body.message.Some? && body.message.value.truthy then Some(body.message.value.text)
    else None
  }

  /** What a response that is not ok throws, before the catch block sees
      it. The server statuses are checked before the body's `message` is
      read, so a `null` body only matters below 500. */
  function StatusError(status: nat, body: Body): (e: Thrown)
    ensures status == 523 ==> e == PlainError(UnavailableMessage)
    ensures status == 524 ==> e == PlainError(TimeoutMessage)
    ensures status >= 500 && status != 523 && status != 524 ==> e == PlainError(ServerErrorMessage)
    ensures status < 500 && body.JsonNull? ==> e == TypeError(NullReadError)
    ensures status < 500 && BodyMessage(body).Some? ==> e == PlainError(BodyMessage(body).value)
    ensures status < 500 && !body.JsonNull? && BodyMessage(body).None? ==>
      e == PlainError(HttpErrorPrefix + NatToString(status))
  {
    if status == 523 then PlainError(UnavailableMessage)
    else if status == 524 then PlainError(TimeoutMessage)
    else if status >= 500 then PlainError(ServerErrorMessage)
    else if body.JsonNull? then TypeError(NullReadError)
    else match BodyMessage(body)
      case Some(m) => PlainError(m)
      case None => PlainError(HttpErrorPrefix + NatToString(status))
  }

  /** Server-side failures never depend on the body. */
  lemma ServerErrorsIgnoreBody(status: nat, a: Body, b: Body)
    requires status >= 500
    ensures StatusError(status, a) == StatusError(status, b)
  {
  }

  /** The fallback message names the status faithfully: its digits read
      back as the status code. */
  lemma FallbackNamesStatus(status: nat, body: Body)
    requires status < 500 && !body.JsonNull? && BodyMessage(body).None?
    ensures var e := StatusError(status, body);
      && e.PlainError?
      && StartsWith(e.message, HttpErrorPrefix)
      && (forall i :: |HttpErrorPrefix| <= i < |e.message| ==> IsDigit(e.message[i]))
      && ParseDecimal(e.message[|HttpErrorPrefix|..]) == status
  {
    var m := StatusError(status, body).message;
    assert m[|HttpErrorPrefix|..] == NatToString(status);
    NatToStringRoundTrip(status);
  }

  /** The catch block: a `TypeError` mentioning `fetch` becomes the
      connection message; anything else is rethrown as it is. */
  function Rethrown(e: Thrown): (r: Thrown)
    ensures e.TypeError? && Contains(e.message, "fetch") ==> r == PlainError(ConnectionMessage)
    ensures !(e.TypeError? && Contains(e.message, "fetch")) ==> r == e
  {
    if e.TypeError? && Contains(e.message, "fetch") then PlainError(ConnectionMessage) else e
  }

  /** What `fetch` did: answered, or threw. */
  datatype FetchOutcome = Answered(response: Response) | FetchThrew(error: Thrown)

  /** The parsed body on success, or what reaches the caller. */
  datatype RequestResult = Success(body: Body) | Failure(error: Thrown)

  /** `request`, given what the network did. */
  function Request(outcome: FetchOutcome): (r: RequestResult)
    ensures outcome.Answered? && Ok(outcome.response.status) && !outcome.response.body.NotJson? ==>
      r == Success(outcome.response.body)
    ensures outcome.Answered? && !Ok(outcome.response.status) ==>
      r == Failure(Rethrown(StatusError(outcome.response.status, outcome.response.body)))
    ensures outcome.Answered? && Ok(outcome.response.status) && outcome.response.body.NotJson? ==>
      r == Failure(Rethrown(outcome.response.body.parseError))
    ensures outcome.FetchThrew? ==> r == Failure(Rethrown(outcome.error))
    ensures r.Success? <==> outcome.Answered? && Ok(outcome.response.status) && !outcome.response.body.NotJson?
  {
    match outcome
    case FetchThrew(e) => Failure(Rethrown(e))
    case Answered(resp) =>
      if !Ok(resp.status) then Failure(Rethrown(StatusError(resp.status, resp.body)))
      else if resp.body.NotJson? then Failure(Rethrown(resp.body.parseError))
      else Success(resp.body)
  }

  /** A text without an `h` cannot mention `fetch`. */
  lemma NoFetchWithoutH(s: string)
    requires 'h' !in s
    ensures !Contains(s, "fetch")
  {
    forall i | 0 <= i <= |s| - 5
      ensures !OccursAt(s, "fetch", i)
    {
      assert s[i + 4] == s[i..i + 5][4];
    }
  }

  /** The error about reading `message` off `null` does not mention
      `fetch`. */
  lemma NullReadErrorNoFetch()
    ensures !Contains(NullReadError, "fetch")
  {
    assert 'h' !in "Cannot read properties " && 'h' !in "of null (reading 'message')";
    NoFetchWithoutH(NullReadError);
  }

  /** A response that is not ok fails with a plain error carrying its
      message, except that a `null` body below 500 fails with the
      `TypeError` of reading its `message`, which the catch block passes
      on unchanged. */
  lemma NotOkFailures(status: nat, body: Body)
    requires !Ok(status)
    ensures status < 500 && body.JsonNull? ==>
      Request(Answered(Response(status, body))) == Failure(TypeError(NullReadError))
    ensures !(status < 500 && body.JsonNull?) ==>
      Request(Answered(Response(status, body))) == Failure(StatusError(status, body))
      && StatusError(status, body).PlainError?
  {
    NullReadErrorNoFetch();
  }

  /** A numeric `message` is shown as its digits; a truthy message whose
      text is empty, such as `[]`, gives an empty message rather than the
      fallback. */
  lemma NonStringMessages()
    ensures Request(Answered(Response(404, JsonObject(Some(MessageField(true, "42")))))) == Failure(PlainError("42"))
    ensures Request(Answered(Response(400, JsonObject(Some(MessageField(true, "")))))) == Failure(PlainError(""))
    ensures Request(Answered(Response(400, JsonObject(Some(MessageField(false, "0")))))) ==
      Failure(PlainError(HttpErrorPrefix + NatToString(400)))
  {
  }

  /** Only a network-level `TypeError` that mentions `fetch` is reported as
      a connection problem; every other thrown value reaches the caller
      unchanged. */
  lemma ConnectionRewrite(e: Thrown)
    ensures e.TypeError? && Contains(e.message, "fetch") ==> Request(FetchThrew(e)) == Failure(PlainError(ConnectionMessage))
    ensures !(e.TypeError? && Contains(e.message, "fetch")) ==> Request(FetchThrew(e)) == Failure(e)
  {
  }

  /** The query keys the two list calls use, in the job list's order. */
  datatype Key = Search | Status | PriorityKey | PaymentStatus | StartDate | EndDate

  function KeyName(k: Key): (name: string)
    ensures name != "" && (forall i :: 0 <= i < |name| ==> IsLetter(name[i]))
  {
    match k
    case Search => "search"
    case Status => "status"
    case PriorityKey => "priority"
    case PaymentStatus => "paymentStatus"
    case StartDate => "startDate"
    case EndDate => "endDate"
  }

  /** The position of a key in the job list's order. */
  function KeyRank(k: Key): nat {
    match k
    case Search => 0
    case Status => 1
    case PriorityKey => 2
    case PaymentStatus => 3
    case StartDate => 4
    case EndDate => 5
  }

  /** One query parameter, before encoding. */
  datatype Param = Param(key: Key, value: string)

  /** `if (value) params.append(key, value)`. */
  function When(o: Option<string>, key: Key): (r: seq<Param>)
    ensures Truthy(o) ==> r == [Param(key, o.value)]
    ensures !Truthy(o) ==> r == []
  {
    if Truthy(o) then [Param(key, o.value)] else []
  }

  function StartOf(f: SearchFilters): Option<string> {
    if f.dateRange.Some? then Some(f.dateRange.value.start) else None
  }

  function EndOf(f: SearchFilters): Option<string> {
    if f.dateRange.Some? then Some(f.dateRange.value.end) else None
  }

  /** The value a filters object gives for a key. */
  function FilterValue(f: SearchFilters, k: Key): Option<string> {
    match k
    case Search => f.search
    case Status => f.status
    case PriorityKey => f.priority
    case PaymentStatus => f.paymentStatus
    case StartDate => StartOf(f)
    case EndDate => EndOf(f)
  }

  /** Keys whose ranks strictly increase. */
  predicate Increasing(keys: seq<Key>) {
    forall i, j :: 0 <= i < j < |keys| ==> KeyRank(keys[i]) < KeyRank(keys[j])
  }

  /** One `if (value) params.append(key, value)` per key, in order. */
  function Collect(f: SearchFilters, keys: seq<Key>): (r: seq<Param>)
    ensures |r| <= |keys|
    ensures forall i :: 0 <= i < |r| ==> r[i].value != ""
  {
    if |keys| == 0 then [] else When(FilterValue(f, keys[0]), keys[0]) + Collect(f, keys[1..])
  }

  /** A parameter is collected exactly when its key is listed and its
      filter is truthy, and it carries the filter's value. */
  lemma {:induction false} CollectMembership(f: SearchFilters, keys: seq<Key>, p: Param)
    ensures p in Collect(f, keys) <==>
      p.key in keys && Truthy(FilterValue(f, p.key)) && p.value == FilterValue(f, p.key).value
  {
    if |keys| > 0 {
      CollectMembership(f, keys[1..], p);
      var head := When(FilterValue(f, keys[0]), keys[0]);
      assert Collect(f, keys) == head + Collect(f, keys[1..]);
      assert p in head <==> p.key == keys[0] && Truthy(FilterValue(f, p.key)) && p.value == FilterValue(f, p.key).value;
      assert p.key in keys <==> p.key == keys[0] || p.key in keys[1..] by {
        assert keys == [keys[0]] + keys[1..];
      }
    }
  }

  /** Parameters whose keys strictly follow the job list's order. */
  predicate InOrder(r: seq<Param>) {
    forall i, j :: 0 <= i < j < |r| ==> KeyRank(r[i].key) < KeyRank(r[j].key)
  }

  /** No key of `r` ranks below `lo`. */
  predicate RanksFrom(r: seq<Param>, lo: nat) {
    forall i :: 0 <= i < |r| ==> lo <= KeyRank(r[i].key)
  }

  /** Collected keys follow the order of the key list and none comes
      before its first key. */
  lemma {:induction false} CollectOrdered(f: SearchFilters, keys: seq<Key>)
    requires Increasing(keys)
    ensures |keys| > 0 ==> RanksFrom(Collect(f, keys), KeyRank(keys[0]))
    ensures InOrder(Collect(f, keys))
  {
    if |keys| > 0 {
      var rest := Collect(f, keys[1..]);
      CollectOrdered(f, keys[1..]);
      assert InOrder(rest);
      assert forall i :: 0 <= i < |rest| ==> KeyRank(keys[0]) < KeyRank(rest[i].key) by {
        if |keys| > 1 {
          assert keys[1..][0] == keys[1];
          assert RanksFrom(rest, KeyRank(keys[1]));
          assert KeyRank(keys[0]) < KeyRank(keys[1]);
        } else {
          assert rest == [];
        }
      }
      var h := When(FilterValue(f, keys[0]), keys[0]);
      var r := Collect(f, keys);
      assert r == h + rest;
      if |h| == 1 {
        assert r[0].key == keys[0];
        assert forall j :: 1 <= j < |r| ==> r[j] == rest[j - 1];
        assert forall j :: 1 <= j < |r| ==> KeyRank(r[0].key) < KeyRank(r[j].key);
      }
    }
  }

  const JobKeys: seq<Key> := [Search, Status, PriorityKey, PaymentStatus, StartDate, EndDate]
  const CustomerKeys: seq<Key> := [Search, StartDate, EndDate]

  /** `getJobs`: one parameter per truthy filter, in the fixed order. */
  function JobParams(filters: Option<SearchFilters>): (r: seq<Param>)
    ensures |r| <= 6
    ensures filters.None? ==> r == []
  {
    match filters
    case None => []
    case Some(f) => Collect(f, JobKeys)
  }

  /** The job list sends a key exactly when that filter is truthy, with the
      filter's own value, and in the order search, status, priority,
      payment status, start date, end date. */
  lemma JobParamsComplete(f: SearchFilters, p: Param)
    ensures p in JobParams(Some(f)) <==> Truthy(FilterValue(f, p.key)) && p.value == FilterValue(f, p.key).value
    ensures InOrder(JobParams(Some(f)))
  {
    CollectMembership(f, JobKeys, p);
    EveryKeyListed(p.key);
    JobKeysIncreasing();
    CollectOrdered(f, JobKeys);
  }

  /** The job list names every filter key. */
  lemma EveryKeyListed(k: Key)
    ensures k in JobKeys
  {
    match k
    case Search => assert JobKeys[0] == Search;
    case Status => assert JobKeys[1] == Status;
    case PriorityKey => assert JobKeys[2] == PriorityKey;
    case PaymentStatus => assert JobKeys[3] == PaymentStatus;
    case StartDate => assert JobKeys[4] == StartDate;
    case EndDate => assert JobKeys[5] == EndDate;
  }

  /** The job list's keys are in rank order. */
  lemma JobKeysIncreasing()
    ensures Increasing(JobKeys)
  {
  }

  /** `getCustomers`: only the search text and the date bounds. */
  function CustomerParams(filters: Option<SearchFilters>): (r: seq<Param>)
    ensures |r| <= 3
    ensures filters.None? ==> r == []
  {
    match filters
    case None => []
    case Some(f) => Collect(f, CustomerKeys)
  }

  /** The customer list sends a parameter exactly when the job list would
      and its key is the search text or a date bound. */
  lemma CustomerParamsSubset(f: SearchFilters, p: Param)
    ensures p in CustomerParams(Some(f)) <==> p in JobParams(Some(f)) && p.key in {Search, StartDate, EndDate}
  {
    CollectMembership(f, CustomerKeys, p);
    JobParamsComplete(f, p);
  }

  /** Collecting reads the filters only through the listed keys. */
  lemma {:induction false} CollectReadsListed(f: SearchFilters, g: SearchFilters, keys: seq<Key>)
    requires forall i :: 0 <= i < |keys| ==> FilterValue(f, keys[i]) == FilterValue(g, keys[i])
    ensures Collect(f, keys) == Collect(g, keys)
  {
    if |keys| > 0 {
      CollectReadsListed(f, g, keys[1..]);
    }
  }

  /** The customer list ignores the status, priority and payment filters. */
  lemma CustomerParamsIgnoreJobFilters(f: SearchFilters, status: Option<string>, priority: Option<string>, payment: Option<string>)
    ensures CustomerParams(Some(f)) == CustomerParams(Some(f.(status := status, priority := priority, paymentStatus := payment)))
  {
    CollectReadsListed(f, f.(status := status, priority := priority, paymentStatus := payment), CustomerKeys);
  }

  /** URL-safe characters that `application/x-www-form-urlencoded` keeps. */
  predicate SafeChar(c: char) {
    IsLetter(c) || IsDigit(c) || c == '*' || c == '-' || c == '.' || c == '_'
  }

  function HexDigit(n: nat): (c: char)
    requires n < 16
    ensures IsDigit(c) || ('A' <= c <= 'F')
  {
    if n < 10 then DigitChar(n) else ('A' as int + n - 10) as char
  }

  /** The UTF-8 bytes of one character. */
  function Utf8(c: char): (bytes: seq<nat>)
    ensures 1 <= |bytes| <= 4
    ensures forall i :: 0 <= i < |bytes| ==> bytes[i] < 256
    ensures (c as int) < 0x80 ==> bytes == [c as int]
  {
    var n := c as int;
    if n < 0x80 then [n]
    else if n < 0x800 then [0xC0 + n / 64, 0x80 + n % 64]
    else if n < 0x10000 then [0xE0 + n / 4096, 0x80 + (n / 64) % 64, 0x80 + n % 64]
    else [0xF0 + n / 262144, 0x80 + (n / 4096) % 64, 0x80 + (n / 64) % 64, 0x80 + n % 64]
  }

  /** One byte: space as `+`, safe bytes as themselves, any other byte as
      `%` and two upper-case hex digits. */
  function EncodeByte(b: nat): (r: string)
    requires b < 256
    ensures forall i :: 0 <= i < |r| ==> SafeChar(r[i]) || r[i] == '%' || r[i] == '+'
    ensures b < 0x80 && SafeChar(b as char) ==> r == [b as char]
  {
    if b == 0x20 then "+"
    else if b < 0x80 && SafeChar(b as char) then [b as char]
    else ['%', HexDigit(b / 16), HexDigit(b % 16)]
  }

  function EncodeBytes(bytes: seq<nat>): (r: string)
    requires forall i :: 0 <= i < |bytes| ==> bytes[i] < 256
    ensures forall i :: 0 <= i < |r| ==> SafeChar(r[i]) || r[i] == '%' || r[i] == '+'
  {
    if |bytes| == 0 then "" else EncodeByte(bytes[0]) + EncodeBytes(bytes[1..])
  }

  /** A key or value as `URLSearchParams` serialises it. */
  function EncodeComponent(s: string): (r: string)
    ensures forall i :: 0 <= i < |r| ==> SafeChar(r[i]) || r[i] == '%' || r[i] == '+'
    ensures (forall i :: 0 <= i < |s| ==> SafeChar(s[i])) ==> r == s
  {
    if |s| == 0 then ""
    else
      var bytes := Utf8(s[0]);
      assert SafeChar(s[0]) ==> EncodeBytes(bytes) == [s[0]] by {
        if SafeChar(s[0]) {
          assert bytes == [s[0] as int] && bytes[1..] == [];
        }
      }
      EncodeBytes(bytes) + EncodeComponent(s[1..])
  }


  function EncodeParam(p: Param): (r: string)
    ensures '&' !in r
  {
    EncodeComponent(KeyName(p.key)) + "=" + EncodeComponent(p.value)
  }

  /** Parts joined with `&`. */
  function JoinAmp(parts: seq<string>): string {
    if |parts| == 0 then ""
    else if |parts| == 1 then parts[0]
    else parts[0] + "&" + JoinAmp(parts[1..])
  }

  /** `s.split('&')`. */
  function SplitAmp(s: string): (r: seq<string>)
    ensures |r| >= 1
    decreases |s|
  {
    match IndexOf(s, '&')
    case None => [s]
    case Some(k) => [s[..k]] + SplitAmp(s[k + 1..])
  }

  /** In `a & b` with `a` free of `&`, the first `&` is the joining one. */
  lemma FirstSeparator(a: string, b: string)
    requires '&' !in a
    ensures IndexOf(a + "&" + b, '&') == Some(|a|)
    ensures (a + "&" + b)[..|a|] == a && (a + "&" + b)[|a| + 1..] == b
  {
    var s := a + "&" + b;
    var k := IndexOf(s, '&').value;
    assert s[|a|] == '&';
    assert s[..|a|] == a;
    NotInPrefix(s, '&', k, |a|);
    NotInPrefix(s, '&', |a|, k);
  }

  /** Splitting a join of `&`-free parts gives the parts back. */
  lemma {:induction false} SplitJoin(parts: seq<string>)
    requires |parts| >= 1
    requires forall i :: 0 <= i < |parts| ==> '&' !in parts[i]
    ensures SplitAmp(JoinAmp(parts)) == parts
  {
    if |parts| > 1 {
      var head := parts[0];
      var tail := parts[1..];
      var joined := JoinAmp(tail);
      var s := head + "&" + joined;
      assert JoinAmp(parts) == s;
      FirstSeparator(head, joined);
      assert SplitAmp(s) == [head] + SplitAmp(joined);
      SplitJoin(tail);
      assert parts == [head] + tail;
    }
  }

  /** `params.toString()`. */
  function QueryString(params: seq<Param>): (q: string)
    ensures q == "" <==> params == []
  {
    var parts := seq(|params|, i requires 0 <= i < |params| => EncodeParam(params[i]));
    assert forall i :: 0 <= i < |parts| ==> '=' in parts[i];
    JoinAmpNonEmpty(parts);
    JoinAmp(parts)
  }

  lemma {:induction false} JoinAmpNonEmpty(parts: seq<string>)
    requires forall i :: 0 <= i < |parts| ==> parts[i] != ""
    ensures JoinAmp(parts) == "" <==> parts == []
  {
    if |parts| > 1 {
      JoinAmpNonEmpty(parts[1..]);
    }
  }

  /** The serialised query splits back into one `key=value` piece per
      parameter, in order. */
  lemma QueryRoundTrip(params: seq<Param>)
    requires params != []
    ensures var pieces := SplitAmp(QueryString(params));
      |pieces| == |params| && forall i :: 0 <= i < |params| ==> pieces[i] == EncodeParam(params[i])
  {
    var parts := seq(|params|, i requires 0 <= i < |params| => EncodeParam(params[i]));
    SplitJoin(parts);
  }

  /** The endpoint with its query: no `?` at all without parameters. */
  function WithQuery(path: string, params: seq<Param>): (endpoint: string)
    ensures params == [] ==> endpoint == path
    ensures params != [] ==> endpoint == path + "?" + QueryString(params)
  {
    var query := QueryString(params);
    path + (if query != "" then "?" + query else "")
  }

  /** The job list's endpoint: `/jobs`, and after a `?` one encoded pair
      per truthy filter, in the fixed key order. */
  function JobsEndpoint(filters: Option<SearchFilters>): (e: string)
    ensures StartsWith(e, "/jobs")
    ensures e == "/jobs" <==> JobParams(filters) == []
    ensures JobParams(filters) != [] ==> e[5] == '?' && QueryFor(e[6..], JobParams(filters))
  {
    var params := JobParams(filters);
    if params == [] then WithQuery("/jobs", params)
    else QueryRoundTrip(params); WithQuery("/jobs", params)
  }

  /** The customer list's endpoint: `/customers`, and after a `?` one
      encoded pair per truthy search or date filter. */
  function CustomersEndpoint(filters: Option<SearchFilters>): (e: string)
    ensures StartsWith(e, "/customers")
    ensures e == "/customers" <==> CustomerParams(filters) == []
    ensures CustomerParams(filters) != [] ==> e[10] == '?' && QueryFor(e[11..], CustomerParams(filters))
  {
    var params := CustomerParams(filters);
    if params == [] then WithQuery("/customers", params)
    else QueryRoundTrip(params); WithQuery("/customers", params)
  }

  /** `query` splits on `&` into exactly the encoded pairs of `params`. */
  predicate QueryFor(query: string, params: seq<Param>) {
    var pieces := SplitAmp(query);
    |pieces| == |params| && forall i :: 0 <= i < |params| ==> pieces[i] == EncodeParam(params[i])
  }

  /** With no filter set the job list asks for the bare path. */
  lemma NoFiltersNoQuery()
    ensures JobsEndpoint(None) == "/jobs"
    ensures JobsEndpoint(Some(SearchFilters(None, Some(""), None, None, None))) == "/jobs"
    ensures CustomersEndpoint(None) == "/customers"
  {
  }
}

=== FILE: common.dfy ===
/** Small building blocks shared by every module: optional values, the
    JavaScript truthiness tests the dashboard relies on (`a || b`), ASCII
    case mapping, and decimal rendering of naturals. */
module Common {

  /** An absent (`undefined`/`null`) or present value. */
  datatype Option<+T> = None | Some(value: T)

  /** JavaScript truthiness of an optional string: absent and `""` are falsy. */
  predicate Truthy(o: Option<string>) {
    o.Some? && o.value != ""
  }

  /** `o || fallback` for an optional string. */
  function OrElse(o: Option<string>, fallback: string): (r: string)
    ensures Truthy(o) ==> r == o.value
    ensures !Truthy(o) ==> r == fallback
  {
    if Truthy(o) then o.value else fallback
  }

  /** JavaScript truthiness of an optional number: absent and `0` are falsy
      (`NaN` is not modelled). */
  predicate TruthyNum(o: Option<real>) {
    o.Some? && o.value != 0.0
  }

  /** `o || fallback` for an optional number. */
  function OrElseNum(o: Option<real>, fallback: real): (r: real)
    ensures TruthyNum(o) ==> r == o.value
    ensures !TruthyNum(o) ==> r == fallback
  {
    if TruthyNum(o) then o.value else fallback
  }

  /** Lookup in a string-keyed store, `undefined`/`null` when missing. */
  function Get<V>(m: map<string, V>, key: string): (r: Option<V>)
    ensures r.Some? <==> key in m
    ensures r.Some? ==> r.value == m[key]
  {
    if key in m then Some(m[key]) else None
  }

  predicate IsUpper(c: char) { 'A' <= c <= 'Z' }
  predicate IsLower(c: char) { 'a' <= c <= 'z' }
  predicate IsDigit(c: char) { '0' <= c <= '9' }
  predicate IsLetter(c: char) { IsUpper(c) || IsLower(c) }

  /** ASCII `toLowerCase` of one character. */
  function LowerChar(c: char): (r: char)
    ensures !IsUpper(r)
    ensures !IsUpper(c) ==> r == c
    ensures IsUpper(c) ==> IsLower(r) && r as int == c as int + 32
  {
    if IsUpper(c) then (c as int + 32) as char else c
  }

  /** ASCII `toUpperCase` of one character. */
  function UpperChar(c: char): (r: char)
    ensures !IsLower(r)
    ensures !IsLower(c) ==> r == c
    ensures IsLower(c) ==> IsUpper(r) && r as int == c as int - 32
  {
    if IsLower(c) then (c as int - 32) as char else c
  }

  /** ASCII `String.prototype.toLowerCase`. */
  function ToLower(s: string): (r: string)
    ensures |r| == |s|
    ensures forall i :: 0 <= i < |s| ==> r[i] == LowerChar(s[i])
  {
    seq(|s|, i requires 0 <= i < |s| => LowerChar(s[i]))
  }

  /** Lower-casing twice is lower-casing once. */
  lemma ToLowerIdempotent(s: string)
    ensures ToLower(ToLower(s)) == ToLower(s)
  {
  }

  /** Lower-casing works character by character, so it distributes over
      concatenation. */
  lemma ToLowerConcat(a: string, b: string)
    ensures ToLower(a + b) == ToLower(a) + ToLower(b)
  {
    var l := ToLower(a + b);
    var r := ToLower(a) + ToLower(b);
    assert |l| == |r|;
    forall i | 0 <= i < |l| ensures l[i] == r[i] {
      if i < |a| {
        assert (a + b)[i] == a[i];
      } else {
        assert (a + b)[i] == b[i - |a|];
      }
    }
  }

  function DigitChar(d: nat): (c: char)
    requires d < 10
    ensures IsDigit(c) && c as int - '0' as int == d
  {
    ('0' as int + d) as char
  }

  /** Decimal rendering of a natural, as `${n}` prints it. */
  function NatToString(n: nat): (r: string)
    ensures |r| >= 1
    ensures forall i :: 0 <= i < |r| ==> IsDigit(r[i])
    ensures n >= 10 ==> r[0] != '0'
  {
    if n < 10 then [DigitChar(n)] else NatToString(n / 10) + [DigitChar(n % 10)]
  }

  function DigitValue(c: char): (d: nat)
    requires IsDigit(c)
    ensures d < 10 && DigitChar(d) == c
  {
    c as int - '0' as int
  }

  /** Reads a string of decimal digits back as a natural. */
  function ParseDecimal(s: string): (n: nat)
    requires forall i :: 0 <= i < |s| ==> IsDigit(s[i])
  {
    if |s| == 0 then 0
    else 10 * ParseDecimal(s[..|s| - 1]) + DigitValue(s[|s| - 1])
  }

  /** Rendering a natural in decimal loses nothing: it reads back as itself. */
  lemma {:induction false} NatToStringRoundTrip(n: nat)
    ensures ParseDecimal(NatToString(n)) == n
  {
    if n >= 10 {
      var s := NatToString(n);
      assert s[..|s| - 1] == NatToString(n / 10);
      NatToStringRoundTrip(n / 10);
    }
  }

  /** Distinct naturals have distinct decimal renderings. */
  lemma NatToStringInjective(m: nat, n: nat)
    requires NatToString(m) == NatToString(n)
    ensures m == n
  {
    NatToStringRoundTrip(m);
    NatToStringRoundTrip(n);
  }

  /** A character outside the Basic Multilingual Plane, which UTF-16
      stores as a surrogate pair. */
  predicate IsAstral(c: char) {
    c as int >= 0x1_0000
  }

  /** JavaScript's `length`: the number of UTF-16 code units, so a
      character outside the Basic Multilingual Plane counts twice. */
  function Utf16Length(s: string): (n: nat)
    ensures |s| <= n <= 2 * |s|
    ensures (forall i :: 0 <= i < |s| ==> !IsAstral(s[i])) ==> n == |s|
    ensures (forall i :: 0 <= i < |s| ==> IsAstral(s[i])) ==> n == 2 * |s|
  {
    if |s| == 0 then 0
    else Utf16Length(s[..|s| - 1]) + (if IsAstral(s[|s| - 1]) then 2 else 1)
  }

  /** Code units add up over concatenation. */
  lemma {:induction false} Utf16LengthConcat(a: string, b: string)
    ensures Utf16Length(a + b) == Utf16Length(a) + Utf16Length(b)
    decreases |b|
  {
    if |b| > 0 {
      var b' := b[..|b| - 1];
      assert (a + b)[..|a + b| - 1] == a + b';
      Utf16LengthConcat(a, b');
    } else {
      assert a + b == a;
    }
  }

  /** `s` begins with `p`. */
  predicate StartsWith(s: string, p: string) {
    |p| <= |s| && s[..|p|] == p
  }

  /** `needle` occurs in `s` starting at index `i`. */
  predicate OccursAt(s: string, needle: string, i: int) {
    0 <= i <= |s| - |needle| && s[i..i + |needle|] == needle
  }

  /** `needle` occurs somewhere in `s` (`String.prototype.includes`). */
  predicate Contains(s: string, needle: string) {
    exists i :: 0 <= i <= |s| && OccursAt(s, needle, i)
  }

  /** Keeps the elements of `s` different from `x`, in order
      (`s.filter(v => v !== x)`). */
  function RemoveAll<T(==)>(s: seq<T>, x: T): (r: seq<T>)
    ensures x !in r
    ensures |r| <= |s|
    ensures forall i :: 0 <= i < |r| ==> r[i] in s
    ensures forall i :: 0 <= i < |s| && s[i] != x ==> s[i] in r
    ensures x !in s ==> r == s
  {
    if |s| == 0 then []
    else (if s[0] == x then [] else [s[0]]) + RemoveAll(s[1..], x)
  }

  /** Index of the first `c` in `s` (`s.indexOf(c)`, absent for -1). */
  function IndexOf(s: string, c: char): (r: Option<nat>)
    ensures r.None? <==> c !in s
    ensures r.Some? ==> r.value < |s| && s[r.value] == c && c !in s[..r.value]
  {
    if |s| == 0 then None
    else if s[0] == c then Some(0)
    else match IndexOf(s[1..], c)
      case None => None
      case Some(k) =>
        assert s[..k + 1] == [s[0]] + s[1..][..k];
        Some(k + 1)
  }

  /** Index of the last `c` in `s` (`s.lastIndexOf(c)`, absent for -1). */
  function LastIndexOf(s: string, c: char): (r: Option<nat>)
    ensures r.None? <==> c !in s
    ensures r.Some? ==> r.value < |s| && s[r.value] == c && c !in s[r.value + 1..]
  {
    if |s| == 0 then None
    else if s[|s| - 1] == c then Some(|s| - 1)
    else
      var init := s[..|s| - 1];
      assert forall x :: x in s ==> x in init || x == s[|s| - 1];
      match LastIndexOf(init, c)
      case None => None
      case Some(k) =>
        assert s[k + 1..] == init[k + 1..] + [s[|s| - 1]];
        Some(k)
  }

  /** `s.split(c)[0]`: everything before the first `c`, or all of `s`. */
  function BeforeFirst(s: string, c: char): (r: string)
    ensures c !in r
    ensures |r| <= |s| && s[..|r|] == r
    ensures c in s ==> |r| < |s| && s[|r|] == c
    ensures c !in s ==> r == s
  {
    match IndexOf(s, c)
    case None => s
    case Some(k) => s[..k]
  }

  /** `s.split(c)[1]`: the segment between the first and the second `c`,
      absent when `s` holds no `c`. */
  function SecondSegment(s: string, c: char): (r: Option<string>)
    ensures r.None? <==> c !in s
    ensures r.Some? ==>
      var start := |BeforeFirst(s, c)| + 1;
      && c !in r.value
      && start + |r.value| <= |s|
      && s[start..start + |r.value|] == r.value
      && (start + |r.value| == |s| || s[start + |r.value|] == c)
  {
    match IndexOf(s, c)
    case None => None
    case Some(k) =>
      var rest := s[k + 1..];
      var r := BeforeFirst(rest, c);
      assert |BeforeFirst(s, c)| == k;
      assert s[k + 1..k + 1 + |r|] == rest[..|r|];
      assert k + 1 + |r| < |s| ==> s[k + 1 + |r|] == rest[|r|];
      Some(r)
  }

  /** An occurrence of `c` lies at or after a prefix that lacks `c`. */
  lemma NotInPrefix(s: string, c: char, i: nat, j: nat)
    requires i <= |s| && c !in s[..i]
    requires j < |s| && s[j] == c
    ensures i <= j
  {
  }

  /** An occurrence of `c` lies at or before a suffix that lacks `c`. */
  lemma NotInSuffix(s: string, c: char, i: nat, j: nat)
    requires i < |s| && c !in s[i + 1..]
    requires j < |s| && s[j] == c
    ensures j <= i
  {
  }
}

=== FILE: customer_form.dfy ===
/** The customer form: reset values from a customer, the name and e-mail
    rules, the submit lifecycle and what each mode shows. */
module CustomerForm {
  import opened Common
  import opened Types
  import opened Forms

  datatype CustomerFormData = CustomerFormData(
    name: string,
    email: string,
    phone: string,
    address: string,
    businessName: string,
    notes: string)

  const Blank := CustomerFormData("", "", "", "", "", "")

  /** The reset effect when the modal opens: each field from the customer
      or empty; the business name falls back to `business_name`. */
  function ResetFrom(customer: Option<Customer>): (d: CustomerFormData)
    ensures customer.None? ==> d == Blank
    ensures customer.Some? ==> d.name == customer.value.name
    ensures customer.Some? ==>
      && d.email == OrElse(customer.value.email, "")
      && d.phone == OrElse(customer.value.phone, "")
      && d.address == OrElse(customer.value.address, "")
      && d.notes == OrElse(customer.value.notes, "")
    ensures customer.Some? ==>
      d.businessName == (if Truthy(customer.value.businessName) then customer.value.businessName.value
                         else OrElse(customer.value.wireBusinessName, ""))
  {
    match customer
    case None => Blank
    case Some(c) =>
      CustomerFormData(
        c.name,
        OrElse(c.email, ""),
        OrElse(c.phone, ""),
        OrElse(c.address, ""),
        OrElse(c.businessName, OrElse(c.wireBusinessName, "")),
        OrElse(c.notes, ""))
  }

  /** Resetting from a customer and reading the optional fields back as
      "empty means absent" recovers the customer's own values. */
  lemma ResetRoundTrip(c: Customer)
    ensures var d := ResetFrom(Some(c));
      && (d.email != "" <==> Truthy(c.email))
      && (Truthy(c.email) ==> d.email == c.email.value)
      && (d.phone != "" <==> Truthy(c.phone))
      && (Truthy(c.phone) ==> d.phone == c.phone.value)
      && (d.address != "" <==> Truthy(c.address))
      && (Truthy(c.address) ==> d.address == c.address.value)
      && (d.notes != "" <==> Truthy(c.notes))
      && (Truthy(c.notes) ==> d.notes == c.notes.value)
      && (d.businessName != "" <==> Truthy(c.businessName) || Truthy(c.wireBusinessName))
      && (Truthy(c.businessName) ==> d.businessName == c.businessName.value)
      && (!Truthy(c.businessName) && Truthy(c.wireBusinessName) ==> d.businessName == c.wireBusinessName.value)
  {
  }

  /** `[A-Z0-9._%+-]`, case-insensitively. */
  predicate LocalChar(c: char) {
    IsLetter(c) || IsDigit(c) || c == '.' || c == '_' || c == '%' || c == '+' || c == '-'
  }

  /** `[A-Z0-9.-]`, case-insensitively. */
  predicate DomainChar(c: char) {
    IsLetter(c) || IsDigit(c) || c == '.' || c == '-'
  }

  /** `s` matches `^[A-Z0-9._%+-]+@[A-Z0-9.-]+\.[A-Z]{2,}$` (flag `i`) with
      the `@` at `at` and the final dot at `dot`. */
  predicate EmailSplit(s: string, at: int, dot: int) {
    && 0 < at && at + 1 < dot && dot + 3 <= |s|
    && s[at] == '@' && s[dot] == '.'
    && (forall k :: 0 <= k < at ==> LocalChar(s[k]))
    && (forall k :: at < k < dot ==> DomainChar(s[k]))
    && (forall k :: dot < k < |s| ==> IsLetter(s[k]))
  }

  /** The pattern as the regular expression states it: some choice of the
      `@` and of the dot before the top-level domain. */
  ghost predicate MatchesEmailPattern(s: string)
    ensures MatchesEmailPattern(s) ==> 6 <= |s| && '@' in s && ' ' !in s
  {
    exists at, dot :: EmailSplit(s, at, dot)
  }

  /** The same test without a search: the `@` must be the first one and
      the dot the last one. */
  function EmailOk(s: string): bool {
    match IndexOf(s, '@')
    case None => false
    case Some(at) =>
      match LastIndexOf(s, '.')
      case None => false
      case Some(dot) => EmailSplit(s, at, dot)
  }

  /** The direct test accepts exactly the strings the pattern matches. */
  lemma EmailOkIff(s: string)
    ensures EmailOk(s) <==> MatchesEmailPattern(s)
  {
    if MatchesEmailPattern(s) {
      var at, dot :| EmailSplit(s, at, dot);
      assert '@' in s;
      var first := IndexOf(s, '@').value;
      assert forall k :: 0 <= k < at ==> s[k] != '@';
      NotInPrefix(s, '@', first, at);
      assert '.' in s;
      var last := LastIndexOf(s, '.').value;
      assert forall k :: dot < k < |s| ==> s[k] != '.';
      NotInSuffix(s, '.', last, dot);
    }
  }

  datatype CustomerErrors = CustomerErrors(name: Option<string>, email: Option<string>)

  predicate NoErrors(e: CustomerErrors) {
    e.name.None? && e.email.None?
  }

  /** The declared rules; phone, address, business name and notes carry
      none. The pattern is not checked on an empty e-mail. */
  function Validate(d: CustomerFormData): (e: CustomerErrors)
    ensures d.name == "" ==> e.name == Some("Name is required")
    ensures d.name != "" && Utf16Length(d.name) < 2 ==> e.name == Some("Name must be at least 2 characters")
    ensures e.email.Some? ==> e.email.value == "Invalid email address"
  {
    CustomerErrors(
      RequiredMinLengthError(d.name, 2, "Name is required", "Name must be at least 2 characters"),
      if d.email != "" && !EmailOk(d.email) then Some("Invalid email address") else None)
  }

  /** The rules in one sentence: a name of at least two characters, and an
      e-mail that is empty or matches the pattern. */
  lemma ValidIff(d: CustomerFormData)
    ensures NoErrors(Validate(d)) <==> Utf16Length(d.name) >= 2 && (d.email == "" || MatchesEmailPattern(d.email))
  {
    EmailOkIff(d.email);
  }

  /** The free-text fields never affect validity. */
  lemma FreeFieldsUnchecked(d: CustomerFormData, phone: string, address: string, businessName: string, notes: string)
    ensures Validate(d.(phone := phone, address := address, businessName := businessName, notes := notes)) == Validate(d)
  {
  }

  /** A typical address passes, one without a top-level domain does not. */
  lemma EmailExamples()
    ensures MatchesEmailPattern("ab@cd.ef")
    ensures !MatchesEmailPattern("ab@cd")
  {
    assert EmailSplit("ab@cd.ef", 2, 5);
    EmailOkIff("ab@cd");
    assert '.' !in "ab@cd";
  }

  /** A character the HTML standard allows in the local part of a valid
      e-mail address. */
  predicate HtmlLocalChar(c: char) {
    IsLetter(c) || IsDigit(c) || c in ".!#$%&'*+/=?^_`{|}~-"
  }

  predicate IsAlnum(c: char) {
    IsLetter(c) || IsDigit(c)
  }

  /** One domain label: 1 to 63 letters, digits or hyphens, starting and
      ending with a letter or digit. */
  predicate HtmlLabel(l: string) {
    && 1 <= |l| <= 63
    && IsAlnum(l[0]) && IsAlnum(l[|l| - 1])
    && forall k :: 0 <= k < |l| ==> IsAlnum(l[k]) || l[k] == '-'
  }

  /** Labels separated by single dots. */
  predicate HtmlDomain(s: string)
    decreases |s|
  {
    match IndexOf(s, '.')
    case None => HtmlLabel(s)
    case Some(i) => HtmlLabel(s[..i]) && HtmlDomain(s[i + 1..])
  }

  /** A "valid e-mail address" in the sense of section 4.10.5.1.5 of the
      HTML Living Standard, which `<input type="email">` enforces: a
      non-empty local part, one `@`, and a domain of labels. Neither part
      may contain `@`, so the split is at the first one. */
  predicate HtmlEmail(s: string) {
    match IndexOf(s, '@')
    case None => false
    case Some(at) =>
      && at > 0
      && (forall k :: 0 <= k < at ==> HtmlLocalChar(s[k]))
      && HtmlDomain(s[at + 1..])
  }

  /** A domain the standard accepts neither starts nor ends with a dot and
      never has two dots in a row. */
  lemma {:induction false} HtmlDomainDots(s: string)
    requires HtmlDomain(s)
    ensures s != "" && s[0] != '.' && s[|s| - 1] != '.'
    ensures forall k :: 0 <= k < |s| - 1 ==> !(s[k] == '.' && s[k + 1] == '.')
    decreases |s|
  {
    match IndexOf(s, '.')
    case None =>
      assert '.' !in s;
    case Some(i) =>
      var head, tail := s[..i], s[i + 1..];
      HtmlDomainDots(tail);
      assert s[0] == head[0] && s[|s| - 1] == tail[|tail| - 1];
      forall k | 0 <= k < |s| - 1
        ensures !(s[k] == '.' && s[k + 1] == '.')
      {
        if k < i {
          assert s[k] == head[k];
        } else if k == i {
          assert s[k + 1] == tail[0];
        } else {
          assert s[k] == tail[k - i - 1] && s[k + 1] == tail[k - i];
        }
      }
  }

  /** The browser's own check of the e-mail input: an empty input is not
      checked. */
  predicate NativeOk(d: CustomerFormData) {
    d.email == "" || HtmlEmail(d.email)
  }

  /** A domain with two dots in a row is not one the standard accepts. */
  lemma DoubleDotDomainRefused()
    ensures !HtmlDomain("cd..ef")
  {
    if HtmlDomain("cd..ef") {
      HtmlDomainDots("cd..ef");
    }
  }

  /** The address is split at its only `@`. */
  lemma DoubleDotAt()
    ensures IndexOf("ab@cd..ef", '@') == Some(2)
    ensures "ab@cd..ef"[3..] == "cd..ef"
  {
    var s := "ab@cd..ef";
    assert s[2] == '@' && s[0] != '@' && s[1] != '@';
  }

  /** Two dots in a row pass the declared pattern but not the browser. */
  lemma DoubleDotDiffers()
    ensures MatchesEmailPattern("ab@cd..ef") && !HtmlEmail("ab@cd..ef")
  {
    assert EmailSplit("ab@cd..ef", 2, 6);
    DoubleDotAt();
    DoubleDotDomainRefused();
  }

  /** A domain without a dot passes the browser but not the declared
      pattern. */
  lemma DotlessDomainDiffers()
    ensures HtmlEmail("a@b") && !MatchesEmailPattern("a@b")
  {
    var t := "a@b";
    assert t[1] == '@' && '@' !in t[..1];
    assert t[2..] == "b";
    assert '.' !in "b";
    assert HtmlLabel("b");
    EmailOkIff(t);
    assert '.' !in t;
  }

  /** Submitting: the browser first refuses an e-mail that is not a valid
      address; then the library blocks a form that breaks its rules; a
      passing form is handed over unchanged. */
  datatype SubmitResult =
    | BrowserBlocked
    | Blocked(errors: CustomerErrors)
    | Sent(data: CustomerFormData, trace: seq<SubmitStep>)

  function Submit(d: CustomerFormData, settlement: Settlement): (r: SubmitResult)
    ensures r.Sent? ==> r.data == d && r.trace == SubmitTrace(settlement)
    ensures r.Blocked? ==> r.errors == Validate(d)
    ensures r.BrowserBlocked? <==> d.email != "" && !HtmlEmail(d.email)
    ensures r.Sent? <==> NativeOk(d) && NoErrors(Validate(d))
  {
    if !NativeOk(d) then BrowserBlocked
    else
      var e := Validate(d);
      if NoErrors(e) then Sent(d, SubmitTrace(settlement)) else Blocked(e)
  }

  /** A form that is sent has an e-mail that is empty or passes both the
      browser's check and the declared pattern. */
  lemma SentEmailPassesBoth(d: CustomerFormData, settlement: Settlement)
    requires Submit(d, settlement).Sent?
    ensures d.email == "" || (HtmlEmail(d.email) && MatchesEmailPattern(d.email))
  {
    ValidIff(d);
  }

  /** A name of two characters and the address `ab@cd..ef` pass the
      declared rules, but the form is never sent. */
  lemma DoubleDotNeverSent(d: CustomerFormData, settlement: Settlement)
    requires Utf16Length(d.name) >= 2 && d.email == "ab@cd..ef"
    ensures NoErrors(Validate(d))
    ensures Submit(d, settlement) == BrowserBlocked
  {
    DoubleDotDiffers();
    ValidIff(d);
  }

  function Title(mode: Mode): (t: string)
    ensures t in {"Add New Customer", "Edit Customer", "Customer Details"}
  {
    match mode
    case Create => "Add New Customer"
    case Edit => "Edit Customer"
    case View => "Customer Details"
  }

  /** Each mode has its own title. */
  lemma TitleInjective(a: Mode, b: Mode)
    requires Title(a) == Title(b)
    ensures a == b
  {
  }

  function CustomerFooter(mode: Mode, isSubmitting: bool, isDirty: bool): (f: Footer)
    ensures mode == View ==> f == Footer("Close", isSubmitting, None)
    ensures mode == Create ==> f == Footer("Cancel", isSubmitting, Some(SubmitButton("Create Customer", isSubmitting, false)))
    ensures mode == Edit ==> f == Footer("Cancel", isSubmitting, Some(SubmitButton("Save Changes", isSubmitting, !isDirty)))
  {
    FooterOf(mode, isSubmitting, isDirty, "Create Customer")
  }
}

=== FILE: data_table.dfy ===
/** The generic data table: which view it renders, the page-number window
    with its ellipses, and the "Showing X to Y of Z" range. Sorting,
    filtering and the page count come from the table library and are
    parameters here. */
module DataTable {
  import opened Common

  /** Page size when the caller gives none. */
  const DefaultPageSize: nat := 10

  function PageSize(given: Option<nat>): (n: nat)
    ensures given.None? ==> n == DefaultPageSize
    ensures given.Some? ==> n == given.value
  {
    if given.Some? then given.value else DefaultPageSize
  }

  datatype View = Skeleton | EmptyState | Rows

  /** The loading guard wins over everything; an empty data set that is
      not loading shows the empty state; otherwise the table is drawn. */
  function Render(loading: bool, dataCount: nat): (v: View)
    ensures v == Skeleton <==> loading
    ensures v == EmptyState <==> !loading && dataCount == 0
    ensures v == Rows <==> !loading && dataCount > 0
  {
    if loading then Skeleton
    else if dataCount == 0 then EmptyState
    else Rows
  }

  /** The filter of the page list: first page, last page, or a neighbour
      of the current page (one-based). */
  predicate Shown(page: int, pageCount: nat, current: int) {
    page == 1 || page == pageCount || (-1 <= page - current <= 1)
  }

  predicate StrictlyIncreasing(s: seq<int>) {
    forall i, j :: 0 <= i < j < |s| ==> s[i] < s[j]
  }

  /** The shown pages among `1..n`, in increasing order. */
  function Window(n: nat, pageCount: nat, current: int): (r: seq<int>)
    ensures forall i :: 0 <= i < |r| ==> 1 <= r[i] <= n
    ensures StrictlyIncreasing(r)
    ensures forall p :: p in r <==> 1 <= p <= n && Shown(p, pageCount, current)
  {
    if n == 0 then []
    else Window(n - 1, pageCount, current) + (if Shown(n, pageCount, current) then [n] else [])
  }

  /** The page numbers drawn for a table of `pageCount` pages whose current
      zero-based page is `pageIndex`. */
  function PageWindow(pageCount: nat, pageIndex: nat): (r: seq<int>)
    ensures StrictlyIncreasing(r)
    ensures forall i :: 0 <= i < |r| ==> 1 <= r[i] <= pageCount
    ensures forall p :: p in r <==> 1 <= p <= pageCount && Shown(p, pageCount, pageIndex + 1)
  {
    Window(pageCount, pageCount, pageIndex + 1)
  }

  /** The first page, the last page and the current page's neighbours are
      always drawn. */
  lemma WindowIncludesAnchors(pageCount: nat, pageIndex: nat, p: int)
    requires 1 <= p <= pageCount
    requires p == 1 || p == pageCount || (-1 <= p - (pageIndex + 1) <= 1)
    ensures p in PageWindow(pageCount, pageIndex)
  {
  }

  /** An increasing sequence has as many distinct elements as entries. */
  lemma {:induction false} IncreasingCardinality(s: seq<int>)
    requires StrictlyIncreasing(s)
    ensures |set x | x in s| == |s|
  {
    if |s| > 0 {
      var init := s[..|s| - 1];
      IncreasingCardinality(init);
      assert (set x | x in s) == (set x | x in init) + {s[|s| - 1]};
      assert s[|s| - 1] !in init;
    }
  }

  /** At most five page numbers are ever drawn. */
  lemma AtMostFivePages(pageCount: nat, pageIndex: nat)
    ensures |PageWindow(pageCount, pageIndex)| <= 5
  {
    var w := PageWindow(pageCount, pageIndex);
    var c := pageIndex + 1;
    IncreasingCardinality(w);
    var anchors := {1, pageCount, c - 1, c, c + 1};
    var elems := set x | x in w;
    assert elems <= anchors;
    SubsetCardinality(elems, anchors);
    assert |anchors| <= 5;
  }

  lemma SubsetCardinality(a: set<int>, b: set<int>)
    requires a <= b
    ensures |a| <= |b|
  {
    assert b == a + (b - a);
  }

  /** One entry of the page list: the number, whether an ellipsis is drawn
      before it, and whether it is highlighted. */
  datatype PageCell = PageCell(page: int, ellipsisBefore: bool, active: bool)

  function Pagination(pageCount: nat, pageIndex: nat): (cells: seq<PageCell>)
    ensures |cells| == |PageWindow(pageCount, pageIndex)|
    ensures forall i :: 0 <= i < |cells| ==> cells[i].page == PageWindow(pageCount, pageIndex)[i]
  {
    var w := PageWindow(pageCount, pageIndex);
    seq(|w|, i requires 0 <= i < |w| =>
      PageCell(w[i], i > 0 && w[i - 1] != w[i] - 1, pageIndex + 1 == w[i]))
  }

  /** In an increasing sequence, two neighbours are consecutive numbers
      exactly when the number just below the later one occurs at all. */
  lemma IncreasingGap(w: seq<int>, i: nat)
    requires StrictlyIncreasing(w)
    requires 0 < i < |w|
    ensures w[i - 1] == w[i] - 1 <==> w[i] - 1 in w
  {
    assert forall j :: 0 <= j < i - 1 ==> w[j] < w[i - 1];
    assert forall j :: i <= j < |w| ==> w[i] <= w[j];
  }

  /** An increasing sequence of positives that holds 1 starts with 1. */
  lemma IncreasingStartsAtOne(w: seq<int>)
    requires StrictlyIncreasing(w)
    requires forall i :: 0 <= i < |w| ==> 1 <= w[i]
    requires 1 in w
    ensures w[0] == 1
  {
    var k :| 0 <= k < |w| && w[k] == 1;
    assert w[0] <= w[k];
  }

  /** An ellipsis stands before a number exactly when the page just below
      it exists and is hidden. */
  lemma EllipsisMarksHiddenPage(pageCount: nat, pageIndex: nat, i: nat)
    requires i < |Pagination(pageCount, pageIndex)|
    ensures var cell := Pagination(pageCount, pageIndex)[i];
      cell.ellipsisBefore <==> cell.page > 1 && cell.page - 1 !in PageWindow(pageCount, pageIndex)
  {
    var w := PageWindow(pageCount, pageIndex);
    if i == 0 {
      assert 1 in w;
      IncreasingStartsAtOne(w);
    } else {
      IncreasingGap(w, i);
    }
  }

  /** Exactly the current page is highlighted: a cell is active iff it is
      the current page, and the current page has a cell whenever it lies
      within the page count. */
  lemma OneActivePage(pageCount: nat, pageIndex: nat)
    ensures forall i :: 0 <= i < |Pagination(pageCount, pageIndex)| ==>
      (Pagination(pageCount, pageIndex)[i].active <==> Pagination(pageCount, pageIndex)[i].page == pageIndex + 1)
    ensures pageIndex < pageCount ==>
      exists i :: 0 <= i < |Pagination(pageCount, pageIndex)| && Pagination(pageCount, pageIndex)[i].active
    ensures forall i, j ::
      (0 <= i < |Pagination(pageCount, pageIndex)| && 0 <= j < |Pagination(pageCount, pageIndex)|
       && Pagination(pageCount, pageIndex)[i].active && Pagination(pageCount, pageIndex)[j].active) ==> i == j
  {
    var w := PageWindow(pageCount, pageIndex);
    var cells := Pagination(pageCount, pageIndex);
    if pageIndex < pageCount {
      assert pageIndex + 1 in w;
      var k :| 0 <= k < |w| && w[k] == pageIndex + 1;
      assert cells[k].active;
    }
  }

  /** The "Showing first to last of count" numbers. */
  datatype Range = Range(first: int, last: int)

  function ShownRange(pageIndex: nat, pageSize: nat, filteredCount: nat): (r: Range)
    ensures r.first == pageIndex * pageSize + 1
    ensures r.last <= filteredCount
    ensures r.last - r.first + 1 <= pageSize
    ensures r.last == filteredCount || r.last == (pageIndex + 1) * pageSize
  {
    var last := (pageIndex + 1) * pageSize;
    Range(pageIndex * pageSize + 1, if last < filteredCount then last else filteredCount)
  }

  /** The rows the table library draws on a page. */
  function PageRows<T>(rows: seq<T>, pageIndex: nat, pageSize: nat): (r: seq<T>)
    ensures |r| <= pageSize
  {
    var lo := pageIndex * pageSize;
    var hi := (pageIndex + 1) * pageSize;
    if lo >= |rows| then [] else rows[lo..if hi < |rows| then hi else |rows|]
  }

  /** On a page that holds rows, the caption names exactly those rows:
      entries `first` to `last`, one-based, of the filtered list. */
  lemma RangeDescribesPage<T>(rows: seq<T>, pageIndex: nat, pageSize: nat)
    requires pageSize >= 1
    requires pageIndex * pageSize < |rows|
    ensures var r := ShownRange(pageIndex, pageSize, |rows|);
      && 1 <= r.first <= r.last
      && PageRows(rows, pageIndex, pageSize) == rows[r.first - 1..r.last]
  {
    assert pageIndex * pageSize + pageSize == (pageIndex + 1) * pageSize;
  }

  /** With rows but none left after filtering, the caption reads
      "Showing 1 to 0 of 0". */
  lemma EmptyFilterCaption(pageSize: nat)
    ensures ShownRange(0, pageSize, 0) == Range(1, 0)
    ensures PageWindow(0, 0) == []
  {
  }
}

=== FILE: forms.dfy ===
/** What the job and customer forms share: the three modal modes, the
    footer buttons each mode shows, the declared field rules as the form
    library applies them, and the submit lifecycle. */
module Forms {
  import opened Common

  datatype Mode = View | Create | Edit

  /** Every field is disabled in view mode. */
  predicate ReadOnly(mode: Mode) {
    mode == View
  }

  /** The props the footer passes to its submit button. */
  datatype SubmitButton = SubmitButton(caption: string, loading: bool, disabled: bool)

  /** The shared button disables the native element while it shows its
      spinner as well as when asked to. */
  predicate EffectivelyDisabled(b: SubmitButton) {
    b.disabled || b.loading
  }

  /** The modal footer: a cancel (or close) button, disabled while a
      submission runs, and a submit button outside view mode. */
  datatype Footer = Footer(cancelLabel: string, cancelDisabled: bool, submit: Option<SubmitButton>)

  function FooterOf(mode: Mode, isSubmitting: bool, isDirty: bool, createLabel: string): (f: Footer)
    ensures f.submit.None? <==> ReadOnly(mode)
    ensures f.submit.Some? ==> (f.submit.value.disabled <==> mode == Edit && !isDirty)
    ensures f.submit.Some? ==> f.submit.value.loading == isSubmitting
    ensures mode == Create ==> f.submit.Some? && f.submit.value.caption == createLabel
    ensures mode == Edit ==> f.submit.Some? && f.submit.value.caption == "Save Changes"
    ensures f.cancelDisabled == isSubmitting
    ensures f.cancelLabel == (if mode == View then "Close" else "Cancel")
  {
    Footer(
      if mode == View then "Close" else "Cancel",
      isSubmitting,
      if mode == View then None
      else Some(SubmitButton(if mode == Create then createLabel else "Save Changes", isSubmitting, !isDirty && mode == Edit)))
  }

  /** A form can be submitted from its footer only when the submit button
      exists and is enabled: never in view mode, never while a submission
      runs, in edit mode only after a change, otherwise always in create
      mode. */
  lemma CanSubmit(mode: Mode, isSubmitting: bool, isDirty: bool, createLabel: string)
    ensures var f := FooterOf(mode, isSubmitting, isDirty, createLabel);
      (f.submit.Some? && !EffectivelyDisabled(f.submit.value))
        <==> !isSubmitting && (mode == Create || (mode == Edit && isDirty))
  {
  }

  /** `required`: an empty value fails with the rule's message. */
  function RequiredError(value: string, message: string): (e: Option<string>)
    ensures e.Some? <==> value == ""
    ensures e.Some? ==> e.value == message
  {
    if value == "" then Some(message) else None
  }

  /** `minLength`, checked only on a non-empty value against its
      JavaScript `length`, which counts UTF-16 code units. */
  function MinLengthError(value: string, n: nat, message: string): (e: Option<string>)
    ensures e.Some? ==> e.value == message
    ensures e.Some? <==> value != "" && Utf16Length(value) < n
    ensures |value| >= n ==> e.None?
  {
    if value != "" && Utf16Length(value) < n then Some(message) else None
  }

  /** The first failing of `required` and `minLength`, in that order. */
  function RequiredMinLengthError(value: string, n: nat, requiredMessage: string, minMessage: string): (e: Option<string>)
    ensures e.None? <==> Utf16Length(value) >= n && value != ""
    ensures value == "" ==> e == Some(requiredMessage)
    ensures value != "" && Utf16Length(value) < n ==> e == Some(minMessage)
  {
    match RequiredError(value, requiredMessage)
    case Some(m) => Some(m)
    case None => MinLengthError(value, n, minMessage)
  }

  /** Lengths count UTF-16 code units: one emoji or one CJK character
      from outside the Basic Multilingual Plane is already two, while an
      accented Latin letter is one. */
  lemma CodeUnitLengths(requiredMessage: string, minMessage: string)
    ensures RequiredMinLengthError("\U{1F600}", 2, requiredMessage, minMessage) == None
    ensures RequiredMinLengthError("\U{20BB7}", 2, requiredMessage, minMessage) == None
    ensures RequiredMinLengthError("a\U{1F600}", 3, requiredMessage, minMessage) == None
    ensures RequiredMinLengthError("\U{E9}", 2, requiredMessage, minMessage) == Some(minMessage)
  {
    assert IsAstral('\U{1F600}') && IsAstral('\U{20BB7}') && !IsAstral('a') && !IsAstral('\U{E9}');
  }

  /** `min: 0` on a numeric input; an empty input (absent here) is not
      checked. */
  function NonNegativeError(value: Option<real>, message: string): (e: Option<string>)
    ensures e.Some? <==> value.Some? && value.value < 0.0
    ensures e.Some? ==> e.value == message
  {
    if value.Some? && value.value < 0.0 then Some(message) else None
  }

  /** The browser's step rule for `<input type="number" min="0" step=…>`:
      the step base is the minimum, so a value must be a whole number of
      steps above zero. */
  predicate OnStep(v: real, step: real)
    requires step > 0.0
  {
    (v / step).Floor as real == v / step
  }

  /** A number is on the grid exactly when it is some whole multiple of the
      step. */
  lemma OnStepIff(v: real, step: real)
    requires step > 0.0
    ensures OnStep(v, step) <==> v == (v / step).Floor as real * step
  {
  }

  /** The browser's constraint validation of such an input: an empty input
      is not checked; otherwise the value must not underflow the minimum and
      must not mismatch the step. */
  predicate NumberInputOk(v: Option<real>, step: real)
    requires step > 0.0
  {
    v.None? || (v.value >= 0.0 && OnStep(v.value, step))
  }

  /** What the browser lets through never fails the library's `min: 0`
      rule, so that rule's message cannot appear. */
  lemma BrowserPreemptsMinRule(v: Option<real>, step: real, message: string)
    requires step > 0.0 && NumberInputOk(v, step)
    ensures NonNegativeError(v, message).None?
  {
  }

  /** How the submit callback settles. */
  datatype Settlement = Resolved | Rejected

  /** The observable steps of a submission. */
  datatype SubmitStep =
    | SetSubmitting(on: bool)
    | CallSubmit
    | CallClose
    | LogError

  /** The submit handler: mark submitting, await the callback, close the
      modal only if it resolved (log otherwise), and always clear the flag
      at the end. */
  function SubmitTrace(settlement: Settlement): (t: seq<SubmitStep>)
    ensures |t| == 4 && t[0] == SetSubmitting(true) && t[|t| - 1] == SetSubmitting(false)
    ensures CallClose in t <==> settlement == Resolved
    ensures LogError in t <==> settlement == Rejected
    ensures forall i :: 0 <= i < |t| && t[i] == CallClose ==> exists j :: 0 <= j < i && t[j] == CallSubmit
  {
    var t := [SetSubmitting(true), CallSubmit, if settlement == Resolved then CallClose else LogError, SetSubmitting(false)];
    assert t[1] == CallSubmit;
    t
  }

  /** The submitting flag after the last step of a trace. */
  function FinalSubmitting(t: seq<SubmitStep>, initial: bool): bool {
    if |t| == 0 then initial
    else match t[|t| - 1]
      case SetSubmitting(on) => on
      case _ => FinalSubmitting(t[..|t| - 1], initial)
  }

  /** Whichever way the callback settles, the form ends not submitting, and
      it stays open exactly when the callback failed. */
  lemma SubmitSettles(settlement: Settlement, initial: bool)
    ensures !FinalSubmitting(SubmitTrace(settlement), initial)
    ensures (CallClose !in SubmitTrace(settlement)) <==> settlement == Rejected
  {
  }
}

=== FILE: job_form.dfy ===
/** The job form: the values it is reset to from a job, its declared
    validation rules, the derived total, the payload it submits, and what
    each mode shows. */
module JobForm {
  import opened Common
  import opened Types
  import opened Forms

  /** The form's fields. Numeric inputs are absent when left empty. */
  datatype JobFormData = JobFormData(
    customerId: string,
    title: string,
    description: string,
    status: string,
    priority: string,
    scheduledDate: string,
    estimatedHours: Option<real>,
    hourlyRate: Option<real>,
    location: string,
    notes: string,
    paymentStatus: string)

  const Defaults := JobFormData("", "", "", "scheduled", "medium", "", Some(0.0), Some(0.0), "", "", "unpaid")

  /** The values offered by the three selects. */
  const StatusOptions: seq<string> := ["scheduled", "in-progress", "completed", "cancelled"]
  const PriorityOptions: seq<string> := ["low", "medium", "high", "urgent"]
  const PaymentOptions: seq<string> := ["unpaid", "partially-paid", "paid"]

  /** The scheduled date a job resets to: its `scheduledDate`, else the
      date part (before the first `T`) of its `due_date`, else empty. */
  function ResetDate(job: Job): (r: string)
    ensures Truthy(job.scheduledDate) ==> r == job.scheduledDate.value
    ensures !Truthy(job.scheduledDate) && job.dueDate.Some? ==>
      'T' !in r && StartsWith(job.dueDate.value, r)
      && (r == job.dueDate.value || job.dueDate.value[|r|] == 'T')
    ensures !Truthy(job.scheduledDate) && job.dueDate.None? ==> r == ""
  {
    if Truthy(job.scheduledDate) then job.scheduledDate.value
    else if job.dueDate.Some? then BeforeFirst(job.dueDate.value, 'T')
    else ""
  }

  /** The reset effect when the modal opens: the job's values, each falling
      back to the default. The customer and the hours are read from the
      server's snake-case fields. */
  function ResetFrom(job: Option<Job>): (d: JobFormData)
    ensures job.None? ==> d == Defaults
    ensures d.status in StatusOptions && d.priority in PriorityOptions && d.paymentStatus in PaymentOptions
    ensures d.estimatedHours.Some? && d.hourlyRate.Some?
    ensures job.Some? ==> d.scheduledDate == ResetDate(job.value)
    ensures job.Some? ==> d.customerId == OrElse(job.value.wireCustomerId, "")
    ensures job.Some? ==> d.estimatedHours == Some(OrElseNum(job.value.wireEstimatedHours, 0.0))
    ensures job.Some? ==> d.hourlyRate == Some(OrElseNum(job.value.hourlyRate, 0.0))
    ensures job.Some? ==>
      && d.description == OrElse(job.value.description, "")
      && d.location == OrElse(job.value.location, "")
      && d.notes == OrElse(job.value.notes, "")
  {
    match job
    case None => Defaults
    case Some(j) =>
      JobFormData(
        OrElse(j.wireCustomerId, ""),
        j.title,
        OrElse(j.description, ""),
        StatusName(j.status),
        PriorityName(j.priority),
        ResetDate(j),
        Some(OrElseNum(j.wireEstimatedHours, 0.0)),
        Some(OrElseNum(j.hourlyRate, 0.0)),
        OrElse(j.location, ""),
        OrElse(j.notes, ""),
        PaymentName(j.paymentStatus))
  }

  /** The form keeps a job's enumerations: the selects show the job's own
      status, priority and payment status. */
  lemma ResetKeepsEnumerations(j: Job)
    ensures ResetFrom(Some(j)).status == StatusName(j.status)
    ensures ResetFrom(Some(j)).priority == PriorityName(j.priority)
    ensures ResetFrom(Some(j)).paymentStatus == PaymentName(j.paymentStatus)
    ensures ResetFrom(Some(j)).title == j.title
  {
  }

  /** A job that carries its hours only under the camel-case name resets
      the hours field to zero. */
  lemma CamelCaseHoursIgnored(j: Job)
    requires j.estimatedHours.Some? && j.wireEstimatedHours.None?
    ensures ResetFrom(Some(j)).estimatedHours == Some(0.0)
  {
  }

  /** Per-field messages of the declared rules. */
  datatype JobErrors = JobErrors(
    customerId: Option<string>,
    title: Option<string>,
    estimatedHours: Option<string>,
    hourlyRate: Option<string>)

  predicate NoErrors(e: JobErrors) {
    e.customerId.None? && e.title.None? && e.estimatedHours.None? && e.hourlyRate.None?
  }

  function Validate(d: JobFormData): (e: JobErrors)
    ensures e.customerId == (if d.customerId == "" then Some("Customer is required") else None)
    ensures d.title == "" ==> e.title == Some("Job title is required")
    ensures d.title != "" && Utf16Length(d.title) < 3 ==> e.title == Some("Title must be at least 3 characters")
  {
    JobErrors(
      RequiredError(d.customerId, "Customer is required"),
      RequiredMinLengthError(d.title, 3, "Job title is required", "Title must be at least 3 characters"),
      NonNegativeError(d.estimatedHours, "Hours must be positive"),
      NonNegativeError(d.hourlyRate, "Rate must be positive"))
  }

  /** The rules in one sentence: a customer is chosen, the title has at
      least three characters, and neither number is negative. */
  lemma ValidIff(d: JobFormData)
    ensures NoErrors(Validate(d)) <==>
      && d.customerId != ""
      && Utf16Length(d.title) >= 3
      && (d.estimatedHours.None? || d.estimatedHours.value >= 0.0)
      && (d.hourlyRate.None? || d.hourlyRate.value >= 0.0)
  {
  }

  /** A fresh form fails exactly on the customer and the title. */
  lemma DefaultsNeedCustomerAndTitle()
    ensures Validate(Defaults) == JobErrors(Some("Customer is required"), Some("Job title is required"), None, None)
  {
  }

  /** `Number(value)` of a numeric input: an empty input reads as zero. */
  function NumberOf(v: Option<real>): (r: real)
    ensures v.Some? ==> r == v.value
    ensures v.None? ==> r == 0.0
  {
    if v.Some? then v.value else 0.0
  }

  /** The running total: `(estimatedHours || 0) * (hourlyRate || 0)`. It
      agrees with the product of the converted numbers, since a falsy
      number reads as zero either way. */
  function EstimatedTotal(d: JobFormData): (r: real)
    ensures r == NumberOf(d.estimatedHours) * NumberOf(d.hourlyRate)
    ensures d.estimatedHours.None? || d.hourlyRate.None? ==> r == 0.0
    ensures d.estimatedHours.Some? && d.hourlyRate.Some? ==> r == d.estimatedHours.value * d.hourlyRate.value
  {
    OrElseNum(d.estimatedHours, 0.0) * OrElseNum(d.hourlyRate, 0.0)
  }

  /** What is handed to the page: the form values with the total and the
      two numbers converted. */
  datatype JobPayload = JobPayload(form: JobFormData, totalAmount: real, estimatedHours: real, hourlyRate: real)

  function Payload(d: JobFormData): (p: JobPayload)
    ensures p.form == d
    ensures p.totalAmount == p.estimatedHours * p.hourlyRate
    ensures p.estimatedHours == NumberOf(d.estimatedHours) && p.hourlyRate == NumberOf(d.hourlyRate)
  {
    JobPayload(d, EstimatedTotal(d), NumberOf(d.estimatedHours), NumberOf(d.hourlyRate))
  }

  /** A valid form never submits a negative total. */
  lemma ValidTotalNonNegative(d: JobFormData)
    requires NoErrors(Validate(d))
    ensures Payload(d).totalAmount >= 0.0
  {
    ValidIff(d);
    var h := NumberOf(d.estimatedHours);
    var r := NumberOf(d.hourlyRate);
    assert h >= 0.0 && r >= 0.0;
  }

  /** The steps the two numeric inputs declare. */
  const HoursStep: real := 0.5
  const RateStep: real := 0.01

  /** The browser's own checks of the hours and rate inputs: each is empty,
      or a non-negative whole number of its steps. */
  predicate NativeOk(d: JobFormData) {
    NumberInputOk(d.estimatedHours, HoursStep) && NumberInputOk(d.hourlyRate, RateStep)
  }

  /** Submitting: the browser first refuses a form whose number inputs fail
      their own constraints, naming which ones; then the library blocks an
      invalid form with its messages; a valid one is handed over and runs
      the submit lifecycle. */
  datatype SubmitResult =
    | BrowserBlocked(hoursInvalid: bool, rateInvalid: bool)
    | Blocked(errors: JobErrors)
    | Sent(payload: JobPayload, trace: seq<SubmitStep>)

  function Submit(d: JobFormData, settlement: Settlement): (r: SubmitResult)
    ensures r.BrowserBlocked? <==> !NativeOk(d)
    ensures r.BrowserBlocked? ==>
      && (r.hoursInvalid <==> !NumberInputOk(d.estimatedHours, HoursStep))
      && (r.rateInvalid <==> !NumberInputOk(d.hourlyRate, RateStep))
    ensures r.Sent? <==> NativeOk(d) && NoErrors(Validate(d))
    ensures r.Blocked? ==> r.errors == Validate(d)
    ensures r.Blocked? ==> r.errors.estimatedHours.None? && r.errors.hourlyRate.None?
    ensures r.Sent? ==> r.payload == Payload(d) && r.trace == SubmitTrace(settlement)
    ensures r.Sent? ==>
      r.payload.estimatedHours >= 0.0 && OnStep(r.payload.estimatedHours, HoursStep)
      && r.payload.hourlyRate >= 0.0 && OnStep(r.payload.hourlyRate, RateStep)
  {
    if !NativeOk(d) then
      BrowserBlocked(!NumberInputOk(d.estimatedHours, HoursStep), !NumberInputOk(d.hourlyRate, RateStep))
    else
      BrowserPreemptsMinRule(d.estimatedHours, HoursStep, "Hours must be positive");
      BrowserPreemptsMinRule(d.hourlyRate, RateStep, "Rate must be positive");
      var e := Validate(d);
      if NoErrors(e) then Sent(Payload(d), SubmitTrace(settlement)) else Blocked(e)
  }

  /** A quarter hour is refused by the browser even though the library's
      rules accept it; half hours and whole cents pass. */
  lemma StepExamples()
    ensures !NumberInputOk(Some(0.25), HoursStep)
    ensures NumberInputOk(Some(1.5), HoursStep)
    ensures NumberInputOk(Some(12.34), RateStep)
    ensures !NumberInputOk(Some(0.125), RateStep)
    ensures NonNegativeError(Some(0.25), "Hours must be positive").None?
  {
  }

  /** A form with a customer, a title of three characters, a rate that is
      not negative and a quarter hour passes the library's rules yet never
      reaches the page. */
  lemma QuarterHourNeverSent(d: JobFormData, settlement: Settlement)
    requires d.customerId != "" && Utf16Length(d.title) >= 3
    requires d.estimatedHours == Some(0.25)
    requires d.hourlyRate.None? || d.hourlyRate.value >= 0.0
    ensures NoErrors(Validate(d))
    ensures Submit(d, settlement) == BrowserBlocked(true, !NumberInputOk(d.hourlyRate, RateStep))
  {
    ValidIff(d);
    StepExamples();
  }

  /** The modal title of each mode. */
  function Title(mode: Mode): (t: string)
    ensures t in {"Create New Job", "Edit Job", "Job Details"}
  {
    match mode
    case Create => "Create New Job"
    case Edit => "Edit Job"
    case View => "Job Details"
  }

  /** Each mode has its own title. */
  lemma TitleInjective(a: Mode, b: Mode)
    requires Title(a) == Title(b)
    ensures a == b
  {
  }

  function JobFooter(mode: Mode, isSubmitting: bool, isDirty: bool): (f: Footer)
    ensures mode == View ==> f == Footer("Close", isSubmitting, None)
    ensures mode == Create ==> f == Footer("Cancel", isSubmitting, Some(SubmitButton("Create Job", isSubmitting, false)))
    ensures mode == Edit ==> f == Footer("Cancel", isSubmitting, Some(SubmitButton("Save Changes", isSubmitting, !isDirty)))
  {
    FooterOf(mode, isSubmitting, isDirty, "Create Job")
  }

  /** Customers are fetched for the select only while the modal is open
      outside view mode. */
  function CustomersQueryEnabled(isOpen: bool, mode: Mode): (enabled: bool)
    ensures enabled ==> isOpen
    ensures mode == View ==> !enabled
    ensures isOpen && !ReadOnly(mode) ==> enabled
  {
    isOpen && mode != View
  }

  /** One entry of the customer select. */
  datatype SelectOption = SelectOption(value: string, caption: string)

  /** A customer's caption: `businessName || business_name || name`. */
  function CustomerCaption(c: Customer): (r: string)
    ensures Truthy(c.businessName) ==> r == c.businessName.value
    ensures !Truthy(c.businessName) && Truthy(c.wireBusinessName) ==> r == c.wireBusinessName.value
    ensures !Truthy(c.businessName) && !Truthy(c.wireBusinessName) ==> r == c.name
  {
    OrElse(c.businessName, OrElse(c.wireBusinessName, c.name))
  }

  /** The select's entries: a placeholder with an empty value, then one
      entry per customer, in order, valued by its id. */
  function CustomerOptions(customers: seq<Customer>): (r: seq<SelectOption>)
    ensures |r| == |customers| + 1
    ensures r[0] == SelectOption("", "Select a customer...")
    ensures forall i :: 0 <= i < |customers| ==>
      r[i + 1] == SelectOption(customers[i].id, CustomerCaption(customers[i]))
  {
    [SelectOption("", "Select a customer...")]
      + seq(|customers|, i requires 0 <= i < |customers| => SelectOption(customers[i].id, CustomerCaption(customers[i])))
  }

  /** Leaving the select on its placeholder fails the customer rule. */
  lemma PlaceholderFailsRequired(customers: seq<Customer>, d: JobFormData)
    requires d.customerId == CustomerOptions(customers)[0].value
    ensures Validate(d).customerId == Some("Customer is required")
  {
  }

  /** The customer field: a read-only name in view mode when the job names
      its customer, otherwise the select, disabled in view mode. */
  datatype CustomerField = NameText(name: string) | CustomerSelect(disabled: bool)

  function CustomerFieldOf(mode: Mode, job: Option<Job>): (f: CustomerField)
    ensures f.NameText? <==> mode == View && job.Some? && Truthy(job.value.customerName)
    ensures f.CustomerSelect? ==> (f.disabled <==> ReadOnly(mode))
  {
    if mode == View && job.Some? && Truthy(job.value.customerName) then NameText(job.value.customerName.value)
    else CustomerSelect(ReadOnly(mode))
  }
}

=== FILE: jobs.dfy ===
/** The jobs page: the four summary figures over the loaded jobs, the
    dispatch of a submitted form to create or update, the table cells with
    fallbacks, and the modal and delete-confirmation state. */
module Jobs {
  import opened Common
  import opened Types
  import opened Forms
  import Utils

  /** What a completed job earns: `totalAmount || actual_cost || 0`. */
  function RevenueOf(j: Job): (r: real)
    ensures TruthyNum(j.totalAmount) ==> r == j.totalAmount.value
    ensures !TruthyNum(j.totalAmount) && TruthyNum(j.actualCost) ==> r == j.actualCost.value
    ensures !TruthyNum(j.totalAmount) && !TruthyNum(j.actualCost) ==> r == 0.0
  {
    OrElseNum(j.totalAmount, OrElseNum(j.actualCost, 0.0))
  }

  /** What an unpaid job owes, also the amount cell of the table:
      `totalAmount || estimated_cost || 0`. */
  function AmountDue(j: Job): (r: real)
    ensures TruthyNum(j.totalAmount) ==> r == j.totalAmount.value
    ensures !TruthyNum(j.totalAmount) && TruthyNum(j.estimatedCost) ==> r == j.estimatedCost.value
    ensures !TruthyNum(j.totalAmount) && !TruthyNum(j.estimatedCost) ==> r == 0.0
  {
    OrElseNum(j.totalAmount, OrElseNum(j.estimatedCost, 0.0))
  }

  /** `jobs.filter(job => job.status === 'completed')`. */
  function CompletedJobs(jobs: seq<Job>): (r: seq<Job>)
    ensures |r| <= |jobs|
    ensures forall i :: 0 <= i < |r| ==> r[i].status == Completed && r[i] in jobs
    ensures forall j :: j in jobs && j.status == Completed ==> j in r
  {
    if |jobs| == 0 then []
    else
      var init := jobs[..|jobs| - 1];
      var last := jobs[|jobs| - 1];
      assert forall j :: j in jobs ==> j in init || j == last;
      CompletedJobs(init) + (if last.status == Completed then [last] else [])
  }

  /** `jobs.filter(job => job.paymentStatus === 'unpaid')`. */
  function UnpaidJobs(jobs: seq<Job>): (r: seq<Job>)
    ensures |r| <= |jobs|
    ensures forall i :: 0 <= i < |r| ==> r[i].paymentStatus == Unpaid && r[i] in jobs
    ensures forall j :: j in jobs && j.paymentStatus == Unpaid ==> j in r
  {
    if |jobs| == 0 then []
    else
      var init := jobs[..|jobs| - 1];
      var last := jobs[|jobs| - 1];
      assert forall j :: j in jobs ==> j in init || j == last;
      UnpaidJobs(init) + (if last.paymentStatus == Unpaid then [last] else [])
  }

  /** The filter keeps every completed job as often as it occurs, and
      nothing else. */
  lemma {:induction false} CompletedJobsCounts(jobs: seq<Job>)
    ensures forall j :: multiset(CompletedJobs(jobs))[j] == (if j.status == Completed then multiset(jobs)[j] else 0)
  {
    if |jobs| > 0 {
      var init := jobs[..|jobs| - 1];
      var last := jobs[|jobs| - 1];
      assert jobs == init + [last];
      CompletedJobsCounts(init);
    }
  }

  /** The filter keeps every unpaid job as often as it occurs, and
      nothing else. */
  lemma {:induction false} UnpaidJobsCounts(jobs: seq<Job>)
    ensures forall j :: multiset(UnpaidJobs(jobs))[j] == (if j.paymentStatus == Unpaid then multiset(jobs)[j] else 0)
  {
    if |jobs| > 0 {
      var init := jobs[..|jobs| - 1];
      var last := jobs[|jobs| - 1];
      assert jobs == init + [last];
      UnpaidJobsCounts(init);
    }
  }

  /** `reduce((sum, job) => sum + revenue, 0)`. */
  function SumRevenue(jobs: seq<Job>): (r: real)
    ensures jobs == [] ==> r == 0.0
    ensures (forall i :: 0 <= i < |jobs| ==> RevenueOf(jobs[i]) >= 0.0) ==> r >= 0.0
  {
    if |jobs| == 0 then 0.0 else SumRevenue(jobs[..|jobs| - 1]) + RevenueOf(jobs[|jobs| - 1])
  }

  /** `reduce((sum, job) => sum + amount due, 0)`. */
  function SumDue(jobs: seq<Job>): (r: real)
    ensures jobs == [] ==> r == 0.0
    ensures (forall i :: 0 <= i < |jobs| ==> AmountDue(jobs[i]) >= 0.0) ==> r >= 0.0
  {
    if |jobs| == 0 then 0.0 else SumDue(jobs[..|jobs| - 1]) + AmountDue(jobs[|jobs| - 1])
  }

  /** The revenue of two lists together is the sum of their revenues. */
  lemma {:induction false} SumRevenueConcat(a: seq<Job>, b: seq<Job>)
    ensures SumRevenue(a + b) == SumRevenue(a) + SumRevenue(b)
    decreases |b|
  {
    if |b| == 0 {
      assert a + b == a;
    } else {
      var b' := b[..|b| - 1];
      assert (a + b)[..|a + b| - 1] == a + b';
      SumRevenueConcat(a, b');
    }
  }

  /** The amount due of two lists together is the sum of their amounts. */
  lemma {:induction false} SumDueConcat(a: seq<Job>, b: seq<Job>)
    ensures SumDue(a + b) == SumDue(a) + SumDue(b)
    decreases |b|
  {
    if |b| == 0 {
      assert a + b == a;
    } else {
      var b' := b[..|b| - 1];
      assert (a + b)[..|a + b| - 1] == a + b';
      SumDueConcat(a, b');
    }
  }

  datatype Stats = Stats(totalJobs: nat, completedJobs: nat, totalRevenue: real, unpaidAmount: real)

  /** The summary cards, as the page computes them with filter and reduce. */
  function JobStats(jobs: seq<Job>): (s: Stats)
    ensures s.totalJobs == |jobs|
    ensures s.completedJobs <= s.totalJobs
  {
    var completed := CompletedJobs(jobs);
    Stats(|jobs|, |completed|, SumRevenue(completed), SumDue(UnpaidJobs(jobs)))
  }

  /** The figures moved by one more job. */
  function AddJob(s: Stats, j: Job): Stats {
    Stats(
      s.totalJobs + 1,
      s.completedJobs + (if j.status == Completed then 1 else 0),
      s.totalRevenue + (if j.status == Completed then RevenueOf(j) else 0.0),
      s.unpaidAmount + (if j.paymentStatus == Unpaid then AmountDue(j) else 0.0))
  }

  /** The completed jobs' figures with one more job. */
  lemma CompletedAppend(jobs: seq<Job>, j: Job)
    ensures |CompletedJobs(jobs + [j])| == |CompletedJobs(jobs)| + (if j.status == Completed then 1 else 0)
    ensures SumRevenue(CompletedJobs(jobs + [j])) ==
      SumRevenue(CompletedJobs(jobs)) + (if j.status == Completed then RevenueOf(j) else 0.0)
  {
    var all := jobs + [j];
    assert all[..|all| - 1] == jobs;
    var c := CompletedJobs(jobs);
    if j.status == Completed {
      var c2 := c + [j];
      assert c2[..|c2| - 1] == c;
    } else {
      assert c + [] == c;
    }
  }

  /** The unpaid jobs' figure with one more job. */
  lemma UnpaidAppend(jobs: seq<Job>, j: Job)
    ensures SumDue(UnpaidJobs(jobs + [j])) ==
      SumDue(UnpaidJobs(jobs)) + (if j.paymentStatus == Unpaid then AmountDue(j) else 0.0)
  {
    var all := jobs + [j];
    assert all[..|all| - 1] == jobs;
    var u := UnpaidJobs(jobs);
    if j.paymentStatus == Unpaid {
      var u2 := u + [j];
      assert u2[..|u2| - 1] == u;
    } else {
      assert u + [] == u;
    }
  }

  /** Appending one job moves each figure by that job's contribution. */
  lemma StatsAppend(jobs: seq<Job>, j: Job)
    ensures JobStats(jobs + [j]) == AddJob(JobStats(jobs), j)
  {
    CompletedAppend(jobs, j);
    UnpaidAppend(jobs, j);
  }

  /** A job that is neither completed nor unpaid only raises the job count. */
  lemma IrrelevantJobOnlyCounts(jobs: seq<Job>, j: Job)
    requires j.status != Completed && j.paymentStatus != Unpaid
    ensures JobStats(jobs + [j]) == JobStats(jobs).(totalJobs := |jobs| + 1)
  {
    StatsAppend(jobs, j);
  }

  /** A total of zero is falsy, so revenue falls through to the actual cost. */
  lemma ZeroTotalFallsThrough(j: Job, cost: real)
    requires j.totalAmount == Some(0.0) && j.actualCost == Some(cost)
    ensures RevenueOf(j) == cost
  {
  }

  /** The figures of one more prefix job. */
  lemma StatsPrefix(jobs: seq<Job>, i: nat)
    requires i < |jobs|
    ensures JobStats(jobs[..i + 1]) == AddJob(JobStats(jobs[..i]), jobs[i])
  {
    assert jobs[..i + 1] == jobs[..i] + [jobs[i]];
    StatsAppend(jobs[..i], jobs[i]);
  }

  /** The figures in one pass over the list, as a loop. */
  method ComputeStats(jobs: seq<Job>) returns (s: Stats)
    ensures s == JobStats(jobs)
  {
    s := Stats(0, 0, 0.0, 0.0);
    var i := 0;
    while i < |jobs|
      invariant 0 <= i <= |jobs|
      invariant s == JobStats(jobs[..i])
    {
      StatsPrefix(jobs, i);
      s := AddJob(s, jobs[i]);
      i := i + 1;
    }
    assert jobs[..i] == jobs;
  }

  /** The API call a submitted form triggers. */
  datatype ApiCall<D> = CreateJob(data: D) | UpdateJob(id: string, data: D)

  /** `handleFormSubmit`: create in create mode, update the selected job in
      edit mode, nothing otherwise; the form data goes through unchanged. */
  function SubmitDispatch<D>(mode: Mode, selected: Option<Job>, data: D): (call: Option<ApiCall<D>>)
    ensures call.Some? ==> call.value.data == data
    ensures call.Some? && call.value.CreateJob? <==> mode == Create
    ensures call.Some? && call.value.UpdateJob? <==> mode == Edit && selected.Some?
    ensures call.Some? && call.value.UpdateJob? ==> call.value.id == selected.value.id
  {
    if mode == Create then Some(CreateJob(data))
    else if mode == Edit && selected.Some? then Some(UpdateJob(selected.value.id, data))
    else None
  }

  datatype IconTone = RedIcon | OrangeIcon

  /** `getPriorityIcon`: a red icon for urgent, an orange one for high,
      none otherwise, whatever the case. */
  function PriorityIcon(priority: string): (r: Option<IconTone>)
    ensures r == Some(RedIcon) <==> ToLower(priority) == "urgent"
    ensures r == Some(OrangeIcon) <==> ToLower(priority) == "high"
    ensures r.None? <==> ToLower(priority) != "urgent" && ToLower(priority) != "high"
  {
    var key := ToLower(priority);
    if key == "urgent" then Some(RedIcon)
    else if key == "high" then Some(OrangeIcon)
    else None
  }

  /** The icon agrees with the priority colour of the shared utilities:
      red exactly when that colour is red, orange exactly when it is
      orange. */
  lemma IconMatchesPriorityColor(priority: string)
    ensures PriorityIcon(priority) == Some(RedIcon) <==> Utils.PriorityColor(priority) == Utils.RedClass
    ensures PriorityIcon(priority) == Some(OrangeIcon) <==> Utils.PriorityColor(priority) == Utils.OrangeClass
  {
  }

  /** Of the four priorities only high and urgent carry an icon. */
  lemma PriorityIconOfPriority(p: Priority)
    ensures PriorityIcon(PriorityName(p)).Some? <==> p == High || p == Urgent
  {
    Utils.LowerKey(PriorityName(p));
  }

  datatype ScheduleView = OnDate(date: string) | NotScheduled

  /** The schedule cell: `scheduledDate`, else `due_date`, else "Not
      scheduled". */
  function ScheduleCell(job: Job): (v: ScheduleView)
    ensures v.NotScheduled? <==> !Truthy(job.scheduledDate) && !Truthy(job.dueDate)
    ensures Truthy(job.scheduledDate) ==> v == OnDate(job.scheduledDate.value)
    ensures !Truthy(job.scheduledDate) && Truthy(job.dueDate) ==> v == OnDate(job.dueDate.value)
  {
    var date := if Truthy(job.scheduledDate) then job.scheduledDate else job.dueDate;
    if Truthy(date) then OnDate(date.value) else NotScheduled
  }

  /** The customer line of the title cell. */
  function CustomerCell(job: Job): (r: string)
    ensures r != ""
    ensures Truthy(job.customerName) ==> r == job.customerName.value
    ensures !Truthy(job.customerName) ==> r == "Unknown Customer"
  {
    OrElse(job.customerName, "Unknown Customer")
  }

  /** The estimate of the time cell: `estimatedHours || estimated_hours || 0`. */
  function HoursCell(job: Job): (r: real)
    ensures TruthyNum(job.estimatedHours) ==> r == job.estimatedHours.value
    ensures !TruthyNum(job.estimatedHours) && TruthyNum(job.wireEstimatedHours) ==> r == job.wireEstimatedHours.value
    ensures !TruthyNum(job.estimatedHours) && !TruthyNum(job.wireEstimatedHours) ==> r == 0.0
  {
    OrElseNum(job.estimatedHours, OrElseNum(job.wireEstimatedHours, 0.0))
  }

  /** The page's modal state. */
  datatype PageState = PageState(
    showModal: bool,
    modalMode: Mode,
    selected: Option<Job>,
    showDeleteModal: bool,
    jobToDelete: Option<Job>)

  const InitialPage := PageState(false, View, None, false, None)

  datatype PageEvent =
    | ViewJob(job: Job)
    | EditJob(job: Job)
    | CreateNew
    | CloseForm
    | DeleteJob(job: Job)
    | CloseDelete
    | DeleteSucceeded
    | DeleteFailed

  predicate FormEvent(ev: PageEvent) {
    ev.ViewJob? || ev.EditJob? || ev.CreateNew? || ev.CloseForm?
  }

  /** The handlers and the delete mutation's callbacks. */
  function Handle(st: PageState, ev: PageEvent): (r: PageState)
    ensures ev.ViewJob? || ev.EditJob? ==>
      r.showModal && r.selected == Some(ev.job) && r.modalMode == (if ev.ViewJob? then View else Edit)
    ensures ev.CreateNew? ==> r.showModal && r.selected.None? && r.modalMode == Create
    ensures ev.CloseForm? ==> !r.showModal && r.selected == st.selected && r.modalMode == st.modalMode
    ensures ev.DeleteJob? ==> r.showDeleteModal && r.jobToDelete == Some(ev.job)
    ensures ev.CloseDelete? ==> !r.showDeleteModal && r.jobToDelete == st.jobToDelete
    ensures ev.DeleteSucceeded? ==> !r.showDeleteModal && r.jobToDelete.None?
    ensures ev.DeleteFailed? ==> r == st
  {
    match ev
    case ViewJob(job) => st.(selected := Some(job), modalMode := View, showModal := true)
    case EditJob(job) => st.(selected := Some(job), modalMode := Edit, showModal := true)
    case CreateNew => st.(selected := None, modalMode := Create, showModal := true)
    case CloseForm => st.(showModal := false)
    case DeleteJob(job) => st.(jobToDelete := Some(job), showDeleteModal := true)
    case CloseDelete => st.(showDeleteModal := false)
    case DeleteSucceeded => st.(showDeleteModal := false, jobToDelete := None)
    case DeleteFailed => st
  }

  /** `confirmDelete`: the id handed to the delete mutation, if any. */
  function ConfirmDelete(st: PageState): (id: Option<string>)
    ensures id.Some? <==> st.jobToDelete.Some?
    ensures id.Some? ==> id.value == st.jobToDelete.value.id
  {
    if st.jobToDelete.Some? then Some(st.jobToDelete.value.id) else None
  }

  /** The form handlers leave the delete state alone, and the delete
      handlers leave the form state alone. */
  lemma HandlersAreIndependent(st: PageState, ev: PageEvent)
    ensures FormEvent(ev) ==>
      Handle(st, ev).showDeleteModal == st.showDeleteModal && Handle(st, ev).jobToDelete == st.jobToDelete
    ensures !FormEvent(ev) ==>
      Handle(st, ev).showModal == st.showModal && Handle(st, ev).modalMode == st.modalMode
      && Handle(st, ev).selected == st.selected
  {
  }

  /** Asking to delete a job and confirming deletes exactly that job; a
      successful deletion closes the dialog and clears the target, so a
      further confirmation does nothing. */
  lemma DeleteFlow(st: PageState, job: Job)
    ensures var asked := Handle(st, DeleteJob(job));
      asked.showDeleteModal && ConfirmDelete(asked) == Some(job.id)
    ensures var done := Handle(Handle(st, DeleteJob(job)), DeleteSucceeded);
      !done.showDeleteModal && ConfirmDelete(done).None?
    ensures ConfirmDelete(Handle(Handle(st, DeleteJob(job)), DeleteFailed)) == Some(job.id)
  {
  }

  /** Submitting the form right after opening it: create mode creates,
      edit mode updates the job it was opened on, view mode calls nothing. */
  lemma OpenThenSubmit<D>(st: PageState, job: Job, data: D)
    ensures var s := Handle(st, CreateNew); SubmitDispatch(s.modalMode, s.selected, data) == Some(CreateJob(data))
    ensures var s := Handle(st, EditJob(job)); SubmitDispatch(s.modalMode, s.selected, data) == Some(UpdateJob(job.id, data))
    ensures var s := Handle(st, ViewJob(job)); SubmitDispatch(s.modalMode, s.selected, data).None?
  {
  }
}

=== FILE: status_badge.dfy ===
/** The status badge: a free-form status string is normalised (lower case,
    no dashes, underscores or white space) and classified into a colour
    tone; its display text turns dashes and underscores into spaces and
    capitalises each word. */
module StatusBadge {
  import opened Common

  /** ECMAScript `\s`: the white-space and line-terminator characters. */
  predicate IsJsSpace(c: char) {
    var n := c as int;
    || n == 0x09 || n == 0x0A || n == 0x0B || n == 0x0C || n == 0x0D || n == 0x20
    || n == 0xA0 || n == 0x1680 || (0x2000 <= n <= 0x200A)
    || n == 0x2028 || n == 0x2029 || n == 0x202F || n == 0x205F || n == 0x3000 || n == 0xFEFF
  }

  /** The characters of the class `[-_\s]`. */
  predicate IsSeparator(c: char) {
    c == '-' || c == '_' || IsJsSpace(c)
  }

  /** `s.replace(/[-_\s]/g, '')`. */
  function StripSeparators(s: string): (r: string)
    ensures |r| <= |s|
    ensures forall i :: 0 <= i < |r| ==> !IsSeparator(r[i])
    ensures (forall i :: 0 <= i < |s| ==> !IsSeparator(s[i])) ==> r == s
  {
    if |s| == 0 then ""
    else (if IsSeparator(s[0]) then "" else [s[0]]) + StripSeparators(s[1..])
  }

  /** Stripping distributes over concatenation. */
  lemma {:induction false} StripConcat(a: string, b: string)
    ensures StripSeparators(a + b) == StripSeparators(a) + StripSeparators(b)
  {
    if |a| > 0 {
      assert (a + b)[1..] == a[1..] + b;
      StripConcat(a[1..], b);
    } else {
      assert a + b == b;
    }
  }

  /** Stripping keeps the lower-case form: no upper-case letter appears. */
  lemma {:induction false} StripKeepsLower(s: string)
    requires forall i :: 0 <= i < |s| ==> !IsUpper(s[i])
    ensures forall i :: 0 <= i < |StripSeparators(s)| ==> !IsUpper(StripSeparators(s)[i])
  {
    if |s| > 0 {
      StripKeepsLower(s[1..]);
      var r := StripSeparators(s);
      var head: string := if IsSeparator(s[0]) then "" else [s[0]];
      assert r == head + StripSeparators(s[1..]);
    }
  }

  /** `status.toLowerCase().replace(/[-_\s]/g, '')`. */
  function Normalize(status: string): (r: string)
    ensures |r| <= |status|
    ensures forall i :: 0 <= i < |r| ==> !IsSeparator(r[i]) && !IsUpper(r[i])
  {
    StripKeepsLower(ToLower(status));
    StripSeparators(ToLower(status))
  }

  /** Normalising an already normalised status changes nothing. */
  lemma NormalizeIdempotent(status: string)
    ensures Normalize(Normalize(status)) == Normalize(status)
  {
    var n := Normalize(status);
    assert ToLower(n) == n;
  }

  datatype Tone = Green | Blue | Red | Yellow | Orange | Gray

  const GreenStatuses: set<string> := {"completed", "paid", "active", "success"}
  const BlueStatuses: set<string> := {"pending", "scheduled", "inprogress", "processing"}
  const RedStatuses: set<string> := {"cancelled", "failed", "error", "rejected"}
  const YellowStatuses: set<string> := {"unpaid", "overdue", "warning"}
  const OrangeStatuses: set<string> := {"partiallypaid", "partial"}
  /** Listed explicitly in the switch; they share the fallback's gray. */
  const GrayStatuses: set<string> := {"draft", "inactive", "disabled"}

  predicate Recognised(key: string) {
    key in GreenStatuses || key in BlueStatuses || key in RedStatuses
    || key in YellowStatuses || key in OrangeStatuses || key in GrayStatuses
  }

  /** The tone of a status: its normalised key looked up in the groups;
      anything unrecognised is gray. */
  function Classify(status: string): (t: Tone)
    ensures t == Green <==> Normalize(status) in GreenStatuses
    ensures t == Blue <==> Normalize(status) in BlueStatuses
    ensures t == Red <==> Normalize(status) in RedStatuses
    ensures t == Yellow <==> Normalize(status) in YellowStatuses
    ensures t == Orange <==> Normalize(status) in OrangeStatuses
    ensures !Recognised(Normalize(status)) ==> t == Gray
  {
    var key := Normalize(status);
    if key in GreenStatuses then Green
    else if key in BlueStatuses then Blue
    else if key in RedStatuses then Red
    else if key in YellowStatuses then Yellow
    else if key in OrangeStatuses then Orange
    else Gray
  }

  /** Classification sees only the normalised key. */
  lemma ClassifyNormalized(status: string)
    ensures Classify(Normalize(status)) == Classify(status)
  {
    NormalizeIdempotent(status);
  }

  /** A key of lower-case letters is its own normal form. */
  lemma NormalizeKey(key: string)
    requires forall i :: 0 <= i < |key| ==> IsLower(key[i])
    ensures Normalize(key) == key
  {
    assert forall i :: 0 <= i < |key| ==> !IsSeparator(key[i]);
    assert ToLower(key) == key;
  }

  /** Normalisation distributes over concatenation. */
  lemma NormalizeConcat(a: string, b: string)
    ensures Normalize(a + b) == Normalize(a) + Normalize(b)
  {
    ToLowerConcat(a, b);
    StripConcat(ToLower(a), ToLower(b));
  }

  /** Normalisation drops a separator wherever it stands. */
  lemma NormalizeDropsSeparator(a: string, c: char, b: string)
    requires IsSeparator(c)
    ensures Normalize(a + [c] + b) == Normalize(a + b)
  {
    NormalizeConcat(a + [c], b);
    NormalizeConcat(a, [c]);
    NormalizeConcat(a, b);
    assert ToLower([c]) == [c];
    assert [c][1..] == [];
    assert Normalize([c]) == [];
    assert Normalize(a) + Normalize([c]) == Normalize(a);
  }

  /** A separator inserted anywhere does not change the tone. */
  lemma ClassifyIgnoresSeparator(a: string, c: char, b: string)
    requires IsSeparator(c)
    ensures Classify(a + [c] + b) == Classify(a + b)
  {
    NormalizeDropsSeparator(a, c, b);
  }

  /** Lower-casing the status first does not change the tone. */
  lemma ClassifyIgnoresCase(status: string)
    ensures Classify(ToLower(status)) == Classify(status)
  {
    ToLowerIdempotent(status);
  }

  /** Two lower-case words joined by one separator normalise to the words
      run together. */
  lemma NormalizeJoined(a: string, c: char, b: string)
    requires forall i :: 0 <= i < |a| ==> IsLower(a[i])
    requires forall i :: 0 <= i < |b| ==> IsLower(b[i])
    requires IsSeparator(c)
    ensures Normalize(a + [c] + b) == a + b
  {
    NormalizeKey(a + b);
    NormalizeDropsSeparator(a, c, b);
  }

  /** "in" and "progress" joined by any separator normalise to one key. */
  lemma InProgressJoinedKey(c: char)
    requires IsSeparator(c)
    ensures Normalize("in" + [c] + "progress") == "inprogress"
  {
    NormalizeJoined("in", c, "progress");
    assert "in" + "progress" == "inprogress";
  }

  /** "in" and "progress" joined by any separator is blue. */
  lemma InProgressJoined(c: char)
    requires IsSeparator(c)
    ensures Classify("in" + [c] + "progress") == Blue
  {
    InProgressJoinedKey(c);
    assert Normalize("in" + [c] + "progress") in BlueStatuses;
  }

  /** Title case is lower-cased before the lookup. */
  lemma InProgressTitleCase()
    ensures Classify("In Progress") == Blue
  {
    assert ToLower("In Progress") == "in" + [' '] + "progress";
    InProgressJoined(' ');
    ClassifyIgnoresCase("In Progress");
  }

  /** Every spelling of "in progress" is blue. */
  lemma InProgressSpellings()
    ensures Classify("in-progress") == Blue
    ensures Classify("in_progress") == Blue
    ensures Classify("In Progress") == Blue
  {
    InProgressJoined('-');
    assert "in-progress" == "in" + ['-'] + "progress";
    InProgressJoined('_');
    assert "in_progress" == "in" + ['_'] + "progress";
    InProgressTitleCase();
  }

  /** The classes a badge uses. */
  datatype BadgeConfig = BadgeConfig(color: string, dotColor: string)

  function ConfigOf(t: Tone): BadgeConfig {
    match t
    case Green => BadgeConfig("bg-green-100 text-green-800 border-green-200", "bg-green-400")
    case Blue => BadgeConfig("bg-blue-100 text-blue-800 border-blue-200", "bg-blue-400")
    case Red => BadgeConfig("bg-red-100 text-red-800 border-red-200", "bg-red-400")
    case Yellow => BadgeConfig("bg-yellow-100 text-yellow-800 border-yellow-200", "bg-yellow-400")
    case Orange => BadgeConfig("bg-orange-100 text-orange-800 border-orange-200", "bg-orange-400")
    case Gray => BadgeConfig("bg-gray-100 text-gray-800 border-gray-200", "bg-gray-400")
  }

  /** `getStatusConfig`. */
  function StatusConfig(status: string): (c: BadgeConfig)
    ensures c == ConfigOf(Classify(status))
  {
    ConfigOf(Classify(status))
  }

  /** Distinct tones have distinct classes. */
  lemma ConfigOfInjective(s: Tone, t: Tone)
    requires ConfigOf(s) == ConfigOf(t)
    ensures s == t
  {
  }

  /** A draft is gray. */
  lemma DraftIsGray()
    ensures Classify("draft") == Gray
  {
    NormalizeKey("draft");
  }

  /** An unrecognised status looks exactly like a draft. */
  lemma UnknownLooksLikeDraft(status: string)
    requires !Recognised(Normalize(status))
    ensures StatusConfig(status) == StatusConfig("draft")
  {
    DraftIsGray();
    assert Classify(status) == Gray;
  }

  datatype Variant = Default | Dot

  /** The colour class the badge renders: the dot colour for the dot
      variant, the badge colour otherwise. */
  function BadgeClass(status: string, variant: Variant): (r: string)
    ensures variant == Dot ==> r == StatusConfig(status).dotColor
    ensures variant == Default ==> r == StatusConfig(status).color
  {
    var config := StatusConfig(status);
    if variant == Dot then config.dotColor else config.color
  }

  /** JavaScript `\w`: ASCII letters, digits and underscore. */
  predicate IsWordChar(c: char) {
    IsLetter(c) || IsDigit(c) || c == '_'
  }

  predicate IsAlnum(c: char) {
    IsLetter(c) || IsDigit(c)
  }

  /** `s.replace(/[-_]/g, ' ')`. */
  function DashesToSpaces(s: string): (r: string)
    ensures |r| == |s|
    ensures forall i :: 0 <= i < |s| ==> r[i] == (if s[i] == '-' || s[i] == '_' then ' ' else s[i])
  {
    seq(|s|, i requires 0 <= i < |s| => if s[i] == '-' || s[i] == '_' then ' ' else s[i])
  }

  /** `s.replace(/\b\w/g, l => l.toUpperCase())`: a word character with no
      word character before it is upper-cased. */
  function CapitalizeWords(s: string): (r: string)
    ensures |r| == |s|
    ensures forall i :: 0 <= i < |s| && IsWordChar(s[i]) && (i == 0 || !IsWordChar(s[i - 1])) ==>
      r[i] == UpperChar(s[i])
    ensures forall i :: 0 <= i < |s| && !(IsWordChar(s[i]) && (i == 0 || !IsWordChar(s[i - 1]))) ==>
      r[i] == s[i]
  {
    seq(|s|, i requires 0 <= i < |s| =>
      if IsWordChar(s[i]) && (i == 0 || !IsWordChar(s[i - 1])) then UpperChar(s[i]) else s[i])
  }

  /** Position `i` of the original status starts a word of the display
      text: a letter or digit not preceded by a letter or digit. */
  predicate WordStart(s: string, i: int)
    requires 0 <= i < |s|
  {
    IsAlnum(s[i]) && (i == 0 || !IsAlnum(s[i - 1]))
  }

  /** The badge's text: same length as the status; dashes and underscores
      become spaces, each word-initial letter is upper-cased, every other
      character is kept. */
  function DisplayText(status: string): (r: string)
    ensures |r| == |status|
    ensures forall i :: 0 <= i < |status| && (status[i] == '-' || status[i] == '_') ==> r[i] == ' '
    ensures forall i :: 0 <= i < |status| && WordStart(status, i) ==> r[i] == UpperChar(status[i])
    ensures forall i :: 0 <= i < |status| && status[i] != '-' && status[i] != '_' && !WordStart(status, i) ==>
      r[i] == status[i]
  {
    var spaced := DashesToSpaces(status);
    var r := CapitalizeWords(spaced);
    assert forall i :: 0 <= i < |status| ==> (IsWordChar(spaced[i]) <==> IsAlnum(status[i]));
    r
  }

  /** One character of the display text: never a dash or underscore, and a
      letter or digit exactly where the status has one. */
  lemma DisplayChar(status: string, i: nat)
    requires i < |status|
    ensures var d := DisplayText(status);
      && d[i] != '-' && d[i] != '_'
      && (IsAlnum(d[i]) <==> IsAlnum(status[i]))
      && (WordStart(status, i) ==> d[i] == UpperChar(status[i]))
      && (!WordStart(status, i) && IsAlnum(status[i]) ==> d[i] == status[i])
  {
  }

  /** Rendering a display text again changes nothing. */
  lemma DisplayTextIdempotent(status: string)
    ensures DisplayText(DisplayText(status)) == DisplayText(status)
  {
    var d := DisplayText(status);
    var dd := DisplayText(d);
    forall i | 0 <= i < |d| ensures dd[i] == d[i] {
      DisplayChar(status, i);
      if i > 0 {
        DisplayChar(status, i - 1);
      }
      assert WordStart(d, i) <==> WordStart(status, i);
    }
  }
}

=== FILE: trackable.dfy ===
/** The tracking wrappers around buttons, links and forms, the click-tracking
    hook and the tracking higher-order component. Each handler is modelled as
    the sequence of effects it performs, in order: calls into the analytics
    provider and the call of the wrapped element's own handler. */
module Trackable {
  import opened Common
  import opened Analytics

  datatype Effect = Track(call: Action) | CallHandler

  /** Position an effect must take in a handler: event call, then feature
      interaction, then the original handler. */
  function Rank(e: Effect): nat {
    match e
    case CallHandler => 2
    case Track(a) => if a.EventCall? then 0 else if a.FeatureCall? then 1 else 3
  }

  /** Each kind of effect happens at most once, in rank order. */
  predicate Ordered(r: seq<Effect>) {
    forall i, j :: 0 <= i < j < |r| ==> Rank(r[i]) < Rank(r[j])
  }

  predicate HasEventCall(r: seq<Effect>) {
    exists i :: 0 <= i < |r| && Rank(r[i]) == 0
  }

  predicate HasFeatureCall(r: seq<Effect>) {
    exists i :: 0 <= i < |r| && Rank(r[i]) == 1
  }

  predicate HasHandler(r: seq<Effect>) {
    exists i :: 0 <= i < |r| && Rank(r[i]) == 2
  }

  /** Every tracking effect in `r` is a `trackEvent` of `name` or a feature
      interaction of `feature`/`action`, both with `props`. */
  predicate CallsWith(r: seq<Effect>, name: string, feature: string, action: string, props: Option<Props>) {
    forall i :: 0 <= i < |r| && r[i].Track? ==>
      (r[i].call == EventCall(name, props) || r[i].call == FeatureCall(feature, action, props))
  }

  function EventPart(event: Option<string>, props: Option<Props>): (r: seq<Effect>)
    ensures |r| <= 1
    ensures |r| == 1 <==> Truthy(event)
    ensures |r| == 1 ==> r[0] == Track(EventCall(event.value, props))
  {
    if Truthy(event) then [Track(EventCall(event.value, props))] else []
  }

  function FeaturePart(feature: Option<string>, action: Option<string>, props: Option<Props>): (r: seq<Effect>)
    ensures |r| <= 1
    ensures |r| == 1 <==> Truthy(feature) && Truthy(action)
    ensures |r| == 1 ==> r[0] == Track(FeatureCall(feature.value, action.value, props))
  {
    if Truthy(feature) && Truthy(action) then [Track(FeatureCall(feature.value, action.value, props))] else []
  }

  function HandlerPart(present: bool): (r: seq<Effect>)
    ensures |r| <= 1 && (|r| == 1 <==> present)
    ensures |r| == 1 ==> r[0] == CallHandler
  {
    if present then [CallHandler] else []
  }

  /** `TrackableButton`'s click handler. */
  function ButtonClick(trackingEvent: Option<string>, props: Option<Props>,
                       feature: Option<string>, action: Option<string>, hasOnClick: bool): (r: seq<Effect>)
    ensures Ordered(r)
    ensures HasEventCall(r) <==> Truthy(trackingEvent)
    ensures HasFeatureCall(r) <==> Truthy(feature) && Truthy(action)
    ensures HasHandler(r) <==> hasOnClick
    ensures CallsWith(r, OrElse(trackingEvent, ""), OrElse(feature, ""), OrElse(action, ""), props)
  {
    var ev := EventPart(trackingEvent, props);
    var r := ev + FeaturePart(feature, action, props) + HandlerPart(hasOnClick);
    assert hasOnClick ==> Rank(r[|r| - 1]) == 2;
    assert Truthy(trackingEvent) ==> Rank(r[0]) == 0;
    assert Truthy(feature) && Truthy(action) ==> Rank(r[|ev|]) == 1;
    r
  }

  /** `TrackableLink`'s click handler: only ever a `trackEvent`, then the
      original handler. */
  function LinkClick(trackingEvent: Option<string>, props: Option<Props>, hasOnClick: bool): (r: seq<Effect>)
    ensures Ordered(r)
    ensures !HasFeatureCall(r)
    ensures HasEventCall(r) <==> Truthy(trackingEvent)
    ensures HasHandler(r) <==> hasOnClick
    ensures CallsWith(r, OrElse(trackingEvent, ""), "", "", props)
  {
    var ev := EventPart(trackingEvent, props);
    var h := HandlerPart(hasOnClick);
    if hasOnClick then
      var r := ev + h;
      assert Rank(r[|r| - 1]) == 2;
      assert Truthy(trackingEvent) ==> Rank(r[0]) == 0;
      r
    else
      assert ev + h == ev;
      ev
  }

  /** `TrackableForm`'s submit handler: a feature interaction with action
      `form_submit` whenever a feature is named. */
  function FormSubmit(trackingEvent: Option<string>, props: Option<Props>,
                      feature: Option<string>, hasOnSubmit: bool): (r: seq<Effect>)
    ensures Ordered(r)
    ensures HasEventCall(r) <==> Truthy(trackingEvent)
    ensures HasFeatureCall(r) <==> Truthy(feature)
    ensures HasHandler(r) <==> hasOnSubmit
    ensures CallsWith(r, OrElse(trackingEvent, ""), OrElse(feature, ""), "form_submit", props)
  {
    var featurePart := if Truthy(feature) then [Track(FeatureCall(feature.value, "form_submit", props))] else [];
    var r := EventPart(trackingEvent, props) + featurePart + HandlerPart(hasOnSubmit);
    assert hasOnSubmit ==> Rank(r[|r| - 1]) == 2;
    assert Truthy(feature) ==> Rank(r[|EventPart(trackingEvent, props)|]) == 1;
    r
  }

  /** `trackClick` of `useTrackClick`: the event is always tracked, whatever
      its name; the feature interaction only with both feature and action. */
  function TrackClick(eventName: string, props: Option<Props>, feature: Option<string>, action: Option<string>): (r: seq<Effect>)
    ensures Ordered(r)
    ensures HasEventCall(r) && !HasHandler(r)
    ensures HasFeatureCall(r) <==> Truthy(feature) && Truthy(action)
    ensures CallsWith(r, eventName, OrElse(feature, ""), OrElse(action, ""), props)
  {
    var r := [Track(EventCall(eventName, props))] + FeaturePart(feature, action, props);
    assert Rank(r[0]) == 0;
    assert Truthy(feature) && Truthy(action) ==> Rank(r[1]) == 1;
    r
  }

  /** The mount effect of a component wrapped by `withTracking`: the
      per-instance event name, else the default one, tracked with the default
      properties overridden by the per-instance ones; nothing when neither
      name is given. */
  function WrappedMount(trackingEvent: Option<string>, trackingProps: Option<Props>,
                        defaultEvent: Option<string>, defaultProps: Option<Props>): (r: seq<Effect>)
    ensures Ordered(r) && !HasFeatureCall(r) && !HasHandler(r)
    ensures HasEventCall(r) <==> Truthy(trackingEvent) || Truthy(defaultEvent)
    ensures |r| == 1 ==>
      && r[0].Track? && r[0].call.EventCall?
      && r[0].call.name == (if Truthy(trackingEvent) then trackingEvent.value else defaultEvent.value)
      && r[0].call.props.Some?
      && r[0].call.props.value.Keys == Spread(defaultProps).Keys + Spread(trackingProps).Keys
      && (forall k :: k in Spread(trackingProps) ==> r[0].call.props.value[k] == Spread(trackingProps)[k])
      && (forall k :: k in Spread(defaultProps) && k !in Spread(trackingProps) ==>
            r[0].call.props.value[k] == Spread(defaultProps)[k])
  {
    var eventToTrack := if Truthy(trackingEvent) then trackingEvent else defaultEvent;
    EventPart(eventToTrack, Some(Spread(defaultProps) + Spread(trackingProps)))
  }

  datatype Outcome = Outcome(provider: Provider, handlerCalls: nat)

  /** Runs a handler's effects against the provider, all at the same instant. */
  function Perform(p: Provider, env: Env, effects: seq<Effect>): (r: Outcome)
  {
    if |effects| == 0 then Outcome(p, 0)
    else
      var prev := Perform(p, env, effects[..|effects| - 1]);
      match effects[|effects| - 1]
      case CallHandler => Outcome(prev.provider, prev.handlerCalls + 1)
      case Track(a) => Outcome(Apply(prev.provider, Step(env, a)), prev.handlerCalls)
  }

  function TrackEffects(effects: seq<Effect>): nat {
    if |effects| == 0 then 0
    else TrackEffects(effects[..|effects| - 1]) + (if effects[|effects| - 1].Track? then 1 else 0)
  }

  /** Performing effects whose tracking calls are all event or feature calls
      appends one event per tracking effect and calls the handler once per
      handler effect; nothing queued before is disturbed. */
  lemma {:induction false} PerformAppends(p: Provider, env: Env, effects: seq<Effect>)
    requires forall i :: 0 <= i < |effects| && effects[i].Track? ==> IsTrack(effects[i].call)
    ensures |Perform(p, env, effects).provider.queue| == |p.queue| + TrackEffects(effects)
    ensures Perform(p, env, effects).provider.queue[..|p.queue|] == p.queue
    ensures Perform(p, env, effects).provider.posted == p.posted
    ensures Perform(p, env, effects).handlerCalls == |effects| - TrackEffects(effects)
  {
    if |effects| > 0 {
      var init := effects[..|effects| - 1];
      PerformAppends(p, env, init);
      var prev := Perform(p, env, init);
      if effects[|effects| - 1].Track? {
        var r := Apply(prev.provider, Step(env, effects[|effects| - 1].call));
        assert r.queue[..|p.queue|] == r.queue[..|prev.provider.queue|][..|p.queue|];
      }
    }
  }

  /** Performing `a + b` performs `a`, then `b` from where `a` left off. */
  lemma {:induction false} PerformConcat(p: Provider, env: Env, a: seq<Effect>, b: seq<Effect>)
    ensures Perform(p, env, a + b).provider == Perform(Perform(p, env, a).provider, env, b).provider
    ensures Perform(p, env, a + b).handlerCalls
            == Perform(p, env, a).handlerCalls + Perform(Perform(p, env, a).provider, env, b).handlerCalls
  {
    if |b| == 0 {
      assert a + b == a;
    } else {
      var b' := b[..|b| - 1];
      assert (a + b)[..|a + b| - 1] == a + b';
      PerformConcat(p, env, a, b');
    }
  }

  /** Performing at most one effect: a tracking call advances the provider,
      the handler call only counts. */
  lemma PerformAtMostOne(p: Provider, env: Env, xs: seq<Effect>)
    requires |xs| <= 1
    ensures |xs| == 0 ==> Perform(p, env, xs) == Outcome(p, 0)
    ensures |xs| == 1 && xs[0].Track? ==> Perform(p, env, xs) == Outcome(Apply(p, Step(env, xs[0].call)), 0)
    ensures |xs| == 1 && xs[0].CallHandler? ==> Perform(p, env, xs) == Outcome(p, 1)
  {
    if |xs| == 1 {
      assert xs[..0] == [];
    }
  }

  lemma EventPartStep(p: Provider, env: Env, event: Option<string>, props: Option<Props>)
    ensures Perform(p, env, EventPart(event, props))
            == Outcome(if Truthy(event) then TrackEvent(p, env, event.value, props) else p, 0)
  {
    PerformAtMostOne(p, env, EventPart(event, props));
  }

  lemma FeaturePartStep(p: Provider, env: Env, feature: Option<string>, action: Option<string>, props: Option<Props>)
    ensures Perform(p, env, FeaturePart(feature, action, props))
            == Outcome(if Truthy(feature) && Truthy(action)
                       then TrackFeatureInteraction(p, env, feature.value, action.value, props) else p, 0)
  {
    PerformAtMostOne(p, env, FeaturePart(feature, action, props));
  }

  lemma HandlerPartStep(p: Provider, env: Env, present: bool)
    ensures Perform(p, env, HandlerPart(present)) == Outcome(p, if present then 1 else 0)
  {
    PerformAtMostOne(p, env, HandlerPart(present));
  }

  /** The provider after a button click: `trackEvent` when an event is
      named, then `trackFeatureInteraction` when feature and action are both
      given; the handler call counted once when present. */
  lemma ButtonClickSteps(p: Provider, env: Env, trackingEvent: Option<string>, props: Option<Props>,
                         feature: Option<string>, action: Option<string>, hasOnClick: bool)
    ensures
      var out := Perform(p, env, ButtonClick(trackingEvent, props, feature, action, hasOnClick));
      var p1 := if Truthy(trackingEvent) then TrackEvent(p, env, trackingEvent.value, props) else p;
      && out.provider == (if Truthy(feature) && Truthy(action)
                          then TrackFeatureInteraction(p1, env, feature.value, action.value, props) else p1)
      && out.handlerCalls == (if hasOnClick then 1 else 0)
  {
    var ev := EventPart(trackingEvent, props);
    var fp := FeaturePart(feature, action, props);
    var h := HandlerPart(hasOnClick);
    assert ButtonClick(trackingEvent, props, feature, action, hasOnClick) == ev + fp + h;
    PerformConcat(p, env, ev + fp, h);
    PerformConcat(p, env, ev, fp);
    EventPartStep(p, env, trackingEvent, props);
    var p1 := Perform(p, env, ev).provider;
    FeaturePartStep(p1, env, feature, action, props);
    HandlerPartStep(Perform(p1, env, fp).provider, env, hasOnClick);
  }

  /** Clicking a tracked button appends one event per configured tracking
      call, the plain event before the feature interaction, and always calls
      the original handler when there is one, whatever the tracking
      configuration. */
  lemma ButtonClickEffect(p: Provider, env: Env, trackingEvent: Option<string>, props: Option<Props>,
                          feature: Option<string>, action: Option<string>, hasOnClick: bool)
    ensures
      var out := Perform(p, env, ButtonClick(trackingEvent, props, feature, action, hasOnClick));
      var events := (if Truthy(trackingEvent) then 1 else 0) + (if Truthy(feature) && Truthy(action) then 1 else 0);
      && |out.provider.queue| == |p.queue| + events
      && out.provider.queue[..|p.queue|] == p.queue
      && out.handlerCalls == (if hasOnClick then 1 else 0)
      && (Truthy(trackingEvent) ==> out.provider.queue[|p.queue|].eventName == trackingEvent.value)
      && (Truthy(feature) && Truthy(action) ==>
            out.provider.queue[|p.queue| + events - 1].eventName == "feature_interaction")
  {
    ButtonClickSteps(p, env, trackingEvent, props, feature, action, hasOnClick);
    var q := Perform(p, env, ButtonClick(trackingEvent, props, feature, action, hasOnClick)).provider;
    var p1 := if Truthy(trackingEvent) then TrackEvent(p, env, trackingEvent.value, props) else p;
    var second := Truthy(feature) && Truthy(action);
    if second {
      QueueAfterTwoSteps(p, p1, q, Truthy(trackingEvent));
    } else {
      assert q == p1;
    }
  }

  /** The queue after an optional append followed by one more append: the
      old queue stays in front, the first append's event comes next. */
  lemma QueueAfterTwoSteps(p: Provider, p1: Provider, p2: Provider, first: bool)
    requires if first then AppendsOne(p, p1) else p1 == p
    requires AppendsOne(p1, p2)
    ensures |p2.queue| == |p.queue| + (if first then 2 else 1)
    ensures p2.queue[..|p.queue|] == p.queue
    ensures first ==> p2.queue[|p.queue|] == p1.queue[|p.queue|]
  {
    assert p2.queue[..|p.queue|] == p2.queue[..|p1.queue|][..|p.queue|];
    if first {
      assert p2.queue[|p.queue|] == p2.queue[..|p1.queue|][|p.queue|];
    }
  }
}

=== FILE: types.dfy ===
/** The records the dashboard exchanges with its REST API: jobs and
    customers, with their status, priority and payment enumerations. */
module Types {
  import opened Common

  datatype JobStatus = Scheduled | InProgress | Completed | Cancelled
  datatype Priority = Low | Medium | High | Urgent
  datatype PaymentStatus = Paid | Unpaid | PartiallyPaid

  /** The wire spelling of each job status. */
  function StatusName(s: JobStatus): (r: string)
    ensures r != ""
  {
    match s
    case Scheduled => "scheduled"
    case InProgress => "in-progress"
    case Completed => "completed"
    case Cancelled => "cancelled"
  }

  function PriorityName(p: Priority): (r: string)
    ensures r != ""
  {
    match p
    case Low => "low"
    case Medium => "medium"
    case High => "high"
    case Urgent => "urgent"
  }

  function PaymentName(p: PaymentStatus): (r: string)
    ensures r != ""
  {
    match p
    case Paid => "paid"
    case Unpaid => "unpaid"
    case PartiallyPaid => "partially-paid"
  }

  /** Distinct statuses have distinct wire names. */
  lemma StatusNameInjective(a: JobStatus, b: JobStatus)
    requires StatusName(a) == StatusName(b)
    ensures a == b
  {
  }

  /** A job as the pages read it. The declared fields come first; the last
      five are sent by the server under snake_case names the declaration
      omits (`customer_id`, `due_date`, `estimated_hours`, `actual_cost`,
      `estimated_cost`) and are read by the pages and forms all the same.
      Hours and amounts are exact rationals. */
  datatype Job = Job(
    id: string,
    customerId: string,
    customerName: Option<string>,
    title: string,
    description: Option<string>,
    status: JobStatus,
    priority: Priority,
    scheduledDate: Option<string>,
    estimatedHours: Option<real>,
    hourlyRate: Option<real>,
    totalAmount: Option<real>,
    paymentStatus: PaymentStatus,
    location: Option<string>,
    notes: Option<string>,
    wireCustomerId: Option<string>,
    dueDate: Option<string>,
    wireEstimatedHours: Option<real>,
    actualCost: Option<real>,
    estimatedCost: Option<real>)

  /** A customer; `wireBusinessName` is the server's `business_name`. */
  datatype Customer = Customer(
    id: string,
    name: string,
    email: Option<string>,
    phone: Option<string>,
    address: Option<string>,
    businessName: Option<string>,
    wireBusinessName: Option<string>,
    notes: Option<string>)

  /** The optional date bounds of a search. */
  datatype DateRange = DateRange(start: string, end: string)

  /** The list filters the pages send to the API. */
  datatype SearchFilters = SearchFilters(
    search: Option<string>,
    status: Option<string>,
    priority: Option<string>,
    paymentStatus: Option<string>,
    dateRange: Option<DateRange>)
}

=== FILE: utils.dfy ===
/** The colour helpers of the shared utilities: case-insensitive lookups of
    a status or a priority, with gray as the fallback. Unlike the status
    badge they do not strip separators. */
module Utils {
  import opened Common
  import opened Types
  import StatusBadge

  const BlueClass := "bg-blue-100 text-blue-800"
  const YellowClass := "bg-yellow-100 text-yellow-800"
  const GreenClass := "bg-green-100 text-green-800"
  const RedClass := "bg-red-100 text-red-800"
  const OrangeClass := "bg-orange-100 text-orange-800"
  const GrayClass := "bg-gray-100 text-gray-800"

  const StatusKeys: set<string> :=
    {"scheduled", "in-progress", "completed", "cancelled", "paid", "unpaid", "partially-paid"}
  const PriorityKeys: set<string> := {"low", "medium", "high", "urgent"}

  /** `getStatusColor`: the lower-cased status looked up among the job and
      payment statuses; anything else is gray. */
  function StatusColor(status: string): (r: string)
    ensures ToLower(status) !in StatusKeys ==> r == GrayClass
    ensures r in {BlueClass, YellowClass, GreenClass, RedClass, GrayClass}
  {
    var key := ToLower(status);
    if key == "scheduled" then BlueClass
    else if key == "in-progress" then YellowClass
    else if key == "completed" then GreenClass
    else if key == "cancelled" then RedClass
    else if key == "paid" then GreenClass
    else if key == "unpaid" then RedClass
    else if key == "partially-paid" then YellowClass
    else GrayClass
  }

  /** `getPriorityColor`: the lower-cased priority looked up; anything
      else gets the class of `low`. */
  function PriorityColor(priority: string): (r: string)
    ensures ToLower(priority) !in PriorityKeys ==> r == GrayClass
    ensures r in {GrayClass, BlueClass, OrangeClass, RedClass}
  {
    var key := ToLower(priority);
    if key == "low" then GrayClass
    else if key == "medium" then BlueClass
    else if key == "high" then OrangeClass
    else if key == "urgent" then RedClass
    else GrayClass
  }

  /** Lower-casing the argument first changes neither lookup. */
  lemma ColorsIgnoreCase(s: string)
    ensures StatusColor(ToLower(s)) == StatusColor(s)
    ensures PriorityColor(ToLower(s)) == PriorityColor(s)
  {
    ToLowerIdempotent(s);
  }

  /** A string without upper-case letters is its own lower-case form. */
  lemma LowerKey(key: string)
    requires forall i :: 0 <= i < |key| ==> !IsUpper(key[i])
    ensures ToLower(key) == key
  {
  }

  /** The colour of each job status under its wire name. */
  lemma JobStatusColors(s: JobStatus)
    ensures StatusColor(StatusName(s)) ==
      match s
      case Scheduled => BlueClass
      case InProgress => YellowClass
      case Completed => GreenClass
      case Cancelled => RedClass
  {
    LowerKey(StatusName(s));
  }

  /** The colour of each payment status under its wire name. */
  lemma PaymentStatusColors(p: PaymentStatus)
    ensures StatusColor(PaymentName(p)) ==
      match p
      case Paid => GreenClass
      case Unpaid => RedClass
      case PartiallyPaid => YellowClass
  {
    LowerKey(PaymentName(p));
  }

  /** The colour of each priority under its wire name. */
  lemma PriorityColors(p: Priority)
    ensures PriorityColor(PriorityName(p)) ==
      match p
      case Low => GrayClass
      case Medium => BlueClass
      case High => OrangeClass
      case Urgent => RedClass
  {
    LowerKey(PriorityName(p));
  }

  /** The four priorities get four different colours, whatever the case
      they are written in. */
  lemma PriorityColorInjective(p: Priority, q: Priority, a: string, b: string)
    requires ToLower(a) == PriorityName(p) && ToLower(b) == PriorityName(q)
    requires PriorityColor(a) == PriorityColor(b)
    ensures p == q
  {
    LowerKey(PriorityName(p));
    LowerKey(PriorityName(q));
  }

  /** An unknown priority is coloured like `low`. */
  lemma UnknownPriorityIsLow(priority: string)
    requires ToLower(priority) !in PriorityKeys
    ensures PriorityColor(priority) == PriorityColor("low")
  {
    LowerKey("low");
  }

  /** Without separator stripping, "in progress" is not recognised here,
      while the badge classifies it as in progress. */
  lemma SpacedStatusIsGray()
    ensures StatusColor("in progress") == GrayClass
    ensures StatusBadge.Classify("in progress") == StatusBadge.Blue
  {
    LowerKey("in progress");
    StatusBadge.InProgressJoined(' ');
    assert "in progress" == "in" + [' '] + "progress";
  }

  lemma PartiallyPaidKey()
    ensures StatusBadge.Normalize("partially-paid") == "partiallypaid"
  {
    StatusBadge.NormalizeJoined("partially", '-', "paid");
    assert "partially-paid" == "partially" + ['-'] + "paid";
    assert "partially" + "paid" == "partiallypaid";
  }

  /** Unpaid is red here and yellow on a badge. */
  lemma UnpaidColorDiffersFromBadge()
    ensures StatusColor("unpaid") == RedClass
    ensures StatusBadge.Classify("unpaid") == StatusBadge.Yellow
  {
    LowerKey("unpaid");
    StatusBadge.NormalizeKey("unpaid");
  }

  /** Partially paid is yellow here and orange on a badge. */
  lemma PartiallyPaidColorDiffersFromBadge()
    ensures StatusColor("partially-paid") == YellowClass
    ensures StatusBadge.Classify("partially-paid") == StatusBadge.Orange
  {
    LowerKey("partially-paid");
    PartiallyPaidKey();
  }
}
